=== FILE: README.md ===
# HP Multiplayer, modelled in Dafny

This project models the networking and synchronisation core of HP Multiplayer. HP Multiplayer is a
mod that lets several copies of a single-player game share one world over UDP. The model covers:

- **the binary protocol** (`Protocol`, `Wire`): the nine message kinds, their little-endian frames and
  their parsers;
- **the dedicated server** (`ServerSession`, `ServerPlayers`, `ServerObjects`, `ServerCli`): admission
  and rejection of players, relaying of poses, the tick, the timeout sweep, shutdown, the command line
  and the console loop;
- **the client of the dedicated server** (`Client`): connecting, the receive thread, the main-thread
  queue, the handshake retry and the pose send;
- **the peer-to-peer manager** (`PeerToPeer`): the host/joiner handshake, the pose and state frames,
  disconnection;
- **the handshake retry policy** shared by both clients (`Retry`);
- **world-state synchronisation** (`StateSync`, `Snapshot`, `ObjectFinder`): the object snapshot
  format, change detection, applying a snapshot, and finding and naming the scene objects to sync;
- **server discovery** (`Discovery`): the text protocol spoken with the master server and on the local
  broadcast port;
- **helpers** (`Text`, `Enumeration`, `Wrappers`, `Net`): .NET's `Split`, `Trim`, `ToLower` and
  `int.TryParse`, unordered dictionary enumeration, and the shared result and endpoint types.

Conventions:

- Bytes are a `byte` newtype and C# `int` is an `int32` newtype. Wrap-around of `int` addition is
  explicit (`Wire.Add32`).
- Floats are opaque four-byte words: the model copies them and never does arithmetic on them.
- Text on the wire (player names, object ids, reject reasons) is UTF-8 bytes. The discovery protocol
  and the console work on already-decoded `string`s.
- Time is integer milliseconds, passed in as a parameter.
- Sockets are flags saying whether a socket is open. Every send becomes a returned datagram.
- Where the source enumerates a `Dictionary`, the model lets the enumeration order be arbitrary. The
  methods that enumerate return the order they chose.
- Closures queued for the main thread become an `Action` datatype. It carries exactly the values the
  receive thread captured, and it is applied at `Update`.

## Model

| member | source | states |
|---|---|---|
| Wire.Add32 | HPMultiplayer/Networking/NetworkProtocol.cs:238 | C# `int` addition: the exact sum when it fits in 32 bits, otherwise the sum shifted by 2^32 |
| Wire.LeValueOfLeBytes | HPMultiplayer/Networking/NetworkProtocol.cs:55-58 | `BitConverter` little-endian encoding of n bytes reads back every value below 256^n |
| Wire.LeBytesOfLeValue | HPMultiplayer/Networking/NetworkProtocol.cs:55-58 | every byte string is the little-endian encoding of the value it denotes |
| Wire.ReadInt32Bytes | HPMultiplayer/Networking/NetworkProtocol.cs:160-203 | `ToInt32` at any offset reads back the int32 `GetBytes` wrote there, whatever surrounds it |
| Wire.Int32BytesOfRead | HPMultiplayer/Networking/NetworkProtocol.cs:160-203 | the four bytes at an offset are exactly the encoding of the int32 read there |
| Wire.ReadVec3Bytes | HPMultiplayer/Networking/NetworkProtocol.cs:208-226 | a `Vector3F` written as three floats reads back unchanged at any offset |
| Protocol.TypeOf | HPMultiplayer/Networking/NetworkProtocol.cs:11-22 | a byte names a message kind iff it is 1..9, and then it is that kind's code |
| Protocol.TypeOfCode | HPMultiplayer/Networking/NetworkProtocol.cs:11-22 | every kind's code is read back as that kind |
| Protocol.ConnectionMessage | HPMultiplayer/Networking/NetworkProtocol.cs:51-62 | the connection frame is the code, the id, the name length and the name, 9 + n bytes |
| Protocol.AcceptedMessage | HPMultiplayer/Networking/NetworkProtocol.cs:67-73 | the accept frame is 5 bytes and carries the assigned id |
| Protocol.RejectedMessage | HPMultiplayer/Networking/NetworkProtocol.cs:78-88 | the reject frame carries the reason's length and then the reason |
| Protocol.PlayerUpdateMessage | HPMultiplayer/Networking/NetworkProtocol.cs:93-105 | the 29-byte update frame: id, then the six floats of position and rotation in order |
| Protocol.PlayerJoinedMessage | HPMultiplayer/Networking/NetworkProtocol.cs:110-121 | the join announcement carries the id, the name length and the name |
| Protocol.PlayerLeftMessage | HPMultiplayer/Networking/NetworkProtocol.cs:126-132 | the 5-byte leave frame carries the id |
| Protocol.DisconnectMessage | HPMultiplayer/Networking/NetworkProtocol.cs:137-143 | the 5-byte disconnect frame carries the id |
| Protocol.GameStateMessage | HPMultiplayer/Networking/NetworkProtocol.cs:148-155 | the state frame carries the blob's length and then the blob |
| Protocol.ParseConnection | HPMultiplayer/Networking/NetworkProtocol.cs:160-203 | a frame is accepted iff it has the header, a name length in 0..256 and that many bytes; the result is the id and exactly those bytes |
| Protocol.ConnectionRoundTrip | HPMultiplayer/Networking/NetworkProtocol.cs:51-62 | a request whose name has at most 256 bytes parses back to itself |
| Protocol.ConnectionLongNameRejected | HPMultiplayer/Networking/NetworkProtocol.cs:176-180 | a request whose name is longer than 256 bytes is refused |
| Protocol.ConnectionTruncated | HPMultiplayer/Networking/NetworkProtocol.cs:160-203 | every proper prefix of a valid request is refused |
| Protocol.ParsePlayerUpdate | HPMultiplayer/Networking/NetworkProtocol.cs:208-226 | parses iff the frame has at least 29 bytes; the id and both vectors are the bytes at 1, 5 and 17 |
| Protocol.PlayerUpdateRoundTrip | HPMultiplayer/Networking/NetworkProtocol.cs:93-105 | an update frame parses back to its id, position and rotation, whatever its first byte and trailing bytes |
| Protocol.ReadPrefixed | HPMultiplayer/Networking/ClientNetworkManager.cs:298-305 | a length-prefixed field is read iff its declared length is non-negative and fits in the frame |
| Protocol.ParseGameState | HPMultiplayer/Networking/NetworkProtocol.cs:231-244 | the corrected parser accepts iff the declared length is non-negative and fits; the result is those bytes |
| Protocol.GameStateNegativeLengthFaults | HPMultiplayer/Networking/NetworkProtocol.cs:235-241 | the parser as written passes a length of -1 through its guard and faults |
| Protocol.GameStateWrappingLengthFaults | HPMultiplayer/Networking/NetworkProtocol.cs:237-238 | the parser as written lets int.MaxValue through its guard by wrap-around and faults |
| Protocol.GameStateCorrectedAgrees | HPMultiplayer/Networking/NetworkProtocol.cs:231-244 | where the parser as written returns normally, the corrected parser gives the same answer; it refuses where the original faults |
| Protocol.GameStateRoundTrip | HPMultiplayer/Networking/NetworkProtocol.cs:148-155 | a state frame parses back to its blob, both as written and corrected |
| Protocol.GameStateTruncated | HPMultiplayer/Networking/NetworkProtocol.cs:235-238 | every proper prefix of a state frame is refused |
| ServerPlayers.NewServerPlayer | HPMultiplayer/Server/ServerPlayer.cs:21-31 | a new player is connected, at the origin, with both clocks at the join time |
| ServerPlayers.UpdatePosition | HPMultiplayer/Server/ServerPlayer.cs:33-38 | an update sets the pose and the update time and nothing else |
| ServerPlayers.UpdatePositionOverwrites | HPMultiplayer/Server/ServerPlayer.cs:33-38 | the second of two updates wins outright |
| ServerSession.NewSession | HPMultiplayer/Server/ServerNetworkManager.cs:51-56 | a new server is valid and empty, not running, and its next id is 1 |
| ServerSession.Broadcast | HPMultiplayer/Server/ServerNetworkManager.cs:295-332 | a broadcast reaches exactly the connected players other than the excluded id |
| ServerSession.RecipientsInValid | HPMultiplayer/Server/ServerNetworkManager.cs:295-311 | in a valid server, the recipients are exactly the registered endpoints other than the excluded player's |
| ServerSession.HandleConnection | HPMultiplayer/Server/ServerNetworkManager.cs:196-239 | a known endpoint is re-accepted with its id; a full server answers "Server is full"; a malformed request answers "Invalid connection message"; capacity is never exceeded |
| ServerSession.Admit | HPMultiplayer/Server/ServerNetworkManager.cs:225-229 | admission adds exactly the next id, mapped from the sender, and leaves every other player alone |
| ServerSession.AdmitKeepsValid | HPMultiplayer/Server/ServerNetworkManager.cs:225-229 | the next id is above every id in use, so admission keeps the two dictionaries consistent |
| ServerSession.AdmittedStep | HPMultiplayer/Server/ServerNetworkManager.cs:225-238 | admission accepts the newcomer and announces it to everyone else |
| ServerSession.Admission | HPMultiplayer/Server/ServerNetworkManager.cs:225-238 | a newcomer gets a fresh id above all others, both dictionaries gain exactly that entry, and the server stays valid |
| ServerSession.AdmissionAnnounced | HPMultiplayer/Server/ServerNetworkManager.cs:231-238 | the newcomer is accepted; every earlier player, and not the newcomer, hears the join |
| ServerSession.DuplicateRequestIsIdempotent | HPMultiplayer/Server/ServerNetworkManager.cs:198-206 | a repeated request from an admitted endpoint changes nothing and re-sends the same accept |
| ServerSession.HandlePlayerUpdate | HPMultiplayer/Server/ServerNetworkManager.cs:244-261 | an update from a registered endpoint moves that endpoint's player and refreshes its heartbeat; nothing else changes; the relay, stamped with the sender's registered id, reaches exactly the other registered endpoints; anything else is ignored |
| ServerSession.RelayExcludesSender | HPMultiplayer/Server/ServerNetworkManager.cs:259-260 | a relay excluding the sender's id reaches only other registered endpoints |
| ServerSession.RelayReachesOthers | HPMultiplayer/Server/ServerNetworkManager.cs:259-260 | a relay excluding the sender's id reaches every other registered endpoint |
| ServerSession.UpdateIgnoresClaimedId | HPMultiplayer/Server/ServerNetworkManager.cs:246-260 | the id written in an update frame has no effect: the server uses the sender's registered id |
| ServerSession.RemovePlayer | HPMultiplayer/Server/ServerNetworkManager.cs:277-290 | removal drops exactly that player and its endpoint, tells every remaining connected player, and keeps the server valid |
| ServerSession.RemovalKeepsValid | HPMultiplayer/Server/ServerNetworkManager.cs:277-290 | removing a player from both dictionaries keeps them consistent |
| ServerSession.HandleDisconnect | HPMultiplayer/Server/ServerNetworkManager.cs:266-272 | a disconnect from a registered endpoint removes that endpoint's player; from anyone else it does nothing |
| ServerSession.ProcessMessage | HPMultiplayer/Server/ServerNetworkManager.cs:164-191 | empty frames and kinds other than connect, update and disconnect are ignored; validity and capacity are preserved |
| ServerSession.TickMessages | HPMultiplayer/Server/ServerNetworkManager.cs:337-373 | a tick sends only the non-empty world snapshot to connected players and each connected player's pose to the connected players other than itself |
| ServerSession.TickSendsNothingElse | HPMultiplayer/Server/ServerNetworkManager.cs:337-373 | in a consistent server every tick datagram goes to a registered endpoint; an empty world sends no snapshot; a pose never goes back to its own player |
| ServerSession.TickReachesOthers | HPMultiplayer/Server/ServerNetworkManager.cs:337-373 | on every tick each connected player receives every other connected player's pose |
| ServerSession.TickNoEcho | HPMultiplayer/Server/ServerNetworkManager.cs:356-365 | no player is sent its own pose |
| ServerSession.TickCarriesWorld | HPMultiplayer/Server/ServerNetworkManager.cs:348-354 | a non-empty world state reaches every connected player |
| ServerSession.Cleanup | HPMultiplayer/Server/ServerNetworkManager.cs:378-404 | exactly the timed-out players are removed; every remaining connected player hears about each one; validity is kept |
| ServerSession.Stop | HPMultiplayer/Server/ServerNetworkManager.cs:105-133 | every connected player is sent a disconnect with its own id; both dictionaries are emptied |
| ServerSession.ConnectedPlayerCount | HPMultiplayer/Server/ServerNetworkManager.cs:40-49 | in a valid server the count of connected players is the number of players |
| ServerSession.NeverOverCapacity | HPMultiplayer/Server/ServerNetworkManager.cs:208-215 | no sequence of datagrams takes the server beyond its maximum player count |
| ServerObjects.NewObjectState | HPMultiplayer/Server/GameStateManager.cs:78-83 | a new object is at the origin under its id |
| ServerObjects.RegisterObject | HPMultiplayer/Server/GameStateManager.cs:43-55 | registering adds or overwrites that one entry's pose and keeps the table keyed by object id |
| ServerObjects.UnregisterObject | HPMultiplayer/Server/GameStateManager.cs:60-66 | unregistering drops exactly that key and keeps every entry stored under its own id |
| ServerObjects.RegisterTwice | HPMultiplayer/Server/GameStateManager.cs:43-55 | the second registration of an id wins |
| ServerObjects.RegisterThenUnregister | HPMultiplayer/Server/GameStateManager.cs:43-66 | unregistering a freshly registered id restores the table |
| ServerObjects.SerializeObject | HPMultiplayer/Server/GameStateManager.cs:85-106 | an object's record is the id length byte, the id, the position and the rotation with w = 0 |
| ServerObjects.SerializeObjectRoundTrip | HPMultiplayer/Server/GameStateManager.cs:85-106 | an object with an id shorter than 256 bytes reads back as its record |
| ServerObjects.ObjectsRoundTrip | HPMultiplayer/Server/GameStateManager.cs:22-38 | a snapshot of the table reads back as the objects' records in snapshot order |
| ServerObjects.SerializeState | HPMultiplayer/Server/GameStateManager.cs:22-38 | every object is written once, in some enumeration order; the snapshot is empty iff the table is; it reads back as the records |
| Snapshot.RecordBytes | HPMultiplayer/Synchronization/GameStateSync.cs:250-279 | a record is the id length modulo 256, the id and the 28-byte pose |
| Snapshot.EncodeRecordsAppend | HPMultiplayer/Synchronization/GameStateSync.cs:152-194 | records are written one after another |
| Snapshot.EncodeRecordsEmpty | HPMultiplayer/Synchronization/GameStateSync.cs:189-193 | a snapshot is empty iff it has no records |
| Snapshot.ReadRecord | HPMultiplayer/Synchronization/GameStateSync.cs:66-96 | a record is read iff the bytes its length byte announces are all there |
| Snapshot.ReadRecordBytes | HPMultiplayer/Synchronization/GameStateSync.cs:66-96 | a record with an id shorter than 256 bytes reads back, consuming exactly its bytes |
| Snapshot.ShortTailHasNoRecord | HPMultiplayer/Synchronization/GameStateSync.cs:73-96 | fewer than 29 trailing bytes never yield a record |
| Snapshot.RecordsCons | HPMultiplayer/Synchronization/GameStateSync.cs:66-96 | reading a record's bytes yields the record and then whatever the rest yields |
| Snapshot.RecordsOfEncoding | HPMultiplayer/Synchronization/GameStateSync.cs:66-96 | a snapshot of short-id records, followed by a short tail, reads back as exactly those records |
| Snapshot.RecordsOfPrefix | HPMultiplayer/Synchronization/GameStateSync.cs:66-96 | a truncated snapshot yields a prefix of the full snapshot's records |
| Snapshot.OneRecordThenGarbage | HPMultiplayer/Synchronization/GameStateSync.cs:73-96 | a 34-byte record followed by three stray bytes reads as that one record |
| Snapshot.LongIdDoesNotRoundTrip | HPMultiplayer/Synchronization/GameStateSync.cs:258-259 | an id of 256 bytes is written with length byte 0 and does not read back as itself |
| StateSync.NewSyncedObject | HPMultiplayer/Synchronization/GameStateSync.cs:214-225 | a new synced object starts unchanged, with its last pose at its current pose, or at the origin when it has no transform |
| StateSync.HasChanged | HPMultiplayer/Synchronization/GameStateSync.cs:227-243 | a live object reports a change iff it was already marked or has moved; moving records the current pose and sets the mark |
| StateSync.MarkSynced | HPMultiplayer/Synchronization/GameStateSync.cs:245-248 | clears the change mark and nothing else |
| StateSync.ChangedIsSticky | HPMultiplayer/Synchronization/GameStateSync.cs:227-248 | a marked object keeps reporting a change until it is synced; afterwards only movement counts |
| StateSync.Serialize | HPMultiplayer/Synchronization/GameStateSync.cs:250-279 | a live object writes its record (read back as its id and current pose) and is marked synced; a dead one writes nothing |
| StateSync.SingleRecordRoundTrip | HPMultiplayer/Synchronization/GameStateSync.cs:250-279 | one written record reads back as itself |
| StateSync.SetNetworkTarget | HPMultiplayer/Synchronization/GameStateSync.cs:308-313 | sets the target and the update flag and touches nothing else |
| StateSync.RegisterObject | HPMultiplayer/Synchronization/GameStateSync.cs:40-47 | adds a fresh synced object under a new id and never replaces an existing one |
| StateSync.UnregisterObject | HPMultiplayer/Synchronization/GameStateSync.cs:52-59 | drops exactly that id |
| StateSync.NameFromId | HPMultiplayer/Synchronization/GameStateSync.cs:115-142 | an id yields a name iff it contains an underscore |
| StateSync.NameFromIdRecovers | HPMultiplayer/Synchronization/GameStateSync.cs:115-142 | `prefix_name_suffix` yields `name`, even when the name itself contains underscores |
| StateSync.ApplyRecord | HPMultiplayer/Synchronization/GameStateSync.cs:100-142 | a record retargets a registered live object, leaves a dead one alone, and registers an unknown id only when its name is found, and then as a live object at the pose found, targeted at the record's pose |
| StateSync.ApplyRecords | HPMultiplayer/Synchronization/GameStateSync.cs:64-150 | applying records only adds ids from the records that have a name, and only retargets existing objects |
| StateSync.ApplyState | HPMultiplayer/Synchronization/GameStateSync.cs:64-150 | an empty snapshot changes nothing; otherwise the same as applying its records |
| StateSync.ApplyRecordsAppend | HPMultiplayer/Synchronization/GameStateSync.cs:64-150 | applying records one batch after another equals applying them together |
| StateSync.TruncatedSnapshotIsPrefix | HPMultiplayer/Synchronization/GameStateSync.cs:73-96 | a truncated snapshot applies a prefix of the records, and the rest completes it |
| StateSync.ApplyEncodedRecords | HPMultiplayer/Synchronization/GameStateSync.cs:64-150 | applying a written snapshot equals applying the records it was written from |
| StateSync.SyncObject | HPMultiplayer/Synchronization/GameStateSync.cs:172-185 | an included object writes its record and is marked synced; any other object is untouched |
| StateSync.SelectedEmpty | HPMultiplayer/Synchronization/GameStateSync.cs:169-193 | nothing is written iff no object qualifies |
| StateSync.SyncAll | HPMultiplayer/Synchronization/GameStateSync.cs:159-187 | every object is visited once; the snapshot holds the qualifying objects' records in visit order |
| StateSync.SyncPass | HPMultiplayer/Synchronization/GameStateSync.cs:152-194 | an empty registry does nothing; a full sync is forced once a second; the event fires iff some object qualifies, with the written snapshot |
| ObjectFinder.Filter | HPMultiplayer/Synchronization/GameObjectFinder.cs:19-47 | keeps exactly the scene objects that pass the test |
| ObjectFinder.FindNPCs | HPMultiplayer/Synchronization/GameObjectFinder.cs:19-47 | exactly the active objects whose lower-cased names pass the NPC keyword test |
| ObjectFinder.FindInteractiveObjects | HPMultiplayer/Synchronization/GameObjectFinder.cs:52-76 | exactly the active objects whose lower-cased names pass the interactive keyword test |
| ObjectFinder.ObjectId | HPMultiplayer/Synchronization/GameObjectFinder.cs:100 | `prefix_name_instanceId` starts with the prefix and an underscore, and the name is recovered from it |
| ObjectFinder.NpcId | HPMultiplayer/Synchronization/GameObjectFinder.cs:100 | the host's NPC id starts with `npc_` and recovers the object's name |
| ObjectFinder.InteractiveId | HPMultiplayer/Synchronization/GameObjectFinder.cs:114 | the host's interactive id starts with `interactive_` and recovers the object's name |
| ObjectFinder.ClientId | HPMultiplayer/Synchronization/GameObjectFinder.cs:134-136 | the client uses the NPC prefix iff the name mentions "npc" or "character" |
| ObjectFinder.PrefixesDiffer | HPMultiplayer/Synchronization/GameObjectFinder.cs:100-114 | an object's NPC id and interactive id never coincide |
| ObjectFinder.ClientAgreesOnNpcKeyword | HPMultiplayer/Synchronization/GameObjectFinder.cs:134-136 | the client and the host give the same id to an NPC whose name mentions "npc" |
| ObjectFinder.ClientDisagreesOnGuest | HPMultiplayer/Synchronization/GameObjectFinder.cs:134-136 | an object found as an NPC only through "guest" gets different ids on host and client |
| ObjectFinder.Candidates | HPMultiplayer/Synchronization/GameObjectFinder.cs:93-143 | a scan considers only scene objects that are NPCs or interactive |
| ObjectFinder.RegisterFound | HPMultiplayer/Synchronization/GameObjectFinder.cs:93-143 | each id not yet found is registered once, as the live object of a candidate with that id at that object's pose; the found set grows by exactly the new ids and covers every candidate |
| ObjectFinder.AllFoundRegistersNothing | HPMultiplayer/Synchronization/GameObjectFinder.cs:101-120 | candidates that were all found before register nothing |
| ObjectFinder.Scan | HPMultiplayer/Synchronization/GameObjectFinder.cs:81-155 | within two seconds of the last scan nothing happens; otherwise every candidate of the scene ends up found, only candidates are registered, each id once, as the live candidate object at its pose, and existing entries are kept |
| ObjectFinder.RescanRegistersNothing | HPMultiplayer/Synchronization/GameObjectFinder.cs:81-155 | scanning an unchanged scene again registers nothing |
| Retry.Decide | HPMultiplayer/Networking/ClientNetworkManager.cs:111-128 | wait within a second of the last attempt; then resend while fewer than five retries were made, and give up after that |
| Retry.Step | HPMultiplayer/Networking/ClientNetworkManager.cs:111-128 | each request spends exactly one retry; a request goes out iff a second has passed and retries are left, and stamps the time; the handshake ends iff a second has passed with the retries spent; a finished handshake never moves |
| Retry.RunBudget | HPMultiplayer/Networking/NetworkManager.cs:156-173 | the retry count stays within 0..5, and each request after the first is one retry |
| Retry.AtMostSixRequests | HPMultiplayer/Networking/ClientNetworkManager.cs:63-128 | an unanswered handshake sends at most six connection requests |
| Retry.GivesUp | HPMultiplayer/Networking/ClientNetworkManager.cs:111-128 | frames at least a second apart end an unanswered handshake after the remaining retries |
| Retry.StaysDone | HPMultiplayer/Networking/NetworkManager.cs:156-173 | a finished handshake never changes again |
| Client.ToServer | HPMultiplayer/Networking/ClientNetworkManager.cs:401-414 | a message goes to the server iff an endpoint is set and the socket is open |
| Client.ConnectToServer | HPMultiplayer/Networking/ClientNetworkManager.cs:63-90 | succeeds iff the address parses and the socket can be created, and then resets the handshake and sends a request with id 0; a bad address stores only the name, a socket failure also keeps the endpoint; a failure sends nothing |
| Client.Shutdown | HPMultiplayer/Networking/ClientNetworkManager.cs:163-179 | says goodbye only when connected, then closes everything and forgets the remote players |
| Client.Classify | HPMultiplayer/Networking/ClientNetworkManager.cs:205-355 | the corrected handlers: each queued action comes from a frame of its own kind and carries exactly the fields that frame declares; every well-formed frame of a handled kind yields its action; the client's own update is dropped |
| Client.ClientFramesRoundTrip | HPMultiplayer/Networking/ClientNetworkManager.cs:205-355 | every frame the server builds is read back by the client as the action it describes, except its own pose |
| Client.ClassifyCorrectsOnlyFaults | HPMultiplayer/Networking/ClientNetworkManager.cs:205-355 | wherever the handlers as written return normally, the corrected ones do the same |
| Client.ShortJoinedFaults | HPMultiplayer/Networking/ClientNetworkManager.cs:298-301 | a six-byte join frame throws as written and is dropped when corrected |
| Client.NegativeReasonFaults | HPMultiplayer/Networking/ClientNetworkManager.cs:258-263 | a reject frame declaring length -1 throws as written and is dropped when corrected |
| Client.Receive | HPMultiplayer/Networking/ClientNetworkManager.cs:181-203 | only datagrams from the configured server, while the socket is open, can queue an action; nothing else changes |
| Client.ReceiveAsWritten | HPMultiplayer/Networking/ClientNetworkManager.cs:181-203 | the receive loop stops exactly when a handler throws; otherwise it behaves as the corrected one |
| Client.ShortJoinedStopsReceiving | HPMultiplayer/Networking/ClientNetworkManager.cs:181-203 | one short join frame from the server ends the receive loop |
| Client.OwnUpdateIgnored | HPMultiplayer/Networking/ClientNetworkManager.cs:277-278 | the client's own pose relayed back queues nothing |
| Client.Apply | HPMultiplayer/Networking/ClientNetworkManager.cs:237-355 | the queued closures: the first accept sets the id and connects; remotes are created, moved and removed as announced, and nothing else changes (an update touches only its own entry); reject and disconnect shut down |
| Client.DuplicateAcceptIgnored | HPMultiplayer/Networking/ClientNetworkManager.cs:237-254 | only the first accept takes effect |
| Client.ApplyAllQuiet | HPMultiplayer/Networking/ClientNetworkManager.cs:98-108 | a queue without shutdowns sends nothing and keeps the server endpoint |
| Client.Update | HPMultiplayer/Networking/ClientNetworkManager.cs:95-145 | drains the queue first; then follows the retry decision while unconfirmed; then sends the pose at most every 33 ms while connected |
| Client.ConnectedSendsPose | HPMultiplayer/Networking/ClientNetworkManager.cs:137-144 | a connected client with nothing queued sends exactly its pose iff 33 ms have passed, and otherwise nothing; only its send stamp changes, and only when it sends |
| Client.UpdateFollowsRetry | HPMultiplayer/Networking/ClientNetworkManager.cs:110-130 | one frame of an unanswered handshake moves the retry count, the timestamp and the pending state exactly as the shared retry policy does, and sends the request exactly when the policy counts one |
| Client.IdleFramesQuiet | HPMultiplayer/Networking/ClientNetworkManager.cs:110-131 | a client with no server, no connection and nothing queued is left unchanged and silent by any run of frames |
| Client.FramesFollowRetry | HPMultiplayer/Networking/ClientNetworkManager.cs:95-131 | over any run of frames without an answer, the client sends exactly the requests the retry policy counts |
| Client.UnansweredConnectSendsAtMostSix | HPMultiplayer/Networking/ClientNetworkManager.cs:63-131 | a connection attempt to a server that never answers sends at most six requests in all |
| PeerToPeer.PeerTypeOf | HPMultiplayer/Networking/NetworkManager.cs:16-22 | a byte names a peer message kind iff it is 1..4 |
| PeerToPeer.PeerTypeOfCode | HPMultiplayer/Networking/NetworkManager.cs:16-22 | every peer kind's code is read back as that kind |
| PeerToPeer.PeerConnectionMessage | HPMultiplayer/Networking/NetworkManager.cs:378-387 | the handshake frame is 5 bytes and carries the sender's id |
| PeerToPeer.PeerUpdateMessage | HPMultiplayer/Networking/NetworkManager.cs:389-425 | the peer pose frame parses back as its id and vectors |
| PeerToPeer.PeerDisconnectMessage | HPMultiplayer/Networking/NetworkManager.cs:427-436 | the goodbye frame is 5 bytes and carries the id |
| PeerToPeer.PeerGameStateMessage | HPMultiplayer/Networking/NetworkManager.cs:460-470 | the state frame parses back as its blob |
| PeerToPeer.SendToRemote | HPMultiplayer/Networking/NetworkManager.cs:438-455 | a message goes out iff there is a remote end and an open socket |
| PeerToPeer.SendPose | HPMultiplayer/Networking/NetworkManager.cs:389-425 | the pose goes out only while connected |
| PeerToPeer.StartHost | HPMultiplayer/Networking/NetworkManager.cs:76-100 | the host takes id 1 and the port pair (port, port + 1); it is connected iff the bind succeeds on a valid port |
| PeerToPeer.ConnectToHost | HPMultiplayer/Networking/NetworkManager.cs:105-135 | the joiner takes id 2, binds port + 1 and sends one handshake to the host, unless the address or a port is bad |
| PeerToPeer.PeerShutdown | HPMultiplayer/Networking/NetworkManager.cs:209-226 | says goodbye only when connected, then closes and forgets everything but the ports and the id |
| PeerToPeer.PeerClassify | HPMultiplayer/Networking/NetworkManager.cs:248-376 | the corrected handlers: each action carries exactly what its frame says |
| PeerToPeer.PeerClassifyCorrectsOnlyFaults | HPMultiplayer/Networking/NetworkManager.cs:248-376 | wherever the handlers as written return normally, the corrected ones do the same |
| PeerToPeer.BareDisconnectFaults | HPMultiplayer/Networking/NetworkManager.cs:360-362 | a one-byte disconnect frame throws as written and is dropped when corrected |
| PeerToPeer.PeerReceiveAsWritten | HPMultiplayer/Networking/NetworkManager.cs:228-246 | the receive loop stops exactly when a handler throws |
| PeerToPeer.PeerReceive | HPMultiplayer/Networking/NetworkManager.cs:228-246 | while the socket is open each datagram queues at most its action; nothing else changes |
| PeerToPeer.PeerFramesRoundTrip | HPMultiplayer/Networking/NetworkManager.cs:248-269 | each frame one end builds is read by the other end as the action it describes |
| PeerToPeer.PeerApply | HPMultiplayer/Networking/NetworkManager.cs:271-376 | the host answers a new joiner with its own handshake and pose; the joiner confirms once; poses and goodbyes send nothing and change only the player table (a pose only its own entry) |
| PeerToPeer.HostAnswersOnce | HPMultiplayer/Networking/NetworkManager.cs:284-297 | a repeated handshake from the same joiner sends nothing |
| PeerToPeer.JoinerConfirmsOnce | HPMultiplayer/Networking/NetworkManager.cs:271-323 | the host's answer reaches the joiner, connects it exactly once, and a repeat does nothing |
| PeerToPeer.OwnPoseIgnored | HPMultiplayer/Networking/NetworkManager.cs:325-358 | a peer ignores a pose carrying its own id |
| PeerToPeer.SendGameState | HPMultiplayer/Networking/NetworkManager.cs:460-470 | a snapshot goes out only while connected to a remote end |
| PeerToPeer.PeerUpdate | HPMultiplayer/Networking/NetworkManager.cs:140-190 | drains the queue; retries the joiner's handshake by the retry policy, resending the handshake frame; sends the pose at most every 33 ms; a connected peer changes only its send stamp and sends nothing more when no send is due |
| PeerToPeer.PeerConnectedSendsPose | HPMultiplayer/Networking/NetworkManager.cs:175-188 | a connected peer with nothing queued sends exactly its pose iff 33 ms have passed, and otherwise nothing; only its send stamp changes, and only when it sends |
| PeerToPeer.PeerUpdateFollowsRetry | HPMultiplayer/Networking/NetworkManager.cs:155-173 | one frame of an unanswered join moves the retry count, the timestamp and the pending state exactly as the shared retry policy does, and sends the handshake frame exactly when the policy counts one |
| PeerToPeer.PeerIdleFramesQuiet | HPMultiplayer/Networking/NetworkManager.cs:155-176 | a peer with no remote end, no connection and nothing queued is left unchanged and silent by any run of frames |
| PeerToPeer.PeerFramesFollowRetry | HPMultiplayer/Networking/NetworkManager.cs:140-176 | over any run of frames without an answer, the joiner sends exactly the handshake frames the retry policy counts |
| PeerToPeer.UnansweredJoinSendsAtMostSix | HPMultiplayer/Networking/NetworkManager.cs:105-176 | a join to a host that never answers sends at most six handshake frames in all |
| Discovery.NewBrowser | HPMultiplayer/Networking/MasterServerClient.cs:31-68 | a new browser lists no servers and is unregistered |
| Discovery.PortOr | HPMultiplayer/Networking/MasterServerClient.cs:160 | a port field that parses is used as is; any other field gives 7777 |
| Discovery.Upsert | HPMultiplayer/Networking/MasterServerClient.cs:166-180 | a new server is added under `ip:port`; a known one only has its time refreshed |
| Discovery.Triples | HPMultiplayer/Networking/MasterServerClient.cs:366-391 | listings are read in threes and an incomplete trailing group is dropped |
| Discovery.TriplesOfListingFields | HPMultiplayer/Networking/MasterServerClient.cs:366-391 | a listing written as fields reads back as itself, whatever trailing fragment follows |
| Discovery.UpsertAllKeys | HPMultiplayer/Networking/MasterServerClient.cs:366-391 | a listing adds exactly its servers' keys |
| Discovery.UpsertAllKeeps | HPMultiplayer/Networking/MasterServerClient.cs:375-389 | a listing never changes the name, address or port of a server already known |
| Discovery.ProcessMessage | HPMultiplayer/Networking/MasterServerClient.cs:355-398 | only `SERVERLIST` touches the server table; it upserts the triples that follow |
| Discovery.ServerListRoundTrip | HPMultiplayer/Networking/MasterServerClient.cs:355-398 | a master listing of some servers adds exactly those servers |
| Discovery.OnBroadcast | HPMultiplayer/Networking/MasterServerClient.cs:142-207 | only a `SERVER|` advertisement can change the table; only a `DISCOVER` probe to a registered host is answered, with its advertisement |
| Discovery.AdvertSplit | HPMultiplayer/Networking/MasterServerClient.cs:153-160 | an advertisement splits back into its name, address and port |
| Discovery.AdvertRoundTrip | HPMultiplayer/Networking/MasterServerClient.cs:153-182 | another host's advertisement is listed under its name, address and port |
| Discovery.OwnAdvertIgnored | HPMultiplayer/Networking/MasterServerClient.cs:164 | a host never lists its own advertisement |
| Discovery.DiscoverIsAnswered | HPMultiplayer/Networking/MasterServerClient.cs:184-195 | a probe answered by a registered host makes another browser list that host |
| Discovery.RegisterServer | HPMultiplayer/Networking/MasterServerClient.cs:73-105 | remembers name and port; registers with the master iff it is reachable; always starts broadcasting |
| Discovery.StartLocalBroadcast | HPMultiplayer/Networking/MasterServerClient.cs:115-140 | opens the broadcast socket and, if possible, the listener, and changes nothing else |
| Discovery.UnregisterServer | HPMultiplayer/Networking/MasterServerClient.cs:212-230 | sends `UNREGISTER` and clears the flag only when registered with a reachable master |
| Discovery.RequestServerList | HPMultiplayer/Networking/MasterServerClient.cs:235-281 | `LIST` goes to the master iff it is reachable, then `DISCOVER` is broadcast iff a listener is open, and nothing else is sent; only the two socket flags change |
| Discovery.Evict | HPMultiplayer/Networking/MasterServerClient.cs:319-331 | exactly the servers seen within the timeout remain, unchanged |
| Discovery.Update | HPMultiplayer/Networking/MasterServerClient.cs:286-332 | the heartbeat goes out iff registered with the master for five seconds; the advertisement iff registered and two seconds have passed; nothing else is sent; each send stamps its own clock and nothing else but the server list changes; stale servers go |
| Discovery.UpdatePaced | HPMultiplayer/Networking/MasterServerClient.cs:288-312 | a heartbeat is not repeated within five seconds, nor an advertisement within two |
| Discovery.OnMasterMessage | HPMultiplayer/Networking/MasterServerClient.cs:334-353 | a master datagram can only change the server table |
| Discovery.Shutdown | HPMultiplayer/Networking/MasterServerClient.cs:436-446 | unregisters if it can, closes all three sockets and forgets every server |
| ServerCli.ParseArgs | HPMultiplayer/Server/Program.cs:23-42 | the result is help iff a help flag occurs before any value-consuming flag swallows it; otherwise the last parsable value of each flag, else the default |
| ServerCli.NoArgumentsGiveDefaults | HPMultiplayer/Server/Program.cs:20-21 | no arguments give port 7777 and 16 players |
| ServerCli.PortValueConsumed | HPMultiplayer/Server/Program.cs:25-30 | `-port` swallows the next argument even when it is `-h` |
| ServerCli.DanglingFlagIgnored | HPMultiplayer/Server/Program.cs:31 | a flag with no following argument is ignored |
| ServerCli.HelpFirst | HPMultiplayer/Server/Program.cs:37-41 | a leading `-h` or `-help` shows help whatever follows |
| ServerCli.SettingIsLast | HPMultiplayer/Server/Program.cs:25-36 | a flag's setting is its last parsable value |
| ServerCli.SettingDefault | HPMultiplayer/Server/Program.cs:20-21 | a flag never given keeps its default |
| ServerCli.Configure | HPMultiplayer/Server/Program.cs:50 | the server is built valid and empty with the parsed port and capacity |
| ServerCli.CommandTable | HPMultiplayer/Server/Program.cs:77-97 | quit/exit/stop quit; help shows the commands; status/info the status; players/list the players; anything else is unknown |
| ServerCli.Dispatch | HPMultiplayer/Server/Program.cs:72-75 | end of input and blank lines are skipped; an unknown command is reported trimmed and lower-cased |
| ServerCli.NormalizeIdempotent | HPMultiplayer/Server/Program.cs:72 | trimming and lower-casing twice is the same as once |
| ServerCli.CaseAndPaddingIgnored | HPMultiplayer/Server/Program.cs:72 | a command in capitals with surrounding white space is recognised as the plain word |
| ServerCli.Session | HPMultiplayer/Server/Program.cs:70-98 | the console handles lines in order and stops right after the first quit |
| Text.SplitJoin | HPMultiplayer/Networking/MasterServerClient.cs:155 | splitting a `|`-joined list of `|`-free fields recovers the fields |
| Text.JoinSplit | HPMultiplayer/Networking/MasterServerClient.cs:357 | re-joining the parts of a split recovers the text |
| Text.ContainsIff | HPMultiplayer/Synchronization/GameObjectFinder.cs:30-41 | `Contains` holds iff the pattern occurs at some position |
| Text.TrimPadded | HPMultiplayer/Server/Program.cs:72 | `Trim` removes exactly the surrounding white space |
| Text.ParseDecimal | HPMultiplayer/Networking/MasterServerClient.cs:372 | `int.TryParse` reads back every int written in decimal |
| Text.ParseIntRejectsBlank | HPMultiplayer/Server/Program.cs:27 | a blank argument does not parse |
| Text.ParseIntRejectsNonNumbers | HPMultiplayer/Server/Program.cs:27 | an argument starting with anything but white space, a sign or a digit does not parse |

## Left out

- Sockets, threads and the queue lock. Socket creation, binding and sending are flags and returned datagrams. The receive callbacks are functions applied one datagram at a time. Interleavings of the receive thread with `Update` are not modelled.
- UTF-8 encoding and decoding. Wire text is kept as bytes; the master-server and broadcast protocol is kept as decoded strings.
- Floating point. Vectors and quaternions are opaque words. The "has moved" thresholds of `SyncedObject.HasChanged` are an abstract `moved` predicate.
- Interpolation in `NetworkPlayer`, `NetworkTransform` and `SyncedObject` (lerp/slerp), and all Unity scene manipulation: these are float math and engine calls. Scene contents are passed in as a list of objects.
- `NetworkPlayer.cs`, `NetworkTransform.cs`, `PlayerModelFinder.cs`, `HPMultiplayerMod.cs` and the two UI files are not part of this model: they are engine glue around the core.
- DNS resolution, `GetLocalIPAddress` and `Environment.MachineName` are parameters. The master server's endpoint always exists, since a failed lookup falls back to loopback; the browser's flag records whether its socket could be created.
- `Dictionary` enumeration order is unspecified, so snapshots and broadcasts are modelled for every order.
- ServerCli.Dispatch: `ToLower` and `Trim` are ASCII-only here; .NET also folds and trims non-ASCII characters.
- Text.ParseIntRejectsNonNumbers: `int.TryParse` is modelled as surrounding white space, an optional sign and ASCII digits within 32 bits. Culture-specific forms and non-ASCII digits and white space are not modelled.
- ObjectFinder.FindNPCs: `ToLower` folds ASCII letters only. Culture-dependent folding (the Turkish dotted and dotless i) and other non-ASCII letters are not modelled.
- ObjectFinder.FindInteractiveObjects: `ToLower` folds ASCII letters only, as for `FindNPCs`.
- ObjectFinder.ClientId: `ToLower` folds ASCII letters only, as for `FindNPCs`.
- Discovery.OnBroadcast: the `StartsWith("SERVER|")` test is an ordinal prefix test here. .NET's default `StartsWith` is culture-sensitive and also accepts a message whose prefix carries ignorable characters (a leading zero-width space, say); the model refuses such a message.
- ServerSession.ProcessMessage: validity is preserved only while the next player id is below `int.MaxValue`. The source's id counter wraps after 2^31 - 1 admissions; the model does the same but does not prove validity past it.
- Snapshot.LongIdDoesNotRoundTrip: ids of 256 bytes or more are written with a truncated length byte. The model shows this rather than correcting it, because the ids the finder produces are short.
- Client.ConnectToServer: the player name is limited to what fits in the 4-byte length field. An out-of-range port counts as an address that does not parse.
- ServerCli.ParseArgs: it is modelled through a tokenizer (`Tokens`) that reproduces the loop's skip-one-argument behaviour; the help text printed is not modelled.
- The pacing of the server's tick loop (30 per second) and of `GameStateSync.Update` (every 0.2 s) is left to the caller: `ServerSession.TickMessages` is one tick and `StateSync.SyncPass` is one pass, whenever they run.
- Console output, `ShowStatus` and `ListPlayers` text, the Ctrl+C handler, and the main loop's sleeps are I/O.
- Send failures on the master socket (caught and logged in the source) are not modelled: a send on an open socket always succeeds.
- The scene-change handler of the mod and the periodic rescan trigger are engine events. `ObjectFinder.Scan` takes the time as a parameter.
- A handler that throws in the receive callback ends the receive loop, because the catch does not re-arm `BeginReceive`. This is modelled by `ReceiveAsWritten`/`PeerReceiveAsWritten`; the rest of the model uses the corrected handlers.

## Findings

| source | as written | input that shows it | evidently intended | confidence | as-written member | corrected member |
|---|---|---|---|---|---|---|
| HPMultiplayer/Networking/NetworkProtocol.cs:231-244 | the guard `data.Length < 5 + stateLength` admits a negative length, and wraps for lengths near `int.MaxValue`; `new byte[stateLength]` or `Array.Copy` then throws (the same code is at NetworkManager.cs:472-487) | `[8, 0xFF, 0xFF, 0xFF, 0xFF]` (length -1) and `[8, 0xFF, 0xFF, 0xFF, 0x7F]` (length `int.MaxValue`) | refuse a frame whose declared length is negative or runs past the end | not executed | Protocol.GameStateNegativeLengthFaults | Protocol.GameStateCorrectedAgrees |
| HPMultiplayer/Networking/ClientNetworkManager.cs:296-305 | `HandlePlayerJoined` guards `data.Length < 6` but reads an int32 at offset 5, which needs 9 bytes; `HandleConnectionRejected` (256-263) lets a negative reason length reach `GetString`; either exception ends the receive loop | `[5, 1, 0, 0, 0, 0]`, and `[3, 0xFF, 0xFF, 0xFF, 0xFF]` | drop frames shorter than their declared fields | not executed | Client.ShortJoinedStopsReceiving | Client.ClassifyCorrectsOnlyFaults |
| HPMultiplayer/Networking/NetworkManager.cs:360-362 | `HandleDisconnectMessage` reads an int32 at offset 1 with no length check, so the exception ends the peer's receive loop | `[3]` | drop a disconnect frame shorter than 5 bytes | not executed | PeerToPeer.BareDisconnectFaults | PeerToPeer.PeerClassifyCorrectsOnlyFaults |

=== FILE: client.dfy ===
/** The dedicated-server client (HPMultiplayer/Networking/ClientNetworkManager.cs). The receive
    callback classifies each datagram from the server into an `Action`, capturing what it read
    (and, for player updates, comparing against the local id as it is at that moment); `Update`
    later applies the queued actions in order on the main thread, then runs the handshake retry
    and the position send. */
module Client {
  import opened Wrappers
  import opened Wire
  import opened Net
  import opened Text
  import opened Protocol
  import Retry

  /** A player name that fits the protocol's 4-byte length field. */
  type PlayerName = s: seq<byte> | |s| <= INT32_MAX witness []

  /** `SEND_INTERVAL` (0.033 s), in milliseconds. */
  const SEND_INTERVAL: int := 33
  const DEFAULT_NAME: PlayerName := AsciiBytes("Player")

  /** A remote player's replica: the last pose received for it, if any (the `NetworkPlayer`'s
      interpolation target). */
  datatype Remote = Remote(target: Option<(Vec3, Vec3)>)

  /** What the client raises to the rest of the mod. */
  datatype Event = PlayerConnected(playerId: int32) | PlayerDisconnected(playerId: int32) | GameStateReceived(state: seq<byte>)

  /** A closure queued for the main thread, with the values it captured. */
  datatype Action =
    | Confirm(playerId: int32)
    | RejectShutdown(reason: seq<byte>)
    | RemoteUpdate(playerId: int32, position: Vec3, rotation: Vec3)
    | RemoteJoined(playerId: int32, name: seq<byte>)
    | RemoteLeft(playerId: int32)
    | ServerDisconnect
    | DeliverState(state: seq<byte>)

  datatype ClientState = ClientState(
    server: Option<Endpoint>,
    socketOpen: bool,
    isConnected: bool,
    confirmed: bool,
    localPlayerId: int32,
    playerName: PlayerName,
    remotes: map<int32, Remote>,
    retries: int,
    lastAttempt: Time,
    lastSend: Time,
    queue: seq<Action>)

  /** A freshly constructed client. */
  const INITIAL: ClientState := ClientState(None, false, false, false, 0, DEFAULT_NAME, map[], 0, 0, 0, [])

  /** The result of a main-thread step: the next state, the datagrams sent, the events raised. */
  datatype Out = Out(client: ClientState, sent: seq<Datagram>, events: seq<Event>)

  /** `SendMessage`: goes out only while there is a server endpoint and an open socket. */
  function ToServer(c: ClientState, msg: seq<byte>): (sent: seq<Datagram>)
    ensures |sent| <= 1 && forall d :: d in sent ==> Some(d.to) == c.server && d.payload == msg
    ensures c.server.Some? && c.socketOpen ==> sent == [Datagram(c.server.value, msg)]
  {
    if c.server.Some? && c.socketOpen then [Datagram(c.server.value, msg)] else []
  }

  // ------------------------------------------------------------------- connection lifecycle

  /** `ConnectToServer(address, port, name)`; `server` is `None` when the address does not
      parse, in which case only the name has been stored, and `bindOk` says whether a socket
      on an ephemeral port could be created. The endpoint is stored before the socket is made,
      so a failed bind leaves it set (and the old socket, if any, untouched). On success the
      flags and the retry counter are reset, the socket is opened and one request with id 0 is
      sent. The local id, replicas and queue are left as they were. */
  function ConnectToServer(c: ClientState, server: Option<Endpoint>, name: PlayerName, bindOk: bool, now: Time): (r: (bool, Out))
    ensures r.0 <==> server.Some? && bindOk
    ensures server.None? ==> r.1 == Out(c.(playerName := name), [], [])
    ensures server.Some? && !bindOk ==> r.1 == Out(c.(playerName := name, server := server), [], [])
    ensures r.0 ==> (r.1.client.server == server && r.1.client.socketOpen
      && !r.1.client.isConnected && !r.1.client.confirmed && r.1.client.retries == 0
      && r.1.client.lastAttempt == now && r.1.client.playerName == name
      && r.1.client.localPlayerId == c.localPlayerId && r.1.client.remotes == c.remotes
      && r.1.sent == [Datagram(server.value, ConnectionMessage(0, name))] && r.1.events == [])
  {
    if server.None? then (false, Out(c.(playerName := name), [], []))
    else if !bindOk then (false, Out(c.(playerName := name, server := server), [], []))
    else
      var next := c.(playerName := name, server := server, socketOpen := true, isConnected := false,
                     confirmed := false, retries := 0, lastAttempt := now);
      (true, Out(next, ToServer(next, ConnectionMessage(0, name)), []))
  }

  /** `Shutdown`: says goodbye when connected, then closes the socket, clears both flags, the
      retry counter, the server endpoint and every replica. The local id and any queued actions
      survive. */
  function Shutdown(c: ClientState): (r: Out)
    ensures !r.client.isConnected && !r.client.confirmed && r.client.retries == 0
    ensures r.client.server.None? && !r.client.socketOpen && r.client.remotes == map[]
    ensures r.client.localPlayerId == c.localPlayerId && r.client.queue == c.queue && r.client.playerName == c.playerName
    ensures r.sent == (if c.isConnected then ToServer(c, DisconnectMessage(c.localPlayerId)) else [])
    ensures r.events == []
  {
    var bye := if c.isConnected then ToServer(c, DisconnectMessage(c.localPlayerId)) else [];
    Out(c.(socketOpen := false, isConnected := false, confirmed := false, retries := 0, server := None, remotes := map[]), bye, [])
  }

  // ------------------------------------------------------------------- receive thread

  /** The handlers' reading of a datagram from the server, exactly as written: `None` when it
      is ignored, `Some(Some(a))` when `a` is queued, and `Some(None)` when the handler throws
      (a 6..8-byte Player-joined frame read at offset 5, or a negative or wrapping declared
      length), which `OnReceive` catches before re-arming `BeginReceive`. */
  function ClassifyAsWritten(data: seq<byte>, localPlayerId: int32): Option<Option<Action>>
  {
    if |data| < 1 then None
    else
      var t := TypeOf(data[0]);
      if t == Some(ConnectionAccepted) then
        if |data| < 5 then None else Some(Some(Confirm(ReadInt32(data, 1))))
      else if t == Some(ConnectionRejected) then
        if |data| < 5 then None
        else
          var n := ReadInt32(data, 1);
          if |data| < Add32(5, n) as int then None
          else if n < 0 || 5 + n as int > |data| then Some(None)
          else Some(Some(RejectShutdown(data[5..5 + n as int])))
      else if t == Some(PlayerUpdate) then
        if |data| < PLAYER_UPDATE_SIZE then None
        else
          var u := ParsePlayerUpdate(data).value;
          if u.playerId == localPlayerId then None else Some(Some(RemoteUpdate(u.playerId, u.position, u.rotation)))
      else if t == Some(PlayerJoined) then
        if |data| < 6 then None
        else if |data| < 9 then Some(None)
        else
          var n := ReadInt32(data, 5);
          if |data| < Add32(9, n) as int then None
          else if n < 0 || 9 + n as int > |data| then Some(None)
          else Some(Some(RemoteJoined(ReadInt32(data, 1), data[9..9 + n as int])))
      else if t == Some(PlayerLeft) then
        if |data| < 5 then None else Some(Some(RemoteLeft(ReadInt32(data, 1))))
      else if t == Some(Disconnect) then Some(Some(ServerDisconnect))
      else if t == Some(GameState) then
        var outcome := ParseGameStateAsWritten(data);
        if outcome.Parsed? then Some(Some(DeliverState(outcome.state)))
        else if outcome.Rejected? then None
        else Some(None)
      else None
  }

  /** The corrected reading: a frame too short for the fields it declares, or with a negative
      declared length, is ignored instead of throwing. */
  function Classify(data: seq<byte>, localPlayerId: int32): (a: Option<Action>)
    // every action is read from a frame of its own kind, with the fields that frame carries
    ensures |data| == 0 ==> a == None
    ensures a.Some? && a.value.Confirm? ==>
      |data| >= 5 && data[0] == Code(ConnectionAccepted) && a.value.playerId == ReadInt32(data, 1)
    ensures a.Some? && a.value.RejectShutdown? ==>
      |data| >= 5 && data[0] == Code(ConnectionRejected) && ReadPrefixed(data, 1) == Some(a.value.reason)
    ensures a.Some? && a.value.RemoteUpdate? ==>
      && data[0] == Code(PlayerUpdate) && a.value.playerId != localPlayerId
      && ParsePlayerUpdate(data) == Some(PlayerState(a.value.playerId, a.value.position, a.value.rotation))
    ensures a.Some? && a.value.RemoteJoined? ==>
      |data| >= 9 && data[0] == Code(PlayerJoined)
      && a.value.playerId == ReadInt32(data, 1) && ReadPrefixed(data, 5) == Some(a.value.name)
    ensures a.Some? && a.value.RemoteLeft? ==>
      |data| >= 5 && data[0] == Code(PlayerLeft) && a.value.playerId == ReadInt32(data, 1)
    ensures a.Some? && a.value.ServerDisconnect? ==> data[0] == Code(Disconnect)
    ensures a.Some? && a.value.DeliverState? ==>
      data[0] == Code(GameState) && ParseGameState(data) == Some(a.value.state)
    // and every well-formed frame of a handled kind yields its action
    ensures |data| >= 5 && data[0] == Code(ConnectionAccepted) ==> a.Some?
    ensures |data| >= 5 && data[0] == Code(ConnectionRejected) && ReadPrefixed(data, 1).Some? ==> a.Some?
    ensures |data| >= PLAYER_UPDATE_SIZE && data[0] == Code(PlayerUpdate) && ReadInt32(data, 1) != localPlayerId ==> a.Some?
    ensures |data| >= 9 && data[0] == Code(PlayerJoined) && ReadPrefixed(data, 5).Some? ==> a.Some?
    ensures |data| >= 5 && data[0] == Code(PlayerLeft) ==> a.Some?
    ensures |data| >= 1 && data[0] == Code(Disconnect) ==> a.Some?
    ensures |data| >= 1 && data[0] == Code(GameState) && ParseGameState(data).Some? ==> a.Some?
  {
    if |data| < 1 then None
    else
      var t := TypeOf(data[0]);
      if t == Some(ConnectionAccepted) then
        if |data| < 5 then None else Some(Confirm(ReadInt32(data, 1)))
      else if t == Some(ConnectionRejected) then
        if |data| < 5 then None
        else
          var reason := ReadPrefixed(data, 1);
          if reason.None? then None else Some(RejectShutdown(reason.value))
      else if t == Some(PlayerUpdate) then
        if |data| < PLAYER_UPDATE_SIZE then None
        else
          var u := ParsePlayerUpdate(data).value;
          if u.playerId == localPlayerId then None else Some(RemoteUpdate(u.playerId, u.position, u.rotation))
      else if t == Some(PlayerJoined) then
        if |data| < 9 then None
        else
          var name := ReadPrefixed(data, 5);
          if name.None? then None else Some(RemoteJoined(ReadInt32(data, 1), name.value))
      else if t == Some(PlayerLeft) then
        if |data| < 5 then None else Some(RemoteLeft(ReadInt32(data, 1)))
      else if t == Some(Disconnect) then Some(ServerDisconnect)
      else if t == Some(GameState) then
        var state := ParseGameState(data);
        if state.None? then None else Some(DeliverState(state.value))
      else None
  }

  /** Each frame the server builds is read back by the client as the action it describes; its
      own pose echoed back is the one update that is dropped. */
  lemma ClientFramesRoundTrip(playerId: int32, position: Vec3, rotation: Vec3, name: seq<byte>,
                              reason: seq<byte>, state: seq<byte>, localPlayerId: int32)
    requires |name| <= INT32_MAX && |reason| <= INT32_MAX && |state| <= INT32_MAX
    ensures Classify(AcceptedMessage(playerId), localPlayerId) == Some(Confirm(playerId))
    ensures Classify(RejectedMessage(reason), localPlayerId) == Some(RejectShutdown(reason))
    ensures Classify(PlayerUpdateMessage(playerId, position, rotation), localPlayerId) ==
      if playerId == localPlayerId then None else Some(RemoteUpdate(playerId, position, rotation))
    ensures Classify(PlayerJoinedMessage(playerId, name), localPlayerId) == Some(RemoteJoined(playerId, name))
    ensures Classify(PlayerLeftMessage(playerId), localPlayerId) == Some(RemoteLeft(playerId))
    ensures Classify(DisconnectMessage(playerId), localPlayerId) == Some(ServerDisconnect)
    ensures Classify(GameStateMessage(state), localPlayerId) == Some(DeliverState(state))
  {
    var m := PlayerUpdateMessage(playerId, position, rotation);
    PlayerUpdateRoundTrip(playerId, position, rotation, Code(PlayerUpdate), []);
    assert [Code(PlayerUpdate)] + m[1..] + [] == m;
    var g := GameStateMessage(state);
    assert g[5..5 + |state|] == state;
    var j := PlayerJoinedMessage(playerId, name);
    assert j[9..9 + |name|] == name;
    var k := RejectedMessage(reason);
    assert k[5..5 + |reason|] == reason;
  }

  /** Wherever the handlers as written do not throw, the corrected reading does the same; where
      they throw, it ignores the datagram. */
  lemma {:induction false} ClassifyCorrectsOnlyFaults(data: seq<byte>, localPlayerId: int32)
    ensures ClassifyAsWritten(data, localPlayerId) == Some(None) ==> Classify(data, localPlayerId) == None
    ensures ClassifyAsWritten(data, localPlayerId) == None ==> Classify(data, localPlayerId) == None
    ensures ClassifyAsWritten(data, localPlayerId).Some? && ClassifyAsWritten(data, localPlayerId).value.Some? ==>
      Classify(data, localPlayerId) == ClassifyAsWritten(data, localPlayerId).value
  {
    if |data| >= 1 && TypeOf(data[0]) == Some(GameState) {
      GameStateCorrectedAgrees(data);
    }
  }

  /** A six-byte Player-joined frame passes the `Length < 6` guard and throws on the 4-byte
      read at offset 5; the corrected reading ignores it. */
  lemma ShortJoinedFaults()
    ensures ClassifyAsWritten([5, 1, 0, 0, 0, 0], 0) == Some(None)
    ensures Classify([5, 1, 0, 0, 0, 0], 0) == None
  {
    assert TypeOf(5) == Some(PlayerJoined);
  }

  /** A rejection declaring reason length -1 passes the guard and throws in `GetString`. */
  lemma NegativeReasonFaults()
    ensures ClassifyAsWritten([3, 0xFF, 0xFF, 0xFF, 0xFF], 0) == Some(None)
    ensures Classify([3, 0xFF, 0xFF, 0xFF, 0xFF], 0) == None
  {
    var d: seq<byte> := [3, 0xFF, 0xFF, 0xFF, 0xFF];
    assert TypeOf(3) == Some(ConnectionRejected);
    assert d[1..5] == [0xFF, 0xFF, 0xFF, 0xFF];
    assert ReadInt32(d, 1) == -1;
  }

  /** `OnReceive`: nothing once the socket is closed; datagrams from anyone but the configured
      server are dropped; the server's datagrams queue the action they classify to. */
  function Receive(c: ClientState, data: seq<byte>, sender: Endpoint): (r: ClientState)
    ensures c.server != Some(sender) || !c.socketOpen ==> r == c
    ensures r.(queue := c.queue) == c
    ensures c.server == Some(sender) && c.socketOpen ==>
      r.queue == c.queue + (match Classify(data, c.localPlayerId) case None => [] case Some(a) => [a])
  {
    if !c.socketOpen || c.server != Some(sender) then c
    else match Classify(data, c.localPlayerId)
      case None => c
      case Some(a) => c.(queue := c.queue + [a])
  }

  /** `OnReceive` over the handlers as written: `None` when a handler throws, which the catch
      in `OnReceive` swallows before `BeginReceive` is called again, so the client stops
      listening to the server altogether. */
  function ReceiveAsWritten(c: ClientState, data: seq<byte>, sender: Endpoint): (r: Option<ClientState>)
    ensures r.None? <==> c.socketOpen && c.server == Some(sender) && ClassifyAsWritten(data, c.localPlayerId) == Some(None)
    ensures r.Some? ==> r.value == Receive(c, data, sender)
  {
    if !c.socketOpen || c.server != Some(sender) then Some(c)
    else
      ClassifyCorrectsOnlyFaults(data, c.localPlayerId);
      match ClassifyAsWritten(data, c.localPlayerId)
      case None => Some(c)
      case Some(None) => None
      case Some(Some(a)) => Some(c.(queue := c.queue + [a]))
  }

  /** One short Player-joined frame from the server is enough to end the receive loop. */
  lemma ShortJoinedStopsReceiving(c: ClientState, server: Endpoint)
    requires c.socketOpen && c.server == Some(server)
    ensures ReceiveAsWritten(c, [5, 1, 0, 0, 0, 0], server) == None
  {
    ShortJoinedFaults();
  }

  /** A player update carrying the local id (as it is at receive time) queues nothing. */
  lemma OwnUpdateIgnored(c: ClientState, position: Vec3, rotation: Vec3, sender: Endpoint)
    ensures Receive(c, PlayerUpdateMessage(c.localPlayerId, position, rotation), sender) == c
  {
    var m := PlayerUpdateMessage(c.localPlayerId, position, rotation);
    assert TypeOf(m[0]) == Some(PlayerUpdate);
  }

  // ------------------------------------------------------------------- main thread

  /** Running one queued closure. */
  function Apply(c: ClientState, a: Action): (r: Out)
    ensures a.Confirm? && c.confirmed ==> r == Out(c, [], [])
    ensures a.Confirm? && !c.confirmed ==>
      r == Out(c.(localPlayerId := a.playerId, confirmed := true, isConnected := true), [], [PlayerConnected(a.playerId)])
    ensures a.RemoteUpdate? ==> (r.client.remotes.Keys == c.remotes.Keys + {a.playerId}
      && r.client.remotes[a.playerId].target == Some((a.position, a.rotation))
      && r.events == (if a.playerId in c.remotes then [] else [PlayerConnected(a.playerId)]))
    ensures a.RemoteJoined? ==>
      if a.playerId != c.localPlayerId && a.playerId !in c.remotes
      then r.client.remotes == c.remotes[a.playerId := Remote(None)] && r.events == [PlayerConnected(a.playerId)]
      else r == Out(c, [], [])
    ensures a.RemoteLeft? ==>
      if a.playerId in c.remotes
      then r.client.remotes == c.remotes - {a.playerId} && r.events == [PlayerDisconnected(a.playerId)]
      else r == Out(c, [], [])
    // the remote-player closures touch only the replica table, and an update only its own entry
    ensures a.RemoteUpdate? || a.RemoteJoined? || a.RemoteLeft? ==> r.client == c.(remotes := r.client.remotes)
    ensures a.RemoteUpdate? ==> forall k :: k in c.remotes && k != a.playerId ==> r.client.remotes[k] == c.remotes[k]
    ensures a.RejectShutdown? || a.ServerDisconnect? ==> r == Shutdown(c)
    ensures a.DeliverState? ==> r == Out(c, [], [GameStateReceived(a.state)])
    ensures r.client.queue == c.queue
    ensures !(a.RejectShutdown? || a.ServerDisconnect?) ==> r.sent == []
  {
    match a
    case Confirm(id) =>
      if c.confirmed then Out(c, [], [])
      else Out(c.(localPlayerId := id, confirmed := true, isConnected := true), [], [PlayerConnected(id)])
    case RejectShutdown(_) => Shutdown(c)
    case RemoteUpdate(id, position, rotation) =>
      var created := if id in c.remotes then [] else [PlayerConnected(id)];
      Out(c.(remotes := c.remotes[id := Remote(Some((position, rotation)))]), [], created)
    case RemoteJoined(id, _) =>
      if id != c.localPlayerId && id !in c.remotes
      then Out(c.(remotes := c.remotes[id := Remote(None)]), [], [PlayerConnected(id)])
      else Out(c, [], [])
    case RemoteLeft(id) =>
      if id in c.remotes then Out(c.(remotes := c.remotes - {id}), [], [PlayerDisconnected(id)])
      else Out(c, [], [])
    case ServerDisconnect => Shutdown(c)
    case DeliverState(state) => Out(c, [], [GameStateReceived(state)])
  }

  /** Only the first acceptance counts: a duplicate changes nothing and raises nothing. */
  lemma DuplicateAcceptIgnored(c: ClientState, first: int32, second: int32)
    ensures var once := Apply(c, Confirm(first));
            Apply(once.client, Confirm(second)) == Out(once.client, [], [])
            && (!c.confirmed ==> once.client.localPlayerId == first && once.events == [PlayerConnected(first)])
  {
  }

  /** The queued closures run in order; their sends and events are concatenated. */
  function ApplyAll(c: ClientState, actions: seq<Action>): (r: Out)
    ensures |actions| == 0 ==> r == Out(c, [], [])
    ensures r.client.queue == c.queue
    decreases |actions|
  {
    if |actions| == 0 then Out(c, [], [])
    else
      var first := Apply(c, actions[0]);
      var rest := ApplyAll(first.client, actions[1..]);
      Out(rest.client, first.sent + rest.sent, first.events + rest.events)
  }

  /** A queue without shutdowns keeps the queue field, sends nothing, and only ever touches
      the flags, the local id and the replicas. */
  lemma {:induction false} ApplyAllQuiet(c: ClientState, actions: seq<Action>)
    requires forall i :: 0 <= i < |actions| ==> !actions[i].RejectShutdown? && !actions[i].ServerDisconnect?
    ensures ApplyAll(c, actions).sent == []
    ensures ApplyAll(c, actions).client.server == c.server
    decreases |actions|
  {
    if |actions| > 0 {
      ApplyAllQuiet(Apply(c, actions[0]).client, actions[1..]);
    }
  }

  /** `Update`: drain the queue; then, while unconfirmed with a server configured, follow the
      retry policy (resend with id 0, or give up through `Shutdown`); then, when connected and
      `SEND_INTERVAL` has passed, send the local pose (`pose`, found by the game) under the
      local id. */
  function Update(c: ClientState, now: Time, pose: (Vec3, Vec3)): (r: Out)
    ensures var drained := ApplyAll(c.(queue := []), c.queue);
      && r.client.queue == []
      && |r.sent| >= |drained.sent| && r.sent[..|drained.sent|] == drained.sent
      && r.events == drained.events
    ensures var d := ApplyAll(c.(queue := []), c.queue).client;
      !d.isConnected && d.server.Some? && !d.confirmed ==>
        match Retry.Decide(d.retries, d.lastAttempt, now)
        case Resend => r.client.retries == d.retries + 1 && r.client.lastAttempt == now && (d.socketOpen ==>
          |r.sent| > 0 && r.sent[|r.sent| - 1] == Datagram(d.server.value, ConnectionMessage(0, d.playerName)))
        case GiveUp => r.client.server.None? && !r.client.socketOpen
        case Wait => r.client == d
    ensures var d := ApplyAll(c.(queue := []), c.queue).client;
      d.isConnected && d.server.Some? && d.socketOpen && now - d.lastSend >= SEND_INTERVAL ==>
        r.client.lastSend == now
        && |r.sent| > 0 && r.sent[|r.sent| - 1] == Datagram(d.server.value, PlayerUpdateMessage(d.localPlayerId, pose.0, pose.1))
    // a connected client changes only its send stamp, and sends nothing more when no send is due
    ensures var drained := ApplyAll(c.(queue := []), c.queue); var d := drained.client;
      d.isConnected ==>
        && r.client == d.(lastSend := if now - d.lastSend >= SEND_INTERVAL then now else d.lastSend)
        && (now - d.lastSend < SEND_INTERVAL ==> r.sent == drained.sent)
        && |r.sent| <= |drained.sent| + 1
  {
    var drained := ApplyAll(c.(queue := []), c.queue);
    var d := drained.client;
    if !d.isConnected && d.server.Some? && !d.confirmed then
      match Retry.Decide(d.retries, d.lastAttempt, now)
      case Resend =>
        Out(d.(retries := d.retries + 1, lastAttempt := now), drained.sent + ToServer(d, ConnectionMessage(0, d.playerName)), drained.events)
      case GiveUp =>
        var down := Shutdown(d);
        Out(down.client, drained.sent + down.sent, drained.events)
      case Wait => Out(d, drained.sent, drained.events)
    else if !d.isConnected then Out(d, drained.sent, drained.events)
    else if now - d.lastSend >= SEND_INTERVAL then
      Out(d.(lastSend := now), drained.sent + ToServer(d, PlayerUpdateMessage(d.localPlayerId, pose.0, pose.1)), drained.events)
    else Out(d, drained.sent, drained.events)
  }

  /** A connected client whose queue is empty sends its pose once per `SEND_INTERVAL` and
      nothing else. */
  lemma ConnectedSendsPose(c: ClientState, now: Time, pose: (Vec3, Vec3))
    requires c.queue == [] && c.isConnected && c.server.Some? && c.socketOpen
    ensures now - c.lastSend >= SEND_INTERVAL ==>
      && Update(c, now, pose).sent == [Datagram(c.server.value, PlayerUpdateMessage(c.localPlayerId, pose.0, pose.1))]
      && Update(c, now, pose).client == c.(lastSend := now)
    ensures now - c.lastSend < SEND_INTERVAL ==>
      Update(c, now, pose).sent == [] && Update(c, now, pose).client == c
  {
  }

  /** A client with nothing queued, not connected and no server: every frame leaves it as it is. */
  predicate Idle(c: ClientState) {
    c.queue == [] && !c.isConnected && c.server.None?
  }

  /** A handshake in flight: a server, an open socket, nothing queued and no answer yet. */
  predicate Handshaking(c: ClientState) {
    c.queue == [] && !c.isConnected && !c.confirmed && c.server.Some? && c.socketOpen
  }

  /** The client after an `Update` at each of `times`, with no datagram arriving in between. */
  function Frames(c: ClientState, times: seq<Time>, pose: (Vec3, Vec3)): Out
    decreases |times|
  {
    if |times| == 0 then Out(c, [], [])
    else
      var first := Update(c, times[0], pose);
      var rest := Frames(first.client, times[1..], pose);
      Out(rest.client, first.sent + rest.sent, first.events + rest.events)
  }

  /** One frame of an unanswered handshake moves the client's retry counter, timestamp and
      pending flag exactly as `Retry.Step` moves the shared policy, and sends the connection
      request exactly when the policy counts one. */
  lemma UpdateFollowsRetry(c: ClientState, now: Time, pose: (Vec3, Vec3), requests: nat)
    requires Handshaking(c)
    ensures var h := Retry.Step(Retry.Handshake(c.retries, c.lastAttempt, true, requests), now);
      var r := Update(c, now, pose);
      && (h.pending ==> Handshaking(r.client) && r.client.retries == h.retries && r.client.lastAttempt == h.lastAttempt)
      && (!h.pending ==> Idle(r.client) && !r.client.socketOpen)
      && r.sent == if h.requests > requests then [Datagram(c.server.value, ConnectionMessage(0, c.playerName))] else []
  {
  }

  /** An idle client stays idle and silent. */
  lemma {:induction false} IdleFramesQuiet(c: ClientState, times: seq<Time>, pose: (Vec3, Vec3))
    requires Idle(c)
    ensures Frames(c, times, pose).sent == [] && Frames(c, times, pose).client == c
    decreases |times|
  {
    if |times| > 0 {
      assert ApplyAll(c.(queue := []), c.queue).client == c;
      assert Update(c, times[0], pose).client == c;
      IdleFramesQuiet(c, times[1..], pose);
    }
  }

  /** Over any run of frames with no answer, the client sends exactly the requests the shared
      retry policy counts. */
  lemma {:induction false} FramesFollowRetry(c: ClientState, times: seq<Time>, pose: (Vec3, Vec3), requests: nat)
    requires Handshaking(c)
    ensures |Frames(c, times, pose).sent| ==
      Retry.Run(Retry.Handshake(c.retries, c.lastAttempt, true, requests), times).requests - requests
    decreases |times|
  {
    if |times| > 0 {
      var h := Retry.Handshake(c.retries, c.lastAttempt, true, requests);
      var h1 := Retry.Step(h, times[0]);
      var first := Update(c, times[0], pose);
      UpdateFollowsRetry(c, times[0], pose, requests);
      if h1.pending {
        assert h1 == Retry.Handshake(first.client.retries, first.client.lastAttempt, true, h1.requests);
        FramesFollowRetry(first.client, times[1..], pose, h1.requests);
      } else {
        IdleFramesQuiet(first.client, times[1..], pose);
        Retry.StaysDone(h1, times[1..]);
      }
    }
  }

  /** However the frames fall, a connection attempt to a server that never answers sends at
      most 1 + `MAX_RETRIES` = 6 requests. */
  lemma UnansweredConnectSendsAtMostSix(c: ClientState, server: Endpoint, name: PlayerName, now: Time,
                                        times: seq<Time>, pose: (Vec3, Vec3))
    requires c.queue == []
    ensures var start := ConnectToServer(c, Some(server), name, true, now).1;
      |start.sent| + |Frames(start.client, times, pose).sent| <= 1 + Retry.MAX_RETRIES
  {
    var start := ConnectToServer(c, Some(server), name, true, now).1;
    assert Retry.Handshake(start.client.retries, start.client.lastAttempt, true, 1) == Retry.Begin(now);
    FramesFollowRetry(start.client, times, pose, 1);
    Retry.AtMostSixRequests(now, times);
  }
}

=== FILE: discovery.dfy ===
/** Server discovery (HPMultiplayer/Networking/MasterServerClient.cs): a pipe-delimited text
    protocol with a master server (`REGISTER`, `UNREGISTER`, `LIST`, answered by `SERVERLIST`)
    and on the local network (`SERVER|…` advertisements and `DISCOVER` probes). Messages are
    modelled as already-decoded strings; the local address and the Steam id are parameters. */
module Discovery {
  import opened Wrappers
  import opened Wire
  import opened Net
  import opened Text

  const PIPE: char := '|'
  /** The port assumed when an advertised port does not parse. */
  const FALLBACK_PORT: int32 := 7777
  /** `HEARTBEAT_INTERVAL`, `BROADCAST_INTERVAL` and `SERVER_TIMEOUT`, in milliseconds. */
  const HEARTBEAT_INTERVAL: int := 5_000
  const BROADCAST_INTERVAL: int := 2_000
  const SERVER_TIMEOUT: int := 15_000
  const DEFAULT_SERVER_NAME: string := "House Party Game"
  const DEFAULT_GAME_PORT: int32 := 7777

  datatype ServerInfo = ServerInfo(name: string, ip: string, port: int32, lastUpdate: Time)

  /** `AvailableServers`, keyed by `"{ip}:{port}"`. */
  type Servers = map<string, ServerInfo>

  /** Where an outgoing message goes: the master server, the local broadcast address, or the
      endpoint a probe came from. */
  datatype Target = Master | LocalBroadcast | Reply(to: Endpoint)
  datatype Outgoing = Outgoing(target: Target, text: string)

  /** The client's state. `masterOpen` stands for a resolved master endpoint with an open
      socket; `broadcastOpen` and `listenerOpen` for the broadcast sender and the listener. */
  datatype Browser = Browser(
    masterOpen: bool,
    isRegistered: bool,
    serverName: string,
    gamePort: int32,
    lastHeartbeat: Time,
    broadcastOpen: bool,
    listenerOpen: bool,
    lastBroadcast: Time,
    servers: Servers)

  /** The constructor; `masterOk` is false when the socket could not be created. */
  function NewBrowser(masterOk: bool): (b: Browser)
    ensures b.masterOpen == masterOk && !b.isRegistered && b.servers == map[]
    ensures b.serverName == DEFAULT_SERVER_NAME && b.gamePort == DEFAULT_GAME_PORT
  {
    Browser(masterOk, false, DEFAULT_SERVER_NAME, DEFAULT_GAME_PORT, 0, false, false, 0, map[])
  }

  // ---------------------------------------------------------------- message formats

  function Fields(parts: seq<string>): string
  {
    Join(parts, PIPE)
  }

  /** `$"{ip}:{port}"`. */
  function ServerKey(ip: string, port: int32): string
  {
    ip + ":" + Decimal(port as int)
  }

  /** `int.TryParse(s, out p) ? p : 7777`. */
  function PortOr(s: string): (port: int32)
    ensures ParseInt(s).Some? ==> port == ParseInt(s).value
    ensures ParseInt(s).None? ==> port == FALLBACK_PORT
  {
    match ParseInt(s)
    case Some(p) => p
    case None => FALLBACK_PORT
  }

  /** `GetSteamId()`: the machine name and the local address joined by `_`. */
  function SteamId(machineName: string, localIp: string): string
  {
    machineName + "_" + localIp
  }

  function RegisterText(name: string, localIp: string, port: int32, steamId: string): (t: string)
    ensures Split(t, PIPE)[0] == "REGISTER" || PIPE in name + localIp + steamId
  {
    var parts := ["REGISTER", name, localIp, Decimal(port as int), steamId];
    if PIPE !in name && PIPE !in localIp && PIPE !in steamId then
      assert forall i :: 0 <= i < |parts| ==> PIPE !in parts[i];
      SplitJoin(parts, PIPE);
      Fields(parts)
    else Fields(parts)
  }

  function UnregisterText(steamId: string): string
  {
    Fields(["UNREGISTER", steamId])
  }

  /** The advertisement a host broadcasts and sends in answer to `DISCOVER`. */
  function AdvertText(name: string, localIp: string, port: int32): (t: string)
    ensures "SERVER|" <= t
  {
    assert Fields(["SERVER", name, localIp, Decimal(port as int)]) == "SERVER" + [PIPE] + Fields([name, localIp, Decimal(port as int)]);
    Fields(["SERVER", name, localIp, Decimal(port as int)])
  }

  const LIST_TEXT: string := "LIST"
  const DISCOVER_TEXT: string := "DISCOVER"

  // ---------------------------------------------------------------- the server table

  /** A server seen in a listing or an advertisement: inserted under its key when new; when
      the key is known only `lastUpdate` is refreshed and the stored name is kept. */
  function Upsert(servers: Servers, name: string, ip: string, port: int32, now: Time): (r: Servers)
    ensures r.Keys == servers.Keys + {ServerKey(ip, port)}
    ensures ServerKey(ip, port) in servers ==> r[ServerKey(ip, port)] == servers[ServerKey(ip, port)].(lastUpdate := now)
    ensures ServerKey(ip, port) !in servers ==> r[ServerKey(ip, port)] == ServerInfo(name, ip, port, now)
    ensures forall k :: k in servers && k != ServerKey(ip, port) ==> r[k] == servers[k]
  {
    var key := ServerKey(ip, port);
    if key in servers then servers[key := servers[key].(lastUpdate := now)]
    else servers[key := ServerInfo(name, ip, port, now)]
  }

  datatype Listing = Listing(name: string, ip: string, port: int32)

  /** The `SERVERLIST` loop: fields taken in threes, an incomplete trailing group ignored. */
  function Triples(fields: seq<string>): (r: seq<Listing>)
    ensures 3 * |r| <= |fields| < 3 * |r| + 3
    decreases |fields|
  {
    if |fields| < 3 then []
    else [Listing(fields[0], fields[1], PortOr(fields[2]))] + Triples(fields[3..])
  }

  /** The fields a listing of these servers is written with. */
  function ListingFields(ls: seq<Listing>): (r: seq<string>)
    ensures |r| == 3 * |ls|
  {
    if |ls| == 0 then [] else [ls[0].name, ls[0].ip, Decimal(ls[0].port as int)] + ListingFields(ls[1..])
  }

  /** Reading one listing's three fields back. */
  lemma TriplesCons(l: Listing, rest: seq<string>)
    ensures Triples([l.name, l.ip, Decimal(l.port as int)] + rest) == [l] + Triples(rest)
  {
    var f := [l.name, l.ip, Decimal(l.port as int)] + rest;
    assert f[3..] == rest;
    ParseDecimal(l.port);
  }

  /** Reading a listing's fields back in threes recovers the listing. */
  lemma {:induction false} TriplesOfListingFields(ls: seq<Listing>, trailing: seq<string>)
    requires |trailing| < 3
    ensures Triples(ListingFields(ls) + trailing) == ls
    decreases |ls|
  {
    if |ls| > 0 {
      var rest := ListingFields(ls[1..]) + trailing;
      assert ListingFields(ls) + trailing == [ls[0].name, ls[0].ip, Decimal(ls[0].port as int)] + rest;
      TriplesCons(ls[0], rest);
      TriplesOfListingFields(ls[1..], trailing);
      assert ls == [ls[0]] + ls[1..];
    } else {
      assert ListingFields(ls) + trailing == trailing;
    }
  }

  function UpsertAll(servers: Servers, ls: seq<Listing>, now: Time): Servers
    decreases |ls|
  {
    if |ls| == 0 then servers
    else UpsertAll(Upsert(servers, ls[0].name, ls[0].ip, ls[0].port, now), ls[1..], now)
  }

  function ListingKeys(ls: seq<Listing>): set<string>
  {
    set i | 0 <= i < |ls| :: ServerKey(ls[i].ip, ls[i].port)
  }

  /** Applying a listing adds exactly its keys. */
  lemma {:induction false} UpsertAllKeys(servers: Servers, ls: seq<Listing>, now: Time)
    ensures UpsertAll(servers, ls, now).Keys == servers.Keys + ListingKeys(ls)
    decreases |ls|
  {
    if |ls| > 0 {
      var next := Upsert(servers, ls[0].name, ls[0].ip, ls[0].port, now);
      assert UpsertAll(servers, ls, now) == UpsertAll(next, ls[1..], now);
      UpsertAllKeys(next, ls[1..], now);
      ListingKeysCons(ls);
    }
  }

  /** Applying a listing never changes the name, address or port of an entry already present. */
  lemma {:induction false} UpsertAllKeeps(servers: Servers, ls: seq<Listing>, now: Time)
    ensures forall k :: k in servers ==> k in UpsertAll(servers, ls, now) && SameServer(servers[k], UpsertAll(servers, ls, now)[k])
    decreases |ls|
  {
    if |ls| > 0 {
      var next := Upsert(servers, ls[0].name, ls[0].ip, ls[0].port, now);
      assert forall k :: k in servers ==> k in next && SameServer(servers[k], next[k]);
      assert UpsertAll(servers, ls, now) == UpsertAll(next, ls[1..], now);
      UpsertAllKeeps(next, ls[1..], now);
    }
  }

  /** The same server, whatever its last-seen time. */
  predicate SameServer(a: ServerInfo, b: ServerInfo) {
    a.name == b.name && a.ip == b.ip && a.port == b.port
  }

  lemma ListingKeysCons(ls: seq<Listing>)
    requires |ls| > 0
    ensures ListingKeys(ls) == {ServerKey(ls[0].ip, ls[0].port)} + ListingKeys(ls[1..])
  {
    forall k | k in ListingKeys(ls) ensures k in {ServerKey(ls[0].ip, ls[0].port)} + ListingKeys(ls[1..]) {
      var i :| 0 <= i < |ls| && k == ServerKey(ls[i].ip, ls[i].port);
      if i > 0 { assert ls[1..][i - 1] == ls[i]; }
    }
    forall k | k in ListingKeys(ls[1..]) ensures k in ListingKeys(ls) {
      var i :| 0 <= i < |ls[1..]| && k == ServerKey(ls[1..][i].ip, ls[1..][i].port);
      assert ls[1..][i] == ls[i + 1];
    }
  }

  /** `ProcessMessage`: only `SERVERLIST` touches the table (`ACK` is only logged). */
  function ProcessMessage(servers: Servers, message: string, now: Time): (r: Servers)
    ensures Split(message, PIPE)[0] != "SERVERLIST" ==> r == servers
    ensures Split(message, PIPE)[0] == "SERVERLIST" ==>
      r == UpsertAll(servers, Triples(Split(message, PIPE)[1..]), now)
  {
    var parts := Split(message, PIPE);
    if parts[0] == "SERVERLIST" then UpsertAll(servers, Triples(parts[1..]), now) else servers
  }

  /** A master-server listing written for some servers, with or without a dangling partial
      group, is read back as exactly those servers. */
  lemma ServerListRoundTrip(servers: Servers, ls: seq<Listing>, trailing: seq<string>, now: Time)
    requires |trailing| < 3
    requires forall i :: 0 <= i < |ls| ==> PIPE !in ls[i].name && PIPE !in ls[i].ip
    requires forall i :: 0 <= i < |trailing| ==> PIPE !in trailing[i]
    ensures ProcessMessage(servers, Fields(["SERVERLIST"] + ListingFields(ls) + trailing), now) == UpsertAll(servers, ls, now)
    ensures ProcessMessage(servers, Fields(["SERVERLIST"] + ListingFields(ls) + trailing), now).Keys == servers.Keys + ListingKeys(ls)
  {
    var parts := ["SERVERLIST"] + ListingFields(ls) + trailing;
    ListingFieldsFree(ls);
    assert forall i :: 0 <= i < |parts| ==> PIPE !in parts[i] by {
      forall i | 0 <= i < |parts| ensures PIPE !in parts[i] {
        if 1 <= i < 1 + 3 * |ls| { assert parts[i] == ListingFields(ls)[i - 1]; }
        else if i >= 1 + 3 * |ls| { assert parts[i] == trailing[i - 1 - 3 * |ls|]; }
      }
    }
    SplitJoin(parts, PIPE);
    assert parts[1..] == ListingFields(ls) + trailing;
    TriplesOfListingFields(ls, trailing);
    UpsertAllKeys(servers, ls, now);
  }

  lemma {:induction false} ListingFieldsFree(ls: seq<Listing>)
    requires forall i :: 0 <= i < |ls| ==> PIPE !in ls[i].name && PIPE !in ls[i].ip
    ensures forall j :: 0 <= j < |ListingFields(ls)| ==> PIPE !in ListingFields(ls)[j]
    decreases |ls|
  {
    if |ls| > 0 {
      ListingFieldsFree(ls[1..]);
      var f := ListingFields(ls);
      forall j | 0 <= j < |f| ensures PIPE !in f[j] {
        if j >= 3 { assert f[j] == ListingFields(ls[1..])[j - 3]; }
      }
    }
  }

  // ---------------------------------------------------------------- the local network

  /** `OnBroadcastReceive`: an advertisement with at least four fields is recorded unless it is
      this host's own (same address and game port); a `DISCOVER` probe to a registered host is
      answered with its advertisement. */
  function OnBroadcast(b: Browser, message: string, sender: Endpoint, localIp: string, now: Time): (r: (Browser, seq<Outgoing>))
    ensures r.0.(servers := b.servers) == b
    ensures !b.listenerOpen ==> r == (b, [])
    ensures r.1 != [] ==> message == DISCOVER_TEXT && b.isRegistered && r.1 == [Outgoing(Reply(sender), AdvertText(b.serverName, localIp, b.gamePort))]
    ensures r.0.servers != b.servers ==> "SERVER|" <= message
  {
    if !b.listenerOpen then (b, [])
    else if "SERVER|" <= message then
      var parts := Split(message, PIPE);
      if |parts| >= 4 then
        var port := PortOr(parts[3]);
        if parts[2] != localIp || port != b.gamePort then (b.(servers := Upsert(b.servers, parts[1], parts[2], port, now)), [])
        else (b, [])
      else (b, [])
    else if message == DISCOVER_TEXT && b.isRegistered && b.broadcastOpen then
      (b, [Outgoing(Reply(sender), AdvertText(b.serverName, localIp, b.gamePort))])
    else (b, [])
  }

  lemma {:induction false} AdvertSplit(name: string, ip: string, port: int32)
    requires PIPE !in name && PIPE !in ip
    ensures Split(AdvertText(name, ip, port), PIPE) == ["SERVER", name, ip, Decimal(port as int)]
    ensures PortOr(Split(AdvertText(name, ip, port), PIPE)[3]) == port
  {
    var parts := ["SERVER", name, ip, Decimal(port as int)];
    assert forall i :: 0 <= i < |parts| ==> PIPE !in parts[i];
    SplitJoin(parts, PIPE);
    ParseDecimal(port);
  }

  /** An advertisement from another host is read back as the name, address and port it was
      written with; a new host is recorded with exactly those. */
  lemma AdvertRoundTrip(b: Browser, name: string, ip: string, port: int32, sender: Endpoint, localIp: string, now: Time)
    requires PIPE !in name && PIPE !in ip && b.listenerOpen
    requires ip != localIp || port != b.gamePort
    ensures var r := OnBroadcast(b, AdvertText(name, ip, port), sender, localIp, now).0;
      r.servers == Upsert(b.servers, name, ip, port, now)
      && (ServerKey(ip, port) !in b.servers ==> r.servers[ServerKey(ip, port)] == ServerInfo(name, ip, port, now))
  {
    AdvertSplit(name, ip, port);
  }

  /** A host never lists its own advertisement. */
  lemma OwnAdvertIgnored(b: Browser, sender: Endpoint, localIp: string, now: Time)
    requires PIPE !in b.serverName && PIPE !in localIp
    ensures OnBroadcast(b, AdvertText(b.serverName, localIp, b.gamePort), sender, localIp, now).0 == b
  {
    AdvertSplit(b.serverName, localIp, b.gamePort);
  }

  /** A probe answered by a registered host, heard by another browser, lists that host. */
  lemma DiscoverIsAnswered(host: Browser, other: Browser, prober: Endpoint, hostEndpoint: Endpoint, hostIp: string, otherIp: string, now: Time)
    requires host.listenerOpen && host.isRegistered && host.broadcastOpen
    requires PIPE !in host.serverName && PIPE !in hostIp && other.listenerOpen
    requires hostIp != otherIp
    ensures var reply := OnBroadcast(host, DISCOVER_TEXT, prober, hostIp, now).1;
      && reply == [Outgoing(Reply(prober), AdvertText(host.serverName, hostIp, host.gamePort))]
      && ServerKey(hostIp, host.gamePort) in OnBroadcast(other, reply[0].text, hostEndpoint, otherIp, now).0.servers
  {
    AdvertRoundTrip(other, host.serverName, hostIp, host.gamePort, hostEndpoint, otherIp, now);
  }

  // ---------------------------------------------------------------- operations

  /** `RegisterServer(name, port)`: remembered, registered with the master when it is
      reachable, then local broadcasting starts; `listenerOk` is false when the listener port
      cannot be bound. */
  function RegisterServer(b: Browser, name: string, port: int32, localIp: string, steamId: string, listenerOk: bool, now: Time): (r: (Browser, seq<Outgoing>))
    ensures r.0.serverName == name && r.0.gamePort == port && r.0.broadcastOpen && r.0.servers == b.servers
    ensures r.0.isRegistered == (b.isRegistered || b.masterOpen)
    ensures b.masterOpen ==> r.1 == [Outgoing(Master, RegisterText(name, localIp, port, steamId))] && r.0.lastHeartbeat == now
    ensures !b.masterOpen ==> r.1 == []
    ensures r.0.listenerOpen == (b.listenerOpen || listenerOk)
  {
    var named := b.(serverName := name, gamePort := port);
    var (registered, sent) :=
      if b.masterOpen then (named.(isRegistered := true, lastHeartbeat := now), [Outgoing(Master, RegisterText(name, localIp, port, steamId))])
      else (named, []);
    (StartLocalBroadcast(registered, listenerOk, now), sent)
  }

  function StartLocalBroadcast(b: Browser, listenerOk: bool, now: Time): (r: Browser)
    ensures r.broadcastOpen && r.listenerOpen == (b.listenerOpen || listenerOk)
    ensures r.(broadcastOpen := b.broadcastOpen, listenerOpen := b.listenerOpen, lastBroadcast := b.lastBroadcast) == b
  {
    var sending := b.(broadcastOpen := true);
    if b.listenerOpen then sending.(lastBroadcast := now)
    else if listenerOk then sending.(listenerOpen := true, lastBroadcast := now)
    else sending
  }

  function UnregisterServer(b: Browser, steamId: string): (r: (Browser, seq<Outgoing>))
    ensures !b.isRegistered || !b.masterOpen ==> r == (b, [])
    ensures b.isRegistered && b.masterOpen ==> r == (b.(isRegistered := false), [Outgoing(Master, UnregisterText(steamId))])
  {
    if !b.isRegistered || !b.masterOpen then (b, [])
    else (b.(isRegistered := false), [Outgoing(Master, UnregisterText(steamId))])
  }

  /** `RequestServerList`: `LIST` to the master when reachable, then a `DISCOVER` probe on the
      local network once a listener is up. */
  function RequestServerList(b: Browser, listenerOk: bool): (r: (Browser, seq<Outgoing>))
    ensures r.0 == b.(broadcastOpen := true, listenerOpen := b.listenerOpen || listenerOk)
    ensures Outgoing(Master, LIST_TEXT) in r.1 <==> b.masterOpen
    ensures Outgoing(LocalBroadcast, DISCOVER_TEXT) in r.1 <==> (b.listenerOpen || listenerOk)
    // the master is asked first, and nothing else is sent
    ensures r.1 == (if b.masterOpen then [Outgoing(Master, LIST_TEXT)] else [])
                 + (if b.listenerOpen || listenerOk then [Outgoing(LocalBroadcast, DISCOVER_TEXT)] else [])
  {
    var listed := if b.masterOpen then [Outgoing(Master, LIST_TEXT)] else [];
    var sending := b.(broadcastOpen := true);
    if sending.listenerOpen then (sending, listed + [Outgoing(LocalBroadcast, DISCOVER_TEXT)])
    else if listenerOk then (sending.(listenerOpen := true), listed + [Outgoing(LocalBroadcast, DISCOVER_TEXT)])
    else (sending, listed)
  }

  predicate Stale(s: ServerInfo, now: Time)
  {
    now - s.lastUpdate > SERVER_TIMEOUT
  }

  /** The stale-entry sweep. */
  function Evict(servers: Servers, now: Time): (r: Servers)
    ensures forall k :: k in r <==> k in servers && !Stale(servers[k], now)
    ensures forall k :: k in r ==> r[k] == servers[k]
  {
    map k | k in servers && !Stale(servers[k], now) :: servers[k]
  }

  /** `Update`: the master heartbeat every five seconds and the local advertisement every two
      while registered, then the sweep. */
  function Update(b: Browser, now: Time, localIp: string, steamId: string): (r: (Browser, seq<Outgoing>))
    ensures r.0.servers == Evict(b.servers, now)
    ensures Outgoing(Master, RegisterText(b.serverName, localIp, b.gamePort, steamId)) in r.1 <==>
      b.isRegistered && b.masterOpen && now - b.lastHeartbeat >= HEARTBEAT_INTERVAL
    ensures Outgoing(LocalBroadcast, AdvertText(b.serverName, localIp, b.gamePort)) in r.1 <==>
      b.isRegistered && b.broadcastOpen && now - b.lastBroadcast >= BROADCAST_INTERVAL
    ensures forall o :: o in r.1 ==>
      o == Outgoing(Master, RegisterText(b.serverName, localIp, b.gamePort, steamId))
      || o == Outgoing(LocalBroadcast, AdvertText(b.serverName, localIp, b.gamePort))
    ensures |r.1| <= 2
    // each send stamps its own clock; nothing else but the server list changes
    ensures r.0.lastHeartbeat ==
      if b.isRegistered && b.masterOpen && now - b.lastHeartbeat >= HEARTBEAT_INTERVAL then now else b.lastHeartbeat
    ensures r.0.lastBroadcast ==
      if b.isRegistered && b.broadcastOpen && now - b.lastBroadcast >= BROADCAST_INTERVAL then now else b.lastBroadcast
    ensures r.0.(servers := b.servers, lastHeartbeat := b.lastHeartbeat, lastBroadcast := b.lastBroadcast) == b
  {
    var beat := b.isRegistered && b.masterOpen && now - b.lastHeartbeat >= HEARTBEAT_INTERVAL;
    var advertise := b.isRegistered && b.broadcastOpen && now - b.lastBroadcast >= BROADCAST_INTERVAL;
    var b1 := if beat then b.(lastHeartbeat := now) else b;
    var b2 := if advertise then b1.(lastBroadcast := now) else b1;
    var sent := (if beat then [Outgoing(Master, RegisterText(b.serverName, localIp, b.gamePort, steamId))] else [])
              + (if advertise then [Outgoing(LocalBroadcast, AdvertText(b.serverName, localIp, b.gamePort))] else []);
    assert "SERVER|" <= AdvertText(b.serverName, localIp, b.gamePort);
    (b2.(servers := Evict(b.servers, now)), sent)
  }

  /** Two frames closer together than `HEARTBEAT_INTERVAL` never both send the heartbeat, and two
      closer together than `BROADCAST_INTERVAL` never both send the advertisement. */
  lemma UpdatePaced(b: Browser, t1: Time, t2: Time, localIp: string, steamId: string)
    requires t1 <= t2
    ensures var first := Update(b, t1, localIp, steamId);
      var second := Update(first.0, t2, localIp, steamId);
      && (Outgoing(Master, RegisterText(b.serverName, localIp, b.gamePort, steamId)) in first.1 && t2 - t1 < HEARTBEAT_INTERVAL ==>
            forall o :: o in second.1 ==> o.target != Master)
      && (Outgoing(LocalBroadcast, AdvertText(b.serverName, localIp, b.gamePort)) in first.1 && t2 - t1 < BROADCAST_INTERVAL ==>
            forall o :: o in second.1 ==> o.target != LocalBroadcast)
  {
  }

  /** `OnReceive` from the master socket. */
  function OnMasterMessage(b: Browser, message: string, now: Time): (r: Browser)
    ensures !b.masterOpen ==> r == b
    ensures r.(servers := b.servers) == b
  {
    if !b.masterOpen then b else b.(servers := ProcessMessage(b.servers, message, now))
  }

  /** `Shutdown`: unregister, close all three sockets and forget every server. */
  function Shutdown(b: Browser, steamId: string): (r: (Browser, seq<Outgoing>))
    ensures !r.0.masterOpen && !r.0.broadcastOpen && !r.0.listenerOpen && r.0.servers == map[]
    ensures r.1 == UnregisterServer(b, steamId).1
    ensures b.masterOpen ==> !r.0.isRegistered
  {
    var (unregistered, sent) := UnregisterServer(b, steamId);
    (unregistered.(masterOpen := false, broadcastOpen := false, listenerOpen := false, servers := map[]), sent)
  }
}

=== FILE: enumeration.dfy ===
/** Dictionary and set enumerations: the source iterates `Dictionary.Values` in an unspecified
    order, so the model's loops pick keys one at a time and report the order they used. */
module Enumeration {

  /** No element occurs twice. */
  predicate Distinct<T(==)>(s: seq<T>) {
    forall i, j :: 0 <= i < j < |s| ==> s[i] != s[j]
  }

  /** `order` lists every element of `keys` exactly once and nothing else. */
  predicate Enumerates<T(==)>(order: seq<T>, keys: set<T>) {
    && Distinct(order)
    && (forall i :: 0 <= i < |order| ==> order[i] in keys)
    && (forall k :: k in keys ==> k in order)
  }

  /** Enumerating one more (fresh) element extends the enumeration. */
  lemma EnumeratesAppend<T>(order: seq<T>, keys: set<T>, x: T)
    requires Enumerates(order, keys) && x !in keys
    ensures Enumerates(order + [x], keys + {x})
  {
  }

  /** A subset is no larger than its superset. */
  lemma {:induction false} SubsetCardinality<T>(a: set<T>, b: set<T>)
    requires a <= b
    ensures |a| <= |b|
    decreases |b|
  {
    if b != {} {
      var x :| x in b;
      SubsetCardinality(a - {x}, b - {x});
    }
  }
}

=== FILE: game_state_sync.dfy ===
/** The in-game object synchronisation of HPMultiplayer/Synchronization/GameStateSync.cs: the
    registry of synced objects, the change tracking of each object, the periodic sync pass that
    serializes changed objects, and `ApplyState`, which walks a received snapshot. */
module StateSync {
  import opened Wrappers
  import opened Wire
  import opened Net
  import opened Text
  import opened Snapshot
  import opened Enumeration

  /** A transform: position and rotation as opaque float words. */
  datatype Pose = Pose(position: Vec3, rotation: Quat)

  /** `default(Vector3)` / `default(Quaternion)`: all components 0f. */
  const ORIGIN: Pose := Pose(VEC3_ZERO, Quat(ZERO_WORD, ZERO_WORD, ZERO_WORD, ZERO_WORD))

  /** `FULL_SYNC_INTERVAL` (1 s), in milliseconds. */
  const FULL_SYNC_INTERVAL: int := 1000

  /** A `SyncedObject`. `live` says whether its `GameObject` still exists and `current` is that
      object's transform, which the game moves between calls. */
  datatype SyncedObject = SyncedObject(
    objectId: seq<byte>,
    live: bool,
    current: Pose,
    last: Pose,
    changed: bool,
    target: Pose,
    hasNetworkUpdate: bool)

  type Registry = map<seq<byte>, SyncedObject>

  /** The `SyncedObject(objectId, gameObject, syncType)` constructor: the last-synced transform
      starts at the object's own (or at the default when there is no object). */
  function NewSyncedObject(objectId: seq<byte>, live: bool, current: Pose): (o: SyncedObject)
    ensures o.objectId == objectId && o.live == live && o.current == current
    ensures o.last == (if live then current else ORIGIN)
    ensures !o.changed && !o.hasNetworkUpdate
  {
    SyncedObject(objectId, live, current, if live then current else ORIGIN, false, ORIGIN, false)
  }

  // ------------------------------------------------------------------- one object

  /** `HasChanged`, with the distance/angle thresholds abstracted as `moved(now, last)`. A
      move sets the sticky flag and remembers the transform; the flag is reported. */
  function HasChanged(o: SyncedObject, moved: (Pose, Pose) -> bool): (r: (SyncedObject, bool))
    ensures r.1 == (o.live && (o.changed || moved(o.current, o.last)))
    ensures r.0.changed == (o.changed || (o.live && moved(o.current, o.last)))
    ensures o.live && moved(o.current, o.last) ==> r.0.last == o.current
    ensures !(o.live && moved(o.current, o.last)) ==> r.0 == o
    ensures r.0.(last := o.last, changed := o.changed) == o
  {
    if !o.live then (o, false)
    else if moved(o.current, o.last) then (o.(changed := true, last := o.current), true)
    else (o, o.changed)
  }

  /** `MarkSynced`: clears the changed flag and nothing else. */
  function MarkSynced(o: SyncedObject): (r: SyncedObject)
    ensures !r.changed && r.(changed := o.changed) == o
  {
    o.(changed := false)
  }

  /** The changed flag is sticky: once set, `HasChanged` keeps reporting it, whatever the
      object does, until `MarkSynced` clears it. */
  lemma ChangedIsSticky(o: SyncedObject, moved: (Pose, Pose) -> bool, moved2: (Pose, Pose) -> bool)
    requires o.live && o.changed
    ensures HasChanged(o, moved).1
    ensures HasChanged(HasChanged(o, moved).0, moved2).1
    ensures !HasChanged(MarkSynced(o), moved).1 <==> !moved(o.current, o.last)
  {
  }

  /** The record an object contributes: its id and its current transform. */
  function RecordOf(o: SyncedObject): Record {
    Record(o.objectId, o.current.position, o.current.rotation)
  }

  /** `SyncedObject.Serialize`: nothing for a destroyed object; otherwise the object's record
      (1-byte id length, id, 3 position words, 4 rotation words), after which the current
      transform counts as synced and the changed flag is clear. */
  function Serialize(o: SyncedObject): (r: (SyncedObject, seq<byte>))
    ensures !o.live ==> r == (o, [])
    ensures o.live ==> |r.1| == 1 + |o.objectId| + 12 + 16 && r.1[0] as int == |o.objectId| % 256
    ensures o.live ==> !r.0.changed && r.0.last == o.current && r.0.(last := o.last, changed := o.changed) == o
    ensures o.live && |o.objectId| < 256 ==> Records(r.1) == [RecordOf(o)]
  {
    if !o.live then (o, [])
    else
      var bytes := RecordBytes(RecordOf(o));
      SingleRecordRoundTrip(RecordOf(o));
      (MarkSynced(o.(last := o.current)), bytes)
  }

  lemma SingleRecordRoundTrip(r: Record)
    ensures ShortId(r) ==> Records(RecordBytes(r)) == [r]
  {
    if ShortId(r) {
      assert [r][1..] == [];
      assert EncodeRecords([r]) + [] == RecordBytes(r);
      RecordsOfEncoding([r], []);
    }
  }

  /** `SetNetworkTarget`: stores the received transform for interpolation and raises the
      update flag; nothing else changes. */
  /** `b` is `a` with at most its network target (and the flag saying one arrived) changed. */
  predicate Retargeted(a: SyncedObject, b: SyncedObject) {
    b.objectId == a.objectId && b.live == a.live && b.current == a.current && b.last == a.last && b.changed == a.changed
  }

  function SetNetworkTarget(o: SyncedObject, target: Pose): (r: SyncedObject)
    ensures r.target == target && r.hasNetworkUpdate
    ensures Retargeted(o, r)
  {
    o.(target := target, hasNetworkUpdate := true)
  }

  // ------------------------------------------------------------------- registry

  /** `RegisterObject`: adds a new id and never overwrites an existing one. */
  function RegisterObject(reg: Registry, objectId: seq<byte>, live: bool, current: Pose): (r: Registry)
    ensures r.Keys == reg.Keys + {objectId}
    ensures forall k :: k in reg ==> r[k] == reg[k]
    ensures objectId !in reg ==> r[objectId] == NewSyncedObject(objectId, live, current)
  {
    if objectId in reg then reg else reg[objectId := NewSyncedObject(objectId, live, current)]
  }

  /** `UnregisterObject`: removes only the given id. */
  function UnregisterObject(reg: Registry, objectId: seq<byte>): (r: Registry)
    ensures r.Keys == reg.Keys - {objectId}
    ensures forall k :: k in r ==> r[k] == reg[k]
  {
    reg - {objectId}
  }

  // ------------------------------------------------------------------- object ids

  /** The name `ApplyState` looks for when a record's id is unknown: split the id on '_'; with
      fewer than two parts there is none, with exactly two it is the second, and otherwise it is
      every part but the first and the last, joined again with '_'. */
  function NameFromId(objectId: seq<byte>): (name: Option<seq<byte>>)
    ensures name.None? <==> UNDERSCORE !in objectId
  {
    var parts := Split(objectId, UNDERSCORE);
    NoSeparatorIffOnePart(objectId);
    if |parts| < 2 then None
    else if |parts| > 2 then Some(Join(parts[1..|parts| - 1], UNDERSCORE))
    else Some(parts[1])
  }

  lemma NoSeparatorIffOnePart(s: seq<byte>)
    ensures UNDERSCORE !in s <==> |Split(s, UNDERSCORE)| < 2
  {
    if UNDERSCORE !in s {
      SplitWithoutSeparator(s, UNDERSCORE);
    } else {
      JoinSplit(s, UNDERSCORE);
    }
  }

  /** Name recovery: an id `prefix_name_suffix` whose prefix and suffix hold no '_' yields
      `name`, even when `name` itself contains '_'. */
  lemma {:induction false} NameFromIdRecovers(prefix: seq<byte>, name: seq<byte>, suffix: seq<byte>)
    requires UNDERSCORE !in prefix && UNDERSCORE !in suffix
    ensures NameFromId(prefix + [UNDERSCORE] + name + [UNDERSCORE] + suffix) == Some(name)
  {
    var id := prefix + [UNDERSCORE] + name + [UNDERSCORE] + suffix;
    SplitAround(prefix + [UNDERSCORE] + name, UNDERSCORE, suffix);
    SplitAround(prefix, UNDERSCORE, name);
    SplitWithoutSeparator(prefix, UNDERSCORE);
    SplitWithoutSeparator(suffix, UNDERSCORE);
    var parts := Split(id, UNDERSCORE);
    var middle := Split(name, UNDERSCORE);
    assert parts == [prefix] + middle + [suffix];
    assert |parts| >= 3;
    assert parts[1..|parts| - 1] == middle;
    JoinSplit(name, UNDERSCORE);
  }

  // ------------------------------------------------------------------- applying a snapshot

  /** One record of `ApplyState`: a registered live object gets the record's transform as its
      network target; an unknown id is resolved through its name with `find` (the scene search,
      giving the transform of the object found), registered and targeted; otherwise dropped. */
  function ApplyRecord(reg: Registry, rec: Record, find: seq<byte> -> Option<Pose>): (r: Registry)
    ensures rec.objectId in reg && reg[rec.objectId].live ==>
      r == reg[rec.objectId := SetNetworkTarget(reg[rec.objectId], Pose(rec.position, rec.rotation))]
    ensures rec.objectId in reg && !reg[rec.objectId].live ==> r == reg
    ensures rec.objectId !in reg && (NameFromId(rec.objectId).None? || find(NameFromId(rec.objectId).value).None?) ==> r == reg
    ensures rec.objectId !in reg && NameFromId(rec.objectId).Some? && find(NameFromId(rec.objectId).value).Some? ==>
      && r.Keys == reg.Keys + {rec.objectId}
      && r[rec.objectId] == SetNetworkTarget(NewSyncedObject(rec.objectId, true, find(NameFromId(rec.objectId).value).value),
                                             Pose(rec.position, rec.rotation))
    ensures r.Keys == reg.Keys || r.Keys == reg.Keys + {rec.objectId}
    ensures forall k :: k in reg && k != rec.objectId ==> r[k] == reg[k]
  {
    var target := Pose(rec.position, rec.rotation);
    if rec.objectId in reg then
      var o := reg[rec.objectId];
      if o.live then reg[rec.objectId := SetNetworkTarget(o, target)] else reg
    else
      match NameFromId(rec.objectId)
      case None => reg
      case Some(name) =>
        match find(name)
        case None => reg
        case Some(found) =>
          var reg' := RegisterObject(reg, rec.objectId, true, found);
          reg'[rec.objectId := SetNetworkTarget(reg'[rec.objectId], target)]
  }

  function ApplyRecords(reg: Registry, rs: seq<Record>, find: seq<byte> -> Option<Pose>): (r: Registry)
    ensures reg.Keys <= r.Keys
    ensures forall k :: k in r.Keys - reg.Keys ==> k in IdsOf(rs) && NameFromId(k).Some?
    ensures forall k :: k in reg ==> Retargeted(reg[k], r[k])
    decreases |rs|
  {
    if |rs| == 0 then reg
    else
      var r := ApplyRecords(ApplyRecord(reg, rs[0], find), rs[1..], find);
      assert IdsOf(rs) == {rs[0].objectId} + IdsOf(rs[1..]);
      r
  }

  function IdsOf(rs: seq<Record>): set<seq<byte>> {
    set i | 0 <= i < |rs| :: rs[i].objectId
  }

  /** `ApplyState`: the walk over the snapshot's complete records, in order. It never fails, an
      empty blob changes nothing, existing objects only ever get a new target, and ids are only
      ever added for records whose id names an object. */
  function ApplyState(reg: Registry, data: seq<byte>, find: seq<byte> -> Option<Pose>): (r: Registry)
    ensures |data| == 0 ==> r == reg
    ensures reg.Keys <= r.Keys
    ensures forall k :: k in r.Keys - reg.Keys ==> k in IdsOf(Records(data)) && NameFromId(k).Some?
    ensures forall k :: k in reg ==> Retargeted(reg[k], r[k])
  {
    if |data| == 0 then reg else ApplyRecords(reg, Records(data), find)
  }

  lemma {:induction false} ApplyRecordsAppend(reg: Registry, a: seq<Record>, b: seq<Record>, find: seq<byte> -> Option<Pose>)
    ensures ApplyRecords(reg, a + b, find) == ApplyRecords(ApplyRecords(reg, a, find), b, find)
    decreases |a|
  {
    if |a| > 0 {
      assert (a + b)[0] == a[0];
      assert (a + b)[1..] == a[1..] + b;
      ApplyRecordsAppend(ApplyRecord(reg, a[0], find), a[1..], b, find);
    } else {
      assert a + b == b;
    }
  }

  /** Truncation keeps what came before it: applying a blob cut at any point has the same effect
      as the start of applying the whole blob, which then only goes on to further records. */
  lemma TruncatedSnapshotIsPrefix(reg: Registry, data: seq<byte>, k: nat, find: seq<byte> -> Option<Pose>)
    requires k <= |data|
    ensures var kept := Records(data[..k]);
            && kept <= Records(data)
            && ApplyState(reg, data, find) == ApplyRecords(ApplyState(reg, data[..k], find), Records(data)[|kept|..], find)
  {
    var all := Records(data);
    var kept := Records(data[..k]);
    RecordsOfPrefix(data, k);
    assert all == kept + all[|kept|..];
    ApplyRecordsAppend(reg, kept, all[|kept|..], find);
  }

  /** A snapshot encoding short-id records, plus a garbage tail shorter than a record, applies
      exactly those records. */
  lemma ApplyEncodedRecords(reg: Registry, rs: seq<Record>, tail: seq<byte>, find: seq<byte> -> Option<Pose>)
    requires forall i :: 0 <= i < |rs| ==> ShortId(rs[i])
    requires |tail| < 1 + BODY_SIZE
    ensures ApplyState(reg, EncodeRecords(rs) + tail, find) == ApplyRecords(reg, rs, find)
  {
    RecordsOfEncoding(rs, tail);
    ShortTailHasNoRecord(tail);
  }

  // ------------------------------------------------------------------- the sync pass

  /** A forced full sync is due once `FULL_SYNC_INTERVAL` has passed since the last one. */
  predicate FullSyncDue(lastFull: Time, now: Time) {
    now - lastFull >= FULL_SYNC_INTERVAL
  }

  /** An object goes into the snapshot iff it exists and it has changed or a full sync is due. */
  predicate Included(o: SyncedObject, force: bool, moved: (Pose, Pose) -> bool) {
    o.live && (o.changed || moved(o.current, o.last) || force)
  }

  /** One object's turn in the pass: `HasChanged` (always evaluated first), then `Serialize`
      when the object is included. */
  function SyncObject(o: SyncedObject, force: bool, moved: (Pose, Pose) -> bool): (r: (SyncedObject, seq<byte>))
    ensures Included(o, force, moved) ==> r.1 == RecordBytes(RecordOf(o)) && !r.0.changed && r.0.last == o.current
    ensures !Included(o, force, moved) ==> r == (o, [])
    ensures r.0.(last := o.last, changed := o.changed) == o
  {
    if !o.live then (o, [])
    else
      var (h, changed) := HasChanged(o, moved);
      if changed || force then Serialize(h) else (h, [])
  }

  /** The records of the included objects, in enumeration order. */
  function Selected(reg: Registry, order: seq<seq<byte>>, force: bool, moved: (Pose, Pose) -> bool): (rs: seq<Record>)
    requires forall i :: 0 <= i < |order| ==> order[i] in reg
    decreases |order|
  {
    if |order| == 0 then []
    else
      var last := reg[order[|order| - 1]];
      Selected(reg, order[..|order| - 1], force, moved) + (if Included(last, force, moved) then [RecordOf(last)] else [])
  }

  /** Nothing is selected exactly when no listed object is included. */
  lemma {:induction false} SelectedEmpty(reg: Registry, order: seq<seq<byte>>, force: bool, moved: (Pose, Pose) -> bool)
    requires forall i :: 0 <= i < |order| ==> order[i] in reg
    ensures Selected(reg, order, force, moved) == [] <==> forall i :: 0 <= i < |order| ==> !Included(reg[order[i]], force, moved)
    decreases |order|
  {
    if |order| > 0 {
      var init := order[..|order| - 1];
      SelectedEmpty(reg, init, force, moved);
      assert forall i :: 0 <= i < |init| ==> init[i] == order[i];
    }
  }

  /** Taking one more object's turn appends exactly the bytes that object contributes. */
  lemma SelectedStep(reg: Registry, order: seq<seq<byte>>, k: seq<byte>, force: bool, moved: (Pose, Pose) -> bool)
    requires forall i :: 0 <= i < |order| ==> order[i] in reg
    requires k in reg
    ensures EncodeRecords(Selected(reg, order + [k], force, moved))
            == EncodeRecords(Selected(reg, order, force, moved)) + SyncObject(reg[k], force, moved).1
  {
    assert (order + [k])[..|order|] == order;
    var before := Selected(reg, order, force, moved);
    if Included(reg[k], force, moved) {
      EncodeRecordsAppend(before, RecordOf(reg[k]));
    } else {
      assert before + [] == before;
    }
  }

  /** Every object takes its turn, in an enumeration order the loop chooses. */
  method SyncAll(reg: Registry, force: bool, moved: (Pose, Pose) -> bool)
    returns (order: seq<seq<byte>>, next: Registry, data: seq<byte>)
    ensures Enumerates(order, reg.Keys)
    ensures next.Keys == reg.Keys
    ensures forall k :: k in reg ==> next[k] == SyncObject(reg[k], force, moved).0
    ensures data == EncodeRecords(Selected(reg, order, force, moved))
  {
    order := [];
    next := reg;
    data := [];
    var remaining := reg.Keys;
    while remaining != {}
      invariant remaining <= reg.Keys
      invariant Enumerates(order, reg.Keys - remaining)
      invariant next.Keys == reg.Keys
      invariant forall k :: k in remaining ==> next[k] == reg[k]
      invariant forall k :: k in reg.Keys - remaining ==> next[k] == SyncObject(reg[k], force, moved).0
      invariant data == EncodeRecords(Selected(reg, order, force, moved))
      decreases remaining
    {
      var k :| k in remaining;
      var step := SyncObject(reg[k], force, moved);
      EnumeratesAppend(order, reg.Keys - remaining, k);
      assert reg.Keys - (remaining - {k}) == (reg.Keys - remaining) + {k};
      SelectedStep(reg, order, k, force, moved);
      var extended := order + [k];
      assert forall i :: 0 <= i < |extended| ==> extended[i] in reg;
      assert data + step.1 == EncodeRecords(Selected(reg, extended, force, moved));
      next := next[k := step.0];
      data := data + step.1;
      order := extended;
      remaining := remaining - {k};
    }
  }

  /** `SyncGameState`: nothing at all when the registry is empty; otherwise a forced full sync is
      due after `FULL_SYNC_INTERVAL` (and restarts that timer), every object takes its turn in
      enumeration order, and the concatenated records of the included objects are raised as the
      state-changed event exactly when at least one object was included. */
  method SyncPass(reg: Registry, now: Time, lastFull: Time, moved: (Pose, Pose) -> bool)
    returns (order: seq<seq<byte>>, next: Registry, nextFull: Time, event: Option<seq<byte>>)
    ensures |reg| == 0 ==> order == [] && next == reg && nextFull == lastFull && event == None
    ensures |reg| > 0 ==> Enumerates(order, reg.Keys)
    ensures |reg| > 0 ==> nextFull == (if FullSyncDue(lastFull, now) then now else lastFull)
    ensures next.Keys == reg.Keys
    ensures forall k :: k in reg ==> next[k] == SyncObject(reg[k], FullSyncDue(lastFull, now), moved).0
    ensures event.Some? <==> exists k :: k in reg && Included(reg[k], FullSyncDue(lastFull, now), moved)
    ensures event.Some? ==> event.value == EncodeRecords(Selected(reg, order, FullSyncDue(lastFull, now), moved))
  {
    if |reg| == 0 {
      return [], reg, lastFull, None;
    }
    var force := FullSyncDue(lastFull, now);
    nextFull := if force then now else lastFull;
    var data;
    order, next, data := SyncAll(reg, force, moved);
    EncodeRecordsEmpty(Selected(reg, order, force, moved));
    SelectedEmpty(reg, order, force, moved);
    if exists k :: k in reg && Included(reg[k], force, moved) {
      var k :| k in reg && Included(reg[k], force, moved);
      assert k in order;
    }
    event := if data != [] then Some(data) else None;
  }
}

=== FILE: net.dfy ===
/** Network endpoints, outgoing datagrams and time, as the handlers see them. */
module Net {
  import opened Wire

  /** A clock reading in milliseconds (`Time.time` or `DateTime.UtcNow`, passed in). */
  type Time = int

  /** An `IPEndPoint`: equal when address and port are equal. */
  datatype Endpoint = Endpoint(address: seq<byte>, port: int)

  /** One `UdpClient.Send(payload, payload.Length, to)`. */
  datatype Datagram = Datagram(to: Endpoint, payload: seq<byte>)
}

=== FILE: object_finder.dfy ===
/** Discovery of synchronisable scene objects (HPMultiplayer/Synchronization/GameObjectFinder.cs):
    the lower-case name tests that classify an object as an NPC or as interactive, the
    `prefix_name_instanceId` ids, and the periodic scan that registers each id at most once. */
module ObjectFinder {
  import opened Wrappers
  import opened Wire
  import opened Net
  import opened Text
  import opened StateSync
  import opened Enumeration

  /** `SCAN_INTERVAL` (2 s), in milliseconds. */
  const SCAN_INTERVAL: int := 2000

  /** A scene object: its name (as UTF-8 bytes), `GetInstanceID()`, `activeInHierarchy` and
      its transform. */
  datatype SceneObject = SceneObject(name: seq<byte>, instanceId: int32, active: bool, pose: Pose)

  const NPC: seq<byte> := AsciiBytes("npc")
  const CHARACTER: seq<byte> := AsciiBytes("character")
  const PLAYER: seq<byte> := AsciiBytes("player")
  const GUEST: seq<byte> := AsciiBytes("guest")
  const PERSON: seq<byte> := AsciiBytes("person")
  const REMOTE: seq<byte> := AsciiBytes("remote")
  const UI: seq<byte> := AsciiBytes("ui")
  const CANVAS: seq<byte> := AsciiBytes("canvas")
  const DOOR: seq<byte> := AsciiBytes("door")
  const ITEM: seq<byte> := AsciiBytes("item")
  const PICKUP: seq<byte> := AsciiBytes("pickup")
  const INTERACTIVE: seq<byte> := AsciiBytes("interactive")
  const TRIGGER: seq<byte> := AsciiBytes("trigger")

  /** The NPC test of `FindNPCs` on a lower-cased name (`&&` binds tighter than `||`). */
  predicate NpcName(lower: seq<byte>) {
    && (|| Contains(lower, NPC)
        || (Contains(lower, CHARACTER) && !Contains(lower, PLAYER))
        || Contains(lower, GUEST)
        || Contains(lower, PERSON))
    && !Contains(lower, REMOTE)
    && !Contains(lower, UI)
    && !Contains(lower, CANVAS)
  }

  /** The test of `FindInteractiveObjects` on a lower-cased name. */
  predicate InteractiveName(lower: seq<byte>) {
    || Contains(lower, DOOR)
    || Contains(lower, ITEM)
    || Contains(lower, PICKUP)
    || Contains(lower, INTERACTIVE)
    || Contains(lower, TRIGGER)
  }

  predicate IsNpc(o: SceneObject) {
    NpcName(LowerBytes(o.name)) && o.active
  }

  predicate IsInteractive(o: SceneObject) {
    InteractiveName(LowerBytes(o.name)) && o.active
  }

  /** The objects of `scene` that satisfy `keep`, in scene order. */
  function Filter(scene: seq<SceneObject>, keep: SceneObject -> bool): (r: seq<SceneObject>)
    ensures |r| <= |scene|
    ensures forall o :: o in r <==> o in scene && keep(o)
  {
    if |scene| == 0 then []
    else (if keep(scene[0]) then [scene[0]] else []) + Filter(scene[1..], keep)
  }

  /** `FindNPCs`: exactly the scene's NPC-like objects. */
  function FindNPCs(scene: seq<SceneObject>): (r: seq<SceneObject>)
    ensures forall o :: o in r <==> o in scene && IsNpc(o)
  {
    Filter(scene, IsNpc)
  }

  /** `FindInteractiveObjects`: exactly the scene's interactive objects. */
  function FindInteractiveObjects(scene: seq<SceneObject>): (r: seq<SceneObject>)
    ensures forall o :: o in r <==> o in scene && IsInteractive(o)
  {
    Filter(scene, IsInteractive)
  }

  // ------------------------------------------------------------------- ids

  lemma AsciiUnderscoreFree(s: string)
    requires IsAscii(s) && '_' !in s
    ensures UNDERSCORE !in AsciiBytes(s)
  {
  }

  /** `$"{prefix}_{name}_{instanceId}"`, and `NameFromId` gives the name back. */
  function ObjectId(prefix: string, o: SceneObject): (id: seq<byte>)
    requires IsAscii(prefix) && '_' !in prefix
    ensures AsciiBytes(prefix) + [UNDERSCORE] <= id
    ensures NameFromId(id) == Some(o.name)
  {
    var suffix := AsciiBytes(Decimal(o.instanceId as int));
    AsciiUnderscoreFree(prefix);
    AsciiUnderscoreFree(Decimal(o.instanceId as int));
    NameFromIdRecovers(AsciiBytes(prefix), o.name, suffix);
    AsciiBytes(prefix) + [UNDERSCORE] + o.name + [UNDERSCORE] + suffix
  }

  /** The id of an NPC: it starts with `npc_`. */
  function NpcId(o: SceneObject): (id: seq<byte>)
    ensures AsciiBytes("npc") + [UNDERSCORE] <= id
    ensures NameFromId(id) == Some(o.name)
  {
    ObjectId("npc", o)
  }

  /** The id of an interactive object: it starts with `interactive_`. It differs from `NpcId`
      only in the prefix; both are kept because the host's two scans and `ClientId` each name
      one of them. */
  function InteractiveId(o: SceneObject): (id: seq<byte>)
    ensures AsciiBytes("interactive") + [UNDERSCORE] <= id
    ensures NameFromId(id) == Some(o.name)
  {
    ObjectId("interactive", o)
  }

  /** The client's choice of prefix: "npc" iff the lower-cased name mentions "npc" or
      "character", "interactive" otherwise. */
  function ClientId(o: SceneObject): (id: seq<byte>)
    ensures id == NpcId(o) <==> Contains(LowerBytes(o.name), NPC) || Contains(LowerBytes(o.name), CHARACTER)
  {
    var lower := LowerBytes(o.name);
    PrefixesDiffer(o);
    if Contains(lower, NPC) || Contains(lower, CHARACTER) then NpcId(o) else InteractiveId(o)
  }

  lemma PrefixesDiffer(o: SceneObject)
    ensures NpcId(o) != InteractiveId(o)
  {
    assert NpcId(o)[3] == UNDERSCORE != InteractiveId(o)[3];
  }

  /** The client and the host agree on the id of an NPC whose name mentions "npc"... */
  lemma ClientAgreesOnNpcKeyword(o: SceneObject)
    requires IsNpc(o) && Contains(LowerBytes(o.name), NPC)
    ensures ClientId(o) == NpcId(o)
  {
  }

  /** ...but an NPC recognised only as a "guest" is registered by the client under an
      "interactive_" id, so the host's snapshots reach it only through name recovery. */
  lemma ClientDisagreesOnGuest(pose: Pose)
    ensures var o := SceneObject(GUEST, 7, true, pose);
            IsNpc(o) && ClientId(o) != NpcId(o)
  {
    var o := SceneObject(GUEST, 7, true, pose);
    assert GUEST == [0x67, 0x75, 0x65, 0x73, 0x74];
    assert LowerBytes(GUEST) == GUEST;
    assert GUEST <= GUEST;
    MissingByteNotContained(GUEST, NPC, NPC[0]);
    MissingByteNotContained(GUEST, CHARACTER, CHARACTER[0]);
    MissingByteNotContained(GUEST, REMOTE, REMOTE[0]);
    MissingByteNotContained(GUEST, UI, UI[1]);
    MissingByteNotContained(GUEST, CANVAS, CANVAS[0]);
    PrefixesDiffer(o);
  }

  /** A pattern holding a byte that `s` lacks does not occur in `s`. */
  lemma {:induction false} MissingByteNotContained(s: seq<byte>, pat: seq<byte>, b: byte)
    requires b in pat && b !in s
    ensures !Contains(s, pat)
    decreases |s|
  {
    if !(pat <= s) && |s| > 0 {
      MissingByteNotContained(s[1..], pat, b);
    }
  }

  // ------------------------------------------------------------------- registration

  /** The found-set and the time of the last scan. */
  datatype Finder = Finder(lastScan: Time, found: set<seq<byte>>)

  /** The candidate (id, object) pairs a scan considers, in order: on the host, every NPC as
      "npc_…" followed by every interactive object as "interactive_…"; on a client, the same
      objects each under the client's prefix. */
  function Candidates(scene: seq<SceneObject>, isHost: bool): (cs: seq<(seq<byte>, SceneObject)>)
    ensures forall i :: 0 <= i < |cs| ==> cs[i].1 in scene && (IsNpc(cs[i].1) || IsInteractive(cs[i].1))
  {
    var npcs := FindNPCs(scene);
    var interactive := FindInteractiveObjects(scene);
    if isHost then
      seq(|npcs|, i requires 0 <= i < |npcs| => (NpcId(npcs[i]), npcs[i]))
      + seq(|interactive|, i requires 0 <= i < |interactive| => (InteractiveId(interactive[i]), interactive[i]))
    else
      var all := npcs + interactive;
      seq(|all|, i requires 0 <= i < |all| => (ClientId(all[i]), all[i]))
  }

  function Elements(s: seq<seq<byte>>): set<seq<byte>> {
    set i | 0 <= i < |s| :: s[i]
  }

  /** The ids of a candidate list. */
  function CandidateIds(cs: seq<(seq<byte>, SceneObject)>): set<seq<byte>> {
    set i | 0 <= i < |cs| :: cs[i].0
  }

  lemma ElementsCons(x: seq<byte>, s: seq<seq<byte>>)
    ensures Elements([x] + s) == {x} + Elements(s)
  {
    var t := [x] + s;
    forall y | y in Elements(t) ensures y in {x} + Elements(s) {
      var i :| 0 <= i < |t| && t[i] == y;
      if i > 0 { assert s[i - 1] == y; }
    }
    forall y | y in Elements(s) ensures y in Elements(t) {
      var i :| 0 <= i < |s| && s[i] == y;
      assert t[i + 1] == y;
    }
    assert t[0] == x;
  }

  lemma CandidateIdsCons(cs: seq<(seq<byte>, SceneObject)>)
    requires |cs| > 0
    ensures CandidateIds(cs) == {cs[0].0} + CandidateIds(cs[1..])
  {
    forall y | y in CandidateIds(cs) ensures y in {cs[0].0} + CandidateIds(cs[1..]) {
      var i :| 0 <= i < |cs| && cs[i].0 == y;
      if i > 0 { assert cs[1..][i - 1].0 == y; }
    }
    forall y | y in CandidateIds(cs[1..]) ensures y in CandidateIds(cs) {
      var i :| 0 <= i < |cs| - 1 && cs[1..][i].0 == y;
      assert cs[i + 1].0 == y;
    }
  }

  /** The registration loop: a candidate whose id is not yet in the found-set is registered
      and added to it; the ids registered are returned in order. */
  function RegisterFound(found: set<seq<byte>>, reg: Registry, cs: seq<(seq<byte>, SceneObject)>)
    : (r: (set<seq<byte>>, Registry, seq<seq<byte>>))
    ensures Distinct(r.2) && Elements(r.2) !! found
    ensures r.0 == found + Elements(r.2) && CandidateIds(cs) <= r.0
    ensures Elements(r.2) <= CandidateIds(cs)
    ensures r.1.Keys == reg.Keys + Elements(r.2)
    ensures forall k :: k in reg ==> r.1[k] == reg[k]
    // each new entry is the live candidate object at its pose
    ensures forall id :: id in Elements(r.2) && id !in reg ==>
      exists i :: 0 <= i < |cs| && cs[i].0 == id && r.1[id] == NewSyncedObject(id, true, cs[i].1.pose)
    decreases |cs|
  {
    if |cs| == 0 then (found, reg, [])
    else
      var id := cs[0].0;
      CandidateIdsCons(cs);
      if id in found then RegisterFound(found, reg, cs[1..])
      else
        var rest := RegisterFound(found + {id}, RegisterObject(reg, id, true, cs[0].1.pose), cs[1..]);
        ElementsCons(id, rest.2);
        (rest.0, rest.1, [id] + rest.2)
  }

  /** Candidates all already found register nothing and change nothing. */
  lemma {:induction false} AllFoundRegistersNothing(found: set<seq<byte>>, reg: Registry, cs: seq<(seq<byte>, SceneObject)>)
    requires CandidateIds(cs) <= found
    ensures RegisterFound(found, reg, cs) == (found, reg, [])
    decreases |cs|
  {
    if |cs| > 0 {
      CandidateIdsCons(cs);
      AllFoundRegistersNothing(found, reg, cs[1..]);
    }
  }

  /** `RegisterSyncableObjects`: does nothing within `SCAN_INTERVAL` of the previous scan;
      otherwise stamps the scan time and registers every candidate id not yet found. Each id
      is registered at most once, ever. */
  function Scan(f: Finder, reg: Registry, scene: seq<SceneObject>, isHost: bool, now: Time)
    : (r: (Finder, Registry, seq<seq<byte>>))
    ensures now - f.lastScan < SCAN_INTERVAL ==> r == (f, reg, [])
    ensures now - f.lastScan >= SCAN_INTERVAL ==> r.0.lastScan == now
    // a due scan leaves every candidate of the scene found, and registers only candidates
    ensures now - f.lastScan >= SCAN_INTERVAL ==>
      CandidateIds(Candidates(scene, isHost)) <= r.0.found && Elements(r.2) <= CandidateIds(Candidates(scene, isHost))
    ensures Distinct(r.2) && Elements(r.2) !! f.found
    ensures r.0.found == f.found + Elements(r.2)
    ensures r.1.Keys == reg.Keys + Elements(r.2)
    ensures forall k :: k in reg ==> r.1[k] == reg[k]
    ensures var cs := Candidates(scene, isHost);
      forall id :: id in Elements(r.2) && id !in reg ==>
        exists i :: 0 <= i < |cs| && cs[i].0 == id && r.1[id] == NewSyncedObject(id, true, cs[i].1.pose)
  {
    if now - f.lastScan < SCAN_INTERVAL then (f, reg, [])
    else
      var (found, reg', ids) := RegisterFound(f.found, reg, Candidates(scene, isHost));
      (Finder(now, found), reg', ids)
  }

  /** Scanning the same scene again (after the interval) registers nothing new. */
  lemma RescanRegistersNothing(f: Finder, reg: Registry, scene: seq<SceneObject>, isHost: bool, t1: Time, t2: Time)
    requires t1 - f.lastScan >= SCAN_INTERVAL && t2 - t1 >= SCAN_INTERVAL
    ensures var first := Scan(f, reg, scene, isHost, t1);
            var second := Scan(first.0, first.1, scene, isHost, t2);
            second.2 == [] && second.1 == first.1 && second.0.found == first.0.found
  {
    var first := Scan(f, reg, scene, isHost, t1);
    AllFoundRegistersNothing(first.0.found, first.1, Candidates(scene, isHost));
  }
}

=== FILE: peer.dfy ===
/** The peer-to-peer manager (HPMultiplayer/Networking/NetworkManager.cs): one host and one
    joiner exchange their own four-kind protocol over a single UDP socket each. As in the
    client, the receive callback captures what it parsed into a `PeerAction` and the main
    thread applies the queued actions at `Update`. */
module PeerToPeer {
  import opened Wrappers
  import opened Wire
  import opened Net
  import opened Protocol
  import opened Client
  import Retry

  /** The peer-to-peer message kinds; unrelated to the client/server enumeration. */
  datatype PeerType = PeerConnection | PeerPlayerUpdate | PeerDisconnect | PeerGameState

  function PeerCode(t: PeerType): (b: byte)
    ensures 1 <= b <= 4
  {
    match t
    case PeerConnection => 1
    case PeerPlayerUpdate => 2
    case PeerDisconnect => 3
    case PeerGameState => 4
  }

  /** The `switch` over `(MessageType)data[0]`: bytes outside 1..4 match no case. */
  function PeerTypeOf(b: byte): (t: Option<PeerType>)
    ensures t.Some? <==> 1 <= b <= 4
    ensures t.Some? ==> PeerCode(t.value) == b
  {
    if b == 1 then Some(PeerConnection)
    else if b == 2 then Some(PeerPlayerUpdate)
    else if b == 3 then Some(PeerDisconnect)
    else if b == 4 then Some(PeerGameState)
    else None
  }

  lemma PeerTypeOfCode(t: PeerType)
    ensures PeerTypeOf(PeerCode(t)) == Some(t)
  {
  }

  const HOST_PLAYER_ID: int32 := 1
  const JOINER_PLAYER_ID: int32 := 2
  const PEER_UPDATE_SIZE: nat := 29

  /** Both ends of a session use the default port pair 7777/7778 until started. */
  const DEFAULT_LOCAL_PORT: int32 := 7777
  const DEFAULT_REMOTE_PORT: int32 := 7778

  /** The range `IPEndPoint` and `UdpClient` accept for a port. */
  predicate IsPort(port: int32)
  {
    0 <= port <= 65535
  }

  // ---------------------------------------------------------------- frames

  /** The handshake frame: the discriminator and the sender's player id. */
  function PeerConnectionMessage(playerId: int32): (r: seq<byte>)
    ensures |r| == 5 && r[0] == PeerCode(PeerConnection) && ReadInt32(r, 1) == playerId
  {
    TypeId(PeerCode(PeerConnection), playerId)
  }

  /** The 29-byte pose frame: id, position and rotation, laid out as the client/server update. */
  function PeerUpdateMessage(playerId: int32, position: Vec3, rotation: Vec3): (r: seq<byte>)
    ensures |r| == PEER_UPDATE_SIZE && r[0] == PeerCode(PeerPlayerUpdate)
    ensures ParsePlayerUpdate(r) == Some(PlayerState(playerId, position, rotation))
  {
    var m := PlayerUpdateMessage(playerId, position, rotation);
    PlayerUpdateRoundTrip(playerId, position, rotation, PeerCode(PeerPlayerUpdate), []);
    assert [PeerCode(PeerPlayerUpdate)] + m[1..] + [] == [PeerCode(PeerPlayerUpdate)] + m[1..];
    [PeerCode(PeerPlayerUpdate)] + m[1..]
  }

  function PeerDisconnectMessage(playerId: int32): (r: seq<byte>)
    ensures |r| == 5 && r[0] == PeerCode(PeerDisconnect) && ReadInt32(r, 1) == playerId
  {
    TypeId(PeerCode(PeerDisconnect), playerId)
  }

  /** `SendGameState`'s frame: the discriminator, the 4-byte length and the snapshot. */
  function PeerGameStateMessage(state: seq<byte>): (r: seq<byte>)
    requires |state| <= INT32_MAX
    ensures |r| == 5 + |state| && r[0] == PeerCode(PeerGameState)
    ensures ParseGameState(r) == Some(state)
  {
    var r := [PeerCode(PeerGameState)] + Prefixed(state);
    ReadInt32At(r, 1, |state| as int32);
    assert r[5..5 + |state|] == state;
    r
  }

  // ---------------------------------------------------------------- state

  /** A main-thread closure and the values it captured on the receive thread. A handshake
      captures whether this end was hosting when the datagram arrived. */
  datatype PeerAction =
    | Handshake(hostAtReceive: bool, sender: Endpoint)
    | PoseUpdate(playerId: int32, position: Vec3, rotation: Vec3)
    | PeerLeft(playerId: int32)
    | PeerState(state: seq<byte>)

  datatype Peer = Peer(
    socketOpen: bool,
    remote: Option<Endpoint>,
    isHost: bool,
    isConnected: bool,
    confirmed: bool,
    localPort: int32,
    remotePort: int32,
    localPlayerId: int32,
    players: map<int32, Remote>,
    retries: int,
    lastAttempt: Time,
    lastSend: Time,
    queue: seq<PeerAction>)

  const INITIAL_PEER: Peer :=
    Peer(false, None, false, false, false, DEFAULT_LOCAL_PORT, DEFAULT_REMOTE_PORT, HOST_PLAYER_ID, map[], 0, 0, 0, [])

  datatype PeerOut = PeerOut(peer: Peer, sent: seq<Datagram>, events: seq<Event>)

  /** `SendMessage`: to the remote end, when there is one and the socket is open. */
  function SendToRemote(p: Peer, msg: seq<byte>): (sent: seq<Datagram>)
    ensures |sent| <= 1 && forall d :: d in sent ==> Some(d.to) == p.remote && d.payload == msg
    ensures p.remote.Some? && p.socketOpen ==> sent == [Datagram(p.remote.value, msg)]
  {
    if p.remote.Some? && p.socketOpen then [Datagram(p.remote.value, msg)] else []
  }

  /** `SendPlayerUpdate`: only while connected; `pose` is what the game reports for the local
      player (model, camera or origin). */
  function SendPose(p: Peer, pose: (Vec3, Vec3)): (sent: seq<Datagram>)
    ensures !p.isConnected ==> sent == []
    ensures p.isConnected ==> sent == SendToRemote(p, PeerUpdateMessage(p.localPlayerId, pose.0, pose.1))
  {
    if p.isConnected then SendToRemote(p, PeerUpdateMessage(p.localPlayerId, pose.0, pose.1)) else []
  }

  // ---------------------------------------------------------------- lifecycle

  /** `StartHost(port)`: the ports and the local id (1) are set before the socket is bound; a
      failed bind (`bindOk` false, or a port out of range) leaves it at that. */
  function StartHost(p: Peer, port: int32, bindOk: bool): (r: (bool, PeerOut))
    ensures r.1.peer.localPort == port && r.1.peer.remotePort == Add32(port, 1)
    ensures r.1.peer.localPlayerId == HOST_PLAYER_ID && r.1.sent == []
    ensures r.0 <==> bindOk && IsPort(port)
    ensures r.0 ==> (r.1.peer.socketOpen && r.1.peer.isHost && r.1.peer.isConnected
      && r.1.events == [PlayerConnected(HOST_PLAYER_ID)])
    ensures !r.0 ==> r.1.events == [] && r.1.peer.(localPort := p.localPort, remotePort := p.remotePort, localPlayerId := p.localPlayerId) == p
  {
    var q := p.(localPort := port, remotePort := Add32(port, 1), localPlayerId := HOST_PLAYER_ID);
    if !bindOk || !IsPort(port) then (false, PeerOut(q, [], []))
    else (true, PeerOut(q.(socketOpen := true, isHost := true, isConnected := true), [], [PlayerConnected(HOST_PLAYER_ID)]))
  }

  /** `ConnectToHost(address, port)`: the joiner takes id 2 and binds `port + 1`; `address` is
      `None` when it does not parse. On success the handshake state is reset and one
      connection frame goes to the host. */
  function ConnectToHost(p: Peer, address: Option<seq<byte>>, port: int32, bindOk: bool, now: Time): (r: (bool, PeerOut))
    ensures r.1.peer.remotePort == port && r.1.peer.localPort == Add32(port, 1)
    ensures r.1.peer.localPlayerId == JOINER_PLAYER_ID && r.1.events == []
    ensures r.0 <==> address.Some? && IsPort(port) && bindOk && IsPort(Add32(port, 1))
    ensures r.0 ==> var host := Endpoint(address.value, port as int);
      && r.1.peer.remote == Some(host) && r.1.peer.socketOpen && !r.1.peer.isHost
      && !r.1.peer.isConnected && !r.1.peer.confirmed && r.1.peer.retries == 0 && r.1.peer.lastAttempt == now
      && r.1.sent == [Datagram(host, PeerConnectionMessage(JOINER_PLAYER_ID))]
    ensures !r.0 ==> r.1.sent == [] && r.1.peer.socketOpen == p.socketOpen && r.1.peer.isConnected == p.isConnected
  {
    var q := p.(remotePort := port, localPort := Add32(port, 1), localPlayerId := JOINER_PLAYER_ID);
    if address.None? || !IsPort(port) then (false, PeerOut(q, [], []))
    else
      var withRemote := q.(remote := Some(Endpoint(address.value, port as int)));
      if !bindOk || !IsPort(q.localPort) then (false, PeerOut(withRemote, [], []))
      else
        var started := withRemote.(socketOpen := true, isHost := false, isConnected := false, confirmed := false,
                                   retries := 0, lastAttempt := now);
        (true, PeerOut(started, SendToRemote(started, PeerConnectionMessage(started.localPlayerId)), []))
  }

  /** `Shutdown`: a goodbye when connected, then everything but the ports, the local id and the
      queue is cleared. */
  function PeerShutdown(p: Peer): (r: PeerOut)
    ensures !r.peer.socketOpen && r.peer.remote.None? && !r.peer.isHost && !r.peer.isConnected && !r.peer.confirmed
    ensures r.peer.retries == 0 && r.peer.players == map[] && r.events == []
    ensures r.peer.localPlayerId == p.localPlayerId && r.peer.queue == p.queue
    ensures r.peer.localPort == p.localPort && r.peer.remotePort == p.remotePort
    ensures r.sent == (if p.isConnected then SendToRemote(p, PeerDisconnectMessage(p.localPlayerId)) else [])
  {
    var bye := if p.isConnected then SendToRemote(p, PeerDisconnectMessage(p.localPlayerId)) else [];
    PeerOut(p.(socketOpen := false, isConnected := false, isHost := false, confirmed := false, retries := 0,
               remote := None, players := map[]), bye, [])
  }

  // ---------------------------------------------------------------- receive thread

  /** `ProcessMessage` and the handlers exactly as written: `Some(None)` when a handler throws —
      a Disconnect frame shorter than five bytes (its id is read unchecked) or a game-state frame
      with a negative or wrapping length. Datagrams are accepted from any sender. */
  function PeerClassifyAsWritten(data: seq<byte>, sender: Endpoint, isHost: bool): Option<Option<PeerAction>>
  {
    if |data| < 1 then None
    else
      var t := PeerTypeOf(data[0]);
      if t == Some(PeerConnection) then Some(Some(Handshake(isHost, sender)))
      else if t == Some(PeerPlayerUpdate) then
        if |data| < PEER_UPDATE_SIZE then None
        else
          var u := ParsePlayerUpdate(data).value;
          Some(Some(PoseUpdate(u.playerId, u.position, u.rotation)))
      else if t == Some(PeerDisconnect) then
        if |data| < 5 then Some(None) else Some(Some(PeerLeft(ReadInt32(data, 1))))
      else if t == Some(PeerGameState) then
        var outcome := ParseGameStateAsWritten(data);
        if outcome.Parsed? then Some(Some(PeerState(outcome.state)))
        else if outcome.Rejected? then None
        else Some(None)
      else None
  }

  /** The corrected reading: a Disconnect frame without an id, and a game-state frame whose
      declared length is negative or overruns, are ignored. */
  function PeerClassify(data: seq<byte>, sender: Endpoint, isHost: bool): (a: Option<PeerAction>)
    ensures |data| == 0 ==> a == None
    ensures a.Some? && a.value.Handshake? ==> a.value.sender == sender && a.value.hostAtReceive == isHost
    ensures a.Some? && a.value.PoseUpdate? ==> ParsePlayerUpdate(data) == Some(PlayerState(a.value.playerId, a.value.position, a.value.rotation))
    ensures a.Some? && a.value.PeerLeft? ==> |data| >= 5 && ReadInt32(data, 1) == a.value.playerId
    ensures a.Some? && a.value.PeerState? ==> ParseGameState(data) == Some(a.value.state)
  {
    if |data| < 1 then None
    else
      var t := PeerTypeOf(data[0]);
      if t == Some(PeerConnection) then Some(Handshake(isHost, sender))
      else if t == Some(PeerPlayerUpdate) then
        if |data| < PEER_UPDATE_SIZE then None
        else
          var u := ParsePlayerUpdate(data).value;
          Some(PoseUpdate(u.playerId, u.position, u.rotation))
      else if t == Some(PeerDisconnect) then
        if |data| < 5 then None else Some(PeerLeft(ReadInt32(data, 1)))
      else if t == Some(PeerGameState) then
        var state := ParseGameState(data);
        if state.None? then None else Some(PeerState(state.value))
      else None
  }

  /** Away from the faults the corrected reading is the reading as written. */
  lemma {:induction false} PeerClassifyCorrectsOnlyFaults(data: seq<byte>, sender: Endpoint, isHost: bool)
    ensures PeerClassifyAsWritten(data, sender, isHost) == Some(None) ==> PeerClassify(data, sender, isHost) == None
    ensures PeerClassifyAsWritten(data, sender, isHost) == None ==> PeerClassify(data, sender, isHost) == None
    ensures PeerClassifyAsWritten(data, sender, isHost).Some? && PeerClassifyAsWritten(data, sender, isHost).value.Some? ==>
      PeerClassify(data, sender, isHost) == PeerClassifyAsWritten(data, sender, isHost).value
  {
    if |data| >= 1 && PeerTypeOf(data[0]) == Some(PeerGameState) {
      GameStateCorrectedAgrees(data);
    }
  }

  /** A one-byte Disconnect frame throws in `BitConverter.ToInt32(data, 1)`. */
  lemma BareDisconnectFaults(sender: Endpoint, isHost: bool)
    ensures PeerClassifyAsWritten([3], sender, isHost) == Some(None)
    ensures PeerClassify([3], sender, isHost) == None
  {
    assert PeerTypeOf(3) == Some(PeerDisconnect);
  }

  /** `OnReceive` as written: `None` once a handler throws, since the catch does not re-arm
      `BeginReceive`. */
  function PeerReceiveAsWritten(p: Peer, data: seq<byte>, sender: Endpoint): (r: Option<Peer>)
    ensures r.None? <==> p.socketOpen && PeerClassifyAsWritten(data, sender, p.isHost) == Some(None)
    ensures r.Some? ==> r.value == PeerReceive(p, data, sender)
  {
    if !p.socketOpen then Some(p)
    else
      PeerClassifyCorrectsOnlyFaults(data, sender, p.isHost);
      match PeerClassifyAsWritten(data, sender, p.isHost)
      case None => Some(p)
      case Some(None) => None
      case Some(Some(a)) => Some(p.(queue := p.queue + [a]))
  }

  /** `OnReceive` with the corrected handlers: every datagram is read while the socket is open,
      whoever sent it. */
  function PeerReceive(p: Peer, data: seq<byte>, sender: Endpoint): (r: Peer)
    ensures !p.socketOpen ==> r == p
    ensures r.(queue := p.queue) == p
    ensures p.socketOpen ==>
      r.queue == p.queue + (match PeerClassify(data, sender, p.isHost) case None => [] case Some(a) => [a])
  {
    if !p.socketOpen then p
    else match PeerClassify(data, sender, p.isHost)
      case None => p
      case Some(a) => p.(queue := p.queue + [a])
  }

  /** Each frame this end builds is read back by the other end as the action it describes. */
  lemma PeerFramesRoundTrip(playerId: int32, position: Vec3, rotation: Vec3, state: seq<byte>, sender: Endpoint, isHost: bool)
    requires |state| <= INT32_MAX
    ensures PeerClassify(PeerConnectionMessage(playerId), sender, isHost) == Some(Handshake(isHost, sender))
    ensures PeerClassify(PeerUpdateMessage(playerId, position, rotation), sender, isHost) == Some(PoseUpdate(playerId, position, rotation))
    ensures PeerClassify(PeerDisconnectMessage(playerId), sender, isHost) == Some(PeerLeft(playerId))
    ensures PeerClassify(PeerGameStateMessage(state), sender, isHost) == Some(PeerState(state))
  {
    assert PeerTypeOf(PeerCode(PeerConnection)) == Some(PeerConnection);
    assert PeerTypeOf(PeerCode(PeerPlayerUpdate)) == Some(PeerPlayerUpdate);
    assert PeerTypeOf(PeerCode(PeerDisconnect)) == Some(PeerDisconnect);
    assert PeerTypeOf(PeerCode(PeerGameState)) == Some(PeerGameState);
  }

  // ---------------------------------------------------------------- main thread

  /** Running one queued closure; `pose` is the local pose `SendPlayerUpdate` would find. */
  function PeerApply(p: Peer, a: PeerAction, pose: (Vec3, Vec3)): (r: PeerOut)
    ensures r.peer.queue == p.queue && r.peer.localPlayerId == p.localPlayerId && r.peer.socketOpen == p.socketOpen
    ensures a.Handshake? && a.hostAtReceive ==>
      if p.remote == Some(a.sender) then r == PeerOut(p, [], [])
      else (r.peer == p.(remote := Some(a.sender)) && r.events == []
        && (p.socketOpen ==> (|r.sent| > 0 && r.sent[0] == Datagram(a.sender, PeerConnectionMessage(p.localPlayerId))
              && r.sent[1..] == SendPose(r.peer, pose))))
    ensures a.Handshake? && !a.hostAtReceive ==>
      if (p.remote == Some(a.sender) && !p.confirmed) || p.remote.None?
      then r.peer == p.(remote := Some(a.sender), confirmed := true, isConnected := true)
        && r.sent == [] && r.events == [PlayerConnected(p.localPlayerId)]
      else r == PeerOut(p, [], [])
    ensures a.PoseUpdate? ==>
      if a.playerId == p.localPlayerId then r == PeerOut(p, [], [])
      else (r.peer.players.Keys == p.players.Keys + {a.playerId}
        && r.peer.players[a.playerId].target == Some((a.position, a.rotation))
        && r.events == (if a.playerId in p.players then [] else [PlayerConnected(a.playerId)]))
    ensures a.PeerLeft? ==>
      if a.playerId in p.players
      then r.peer.players == p.players - {a.playerId} && r.events == [PlayerDisconnected(a.playerId)]
      else r == PeerOut(p, [], [])
    ensures a.PeerState? ==> r == PeerOut(p, [], [GameStateReceived(a.state)])
    // poses and goodbyes send nothing and touch only the player table, a pose only its own entry
    ensures a.PoseUpdate? || a.PeerLeft? ==> r.sent == [] && r.peer == p.(players := r.peer.players)
    ensures a.PoseUpdate? ==> forall k :: k in p.players && k != a.playerId ==> r.peer.players[k] == p.players[k]
  {
    match a
    case Handshake(hostAtReceive, sender) =>
      if hostAtReceive then
        if p.remote == Some(sender) then PeerOut(p, [], [])
        else
          var q := p.(remote := Some(sender));
          PeerOut(q, SendToRemote(q, PeerConnectionMessage(q.localPlayerId)) + SendPose(q, pose), [])
      else if (p.remote == Some(sender) && !p.confirmed) || p.remote.None? then
        PeerOut(p.(remote := Some(sender), confirmed := true, isConnected := true), [], [PlayerConnected(p.localPlayerId)])
      else PeerOut(p, [], [])
    case PoseUpdate(id, position, rotation) =>
      if id == p.localPlayerId then PeerOut(p, [], [])
      else
        var created := if id in p.players then [] else [PlayerConnected(id)];
        PeerOut(p.(players := p.players[id := Remote(Some((position, rotation)))]), [], created)
    case PeerLeft(id) =>
      if id in p.players then PeerOut(p.(players := p.players - {id}), [], [PlayerDisconnected(id)])
      else PeerOut(p, [], [])
    case PeerState(state) => PeerOut(p, [], [GameStateReceived(state)])
  }

  /** The host answers one joiner endpoint once: a repeated handshake from it sends nothing. */
  lemma HostAnswersOnce(p: Peer, sender: Endpoint, pose: (Vec3, Vec3))
    ensures var once := PeerApply(p, Handshake(true, sender), pose);
      PeerApply(once.peer, Handshake(true, sender), pose) == PeerOut(once.peer, [], [])
  {
  }

  /** The joiner's handshake: a connection frame from the host it dialled confirms it exactly
      once, and the host's reply to the joiner's request is such a frame. */
  lemma {:induction false} JoinerConfirmsOnce(host: Peer, joiner: Peer, hostEndpoint: Endpoint, joinerEndpoint: Endpoint, pose: (Vec3, Vec3))
    requires host.isHost && host.socketOpen && host.remote != Some(joinerEndpoint)
    requires joiner.socketOpen && !joiner.isHost && joiner.remote == Some(hostEndpoint) && !joiner.confirmed
    ensures var hosted := PeerApply(host, Handshake(true, joinerEndpoint), pose);
      && hosted.sent[0] == Datagram(joinerEndpoint, PeerConnectionMessage(host.localPlayerId))
      && var queued := PeerReceive(joiner, hosted.sent[0].payload, hostEndpoint);
         && queued.queue == joiner.queue + [Handshake(false, hostEndpoint)]
         && var confirmed := PeerApply(queued, Handshake(false, hostEndpoint), pose);
            && confirmed.peer.isConnected && confirmed.events == [PlayerConnected(joiner.localPlayerId)]
            && PeerApply(confirmed.peer, Handshake(false, hostEndpoint), pose) == PeerOut(confirmed.peer, [], [])
  {
    var hosted := PeerApply(host, Handshake(true, joinerEndpoint), pose);
    PeerFramesRoundTrip(host.localPlayerId, pose.0, pose.1, [], hostEndpoint, false);
  }

  /** A peer ignores its own pose at apply time, whatever its id was at receive time. */
  lemma OwnPoseIgnored(p: Peer, position: Vec3, rotation: Vec3, pose: (Vec3, Vec3))
    ensures PeerApply(p, PoseUpdate(p.localPlayerId, position, rotation), pose) == PeerOut(p, [], [])
  {
  }

  function PeerApplyAll(p: Peer, actions: seq<PeerAction>, pose: (Vec3, Vec3)): (r: PeerOut)
    ensures |actions| == 0 ==> r == PeerOut(p, [], [])
    ensures r.peer.queue == p.queue && r.peer.localPlayerId == p.localPlayerId && r.peer.socketOpen == p.socketOpen
    decreases |actions|
  {
    if |actions| == 0 then PeerOut(p, [], [])
    else
      var first := PeerApply(p, actions[0], pose);
      var rest := PeerApplyAll(first.peer, actions[1..], pose);
      PeerOut(rest.peer, first.sent + rest.sent, first.events + rest.events)
  }

  /** `SendGameState`: only with a remote end and a connection. */
  function SendGameState(p: Peer, state: seq<byte>): (sent: seq<Datagram>)
    requires |state| <= INT32_MAX
    ensures !p.isConnected ==> sent == []
    ensures p.isConnected && p.remote.Some? && p.socketOpen ==> sent == [Datagram(p.remote.value, PeerGameStateMessage(state))]
  {
    if p.remote.None? || !p.isConnected then [] else SendToRemote(p, PeerGameStateMessage(state))
  }

  /** `Update`: drain the queue, then (joiner only) the handshake retry, then the pose send. */
  function PeerUpdate(p: Peer, now: Time, pose: (Vec3, Vec3)): (r: PeerOut)
    ensures var drained := PeerApplyAll(p.(queue := []), p.queue, pose);
      && r.peer.queue == []
      && |r.sent| >= |drained.sent| && r.sent[..|drained.sent|] == drained.sent
      && r.events == drained.events
    ensures var d := PeerApplyAll(p.(queue := []), p.queue, pose).peer;
      d.isHost || d.isConnected || d.remote.None? || d.confirmed ==> r.peer.retries == d.retries
    ensures var d := PeerApplyAll(p.(queue := []), p.queue, pose).peer;
      !d.isHost && !d.isConnected && d.remote.Some? && !d.confirmed ==>
        match Retry.Decide(d.retries, d.lastAttempt, now)
        case Resend => r.peer.retries == d.retries + 1 && r.peer.lastAttempt == now && (d.socketOpen ==>
          |r.sent| > 0 && r.sent[|r.sent| - 1] == Datagram(d.remote.value, PeerConnectionMessage(d.localPlayerId)))
        case GiveUp => r.peer.remote.None? && !r.peer.socketOpen
        case Wait => r.peer == d
    ensures var d := PeerApplyAll(p.(queue := []), p.queue, pose).peer;
      d.isConnected && d.remote.Some? && d.socketOpen && now - d.lastSend >= SEND_INTERVAL ==>
        r.peer.lastSend == now
        && |r.sent| > 0 && r.sent[|r.sent| - 1] == Datagram(d.remote.value, PeerUpdateMessage(d.localPlayerId, pose.0, pose.1))
    // a connected peer changes only its send stamp, and sends nothing more when no send is due
    ensures var drained := PeerApplyAll(p.(queue := []), p.queue, pose); var d := drained.peer;
      d.isConnected ==>
        && r.peer == d.(lastSend := if now - d.lastSend >= SEND_INTERVAL then now else d.lastSend)
        && (now - d.lastSend < SEND_INTERVAL ==> r.sent == drained.sent)
        && |r.sent| <= |drained.sent| + 1
  {
    var drained := PeerApplyAll(p.(queue := []), p.queue, pose);
    var d := drained.peer;
    if !d.isHost && !d.isConnected && d.remote.Some? && !d.confirmed then
      match Retry.Decide(d.retries, d.lastAttempt, now)
      case Resend =>
        PeerOut(d.(retries := d.retries + 1, lastAttempt := now),
                drained.sent + SendToRemote(d, PeerConnectionMessage(d.localPlayerId)), drained.events)
      case GiveUp =>
        var down := PeerShutdown(d);
        PeerOut(down.peer, drained.sent + down.sent, drained.events)
      case Wait => PeerOut(d, drained.sent, drained.events)
    else if !d.isConnected then PeerOut(d, drained.sent, drained.events)
    else if now - d.lastSend >= SEND_INTERVAL then
      PeerOut(d.(lastSend := now), drained.sent + SendPose(d, pose), drained.events)
    else PeerOut(d, drained.sent, drained.events)
  }

  /** A connected peer whose queue is empty sends its pose once per `SEND_INTERVAL` and
      nothing else, and only its send stamp moves. */
  lemma PeerConnectedSendsPose(p: Peer, now: Time, pose: (Vec3, Vec3))
    requires p.queue == [] && p.isConnected && p.remote.Some? && p.socketOpen
    ensures now - p.lastSend >= SEND_INTERVAL ==>
      && PeerUpdate(p, now, pose).sent == [Datagram(p.remote.value, PeerUpdateMessage(p.localPlayerId, pose.0, pose.1))]
      && PeerUpdate(p, now, pose).peer == p.(lastSend := now)
    ensures now - p.lastSend < SEND_INTERVAL ==>
      PeerUpdate(p, now, pose).sent == [] && PeerUpdate(p, now, pose).peer == p
  {
  }

  /** A peer with nothing queued, not connected and no remote end: every frame leaves it as it is. */
  predicate PeerIdle(p: Peer) {
    p.queue == [] && !p.isConnected && p.remote.None?
  }

  /** A joiner's handshake in flight: a host, an open socket, nothing queued and no answer yet. */
  predicate Joining(p: Peer) {
    p.queue == [] && !p.isHost && !p.isConnected && !p.confirmed && p.remote.Some? && p.socketOpen
  }

  /** The peer after a `PeerUpdate` at each of `times`, with no datagram arriving in between. */
  function PeerFrames(p: Peer, times: seq<Time>, pose: (Vec3, Vec3)): PeerOut
    decreases |times|
  {
    if |times| == 0 then PeerOut(p, [], [])
    else
      var first := PeerUpdate(p, times[0], pose);
      var rest := PeerFrames(first.peer, times[1..], pose);
      PeerOut(rest.peer, first.sent + rest.sent, first.events + rest.events)
  }

  /** One frame of an unanswered join moves the joiner's retry counter, timestamp and pending
      flag exactly as `Retry.Step` moves the shared policy, and sends the connection frame
      exactly when the policy counts one. */
  lemma PeerUpdateFollowsRetry(p: Peer, now: Time, pose: (Vec3, Vec3), requests: nat)
    requires Joining(p)
    ensures var h := Retry.Step(Retry.Handshake(p.retries, p.lastAttempt, true, requests), now);
      var r := PeerUpdate(p, now, pose);
      && (h.pending ==> Joining(r.peer) && r.peer.retries == h.retries && r.peer.lastAttempt == h.lastAttempt)
      && (!h.pending ==> PeerIdle(r.peer) && !r.peer.socketOpen)
      && r.sent == if h.requests > requests then [Datagram(p.remote.value, PeerConnectionMessage(p.localPlayerId))] else []
  {
  }

  /** An idle peer stays idle and silent. */
  lemma {:induction false} PeerIdleFramesQuiet(p: Peer, times: seq<Time>, pose: (Vec3, Vec3))
    requires PeerIdle(p)
    ensures PeerFrames(p, times, pose).sent == [] && PeerFrames(p, times, pose).peer == p
    decreases |times|
  {
    if |times| > 0 {
      assert PeerApplyAll(p.(queue := []), p.queue, pose).peer == p;
      assert PeerUpdate(p, times[0], pose).peer == p;
      PeerIdleFramesQuiet(p, times[1..], pose);
    }
  }

  /** Over any run of frames with no answer, the joiner sends exactly the connection frames the
      shared retry policy counts. */
  lemma {:induction false} PeerFramesFollowRetry(p: Peer, times: seq<Time>, pose: (Vec3, Vec3), requests: nat)
    requires Joining(p)
    ensures |PeerFrames(p, times, pose).sent| ==
      Retry.Run(Retry.Handshake(p.retries, p.lastAttempt, true, requests), times).requests - requests
    decreases |times|
  {
    if |times| > 0 {
      var h := Retry.Handshake(p.retries, p.lastAttempt, true, requests);
      var h1 := Retry.Step(h, times[0]);
      var first := PeerUpdate(p, times[0], pose);
      PeerUpdateFollowsRetry(p, times[0], pose, requests);
      if h1.pending {
        assert h1 == Retry.Handshake(first.peer.retries, first.peer.lastAttempt, true, h1.requests);
        PeerFramesFollowRetry(first.peer, times[1..], pose, h1.requests);
      } else {
        PeerIdleFramesQuiet(first.peer, times[1..], pose);
        Retry.StaysDone(h1, times[1..]);
      }
    }
  }

  /** However the frames fall, a join to a host that never answers sends at most
      1 + `MAX_RETRIES` = 6 connection frames. */
  lemma UnansweredJoinSendsAtMostSix(p: Peer, address: Option<seq<byte>>, port: int32, bindOk: bool, now: Time,
                                     times: seq<Time>, pose: (Vec3, Vec3))
    requires p.queue == []
    ensures var start := ConnectToHost(p, address, port, bindOk, now);
      start.0 ==> |start.1.sent| + |PeerFrames(start.1.peer, times, pose).sent| <= 1 + Retry.MAX_RETRIES
  {
    var start := ConnectToHost(p, address, port, bindOk, now);
    if start.0 {
      assert Retry.Handshake(start.1.peer.retries, start.1.peer.lastAttempt, true, 1) == Retry.Begin(now);
      PeerFramesFollowRetry(start.1.peer, times, pose, 1);
      Retry.AtMostSixRequests(now, times);
    }
  }
}

=== FILE: protocol.dfy ===
/**
 * The client/dedicated-server wire protocol (HPMultiplayer/Networking/NetworkProtocol.cs):
 * a one-byte discriminator, 4-byte little-endian int fields, 4-byte length-prefixed
 * UTF-8 strings (kept here as their bytes) and opaque float words.
 */
module Protocol {
  import opened Wrappers
  import opened Wire

  /** The nine client/server message kinds. The peer-to-peer protocol has its own, separate
      enumeration (module PeerToPeer). */
  datatype MessageType =
    | Connection | ConnectionAccepted | ConnectionRejected | PlayerUpdate | PlayerJoined
    | PlayerLeft | Disconnect | GameState | ServerInfo

  function Code(t: MessageType): (b: byte)
    ensures 1 <= b <= 9
  {
    match t
    case Connection => 1
    case ConnectionAccepted => 2
    case ConnectionRejected => 3
    case PlayerUpdate => 4
    case PlayerJoined => 5
    case PlayerLeft => 6
    case Disconnect => 7
    case GameState => 8
    case ServerInfo => 9
  }

  /** The `(MessageType)data[0]` cast followed by a `switch`: bytes outside 1..9 match no case. */
  function TypeOf(b: byte): (t: Option<MessageType>)
    ensures t.Some? <==> 1 <= b <= 9
    ensures t.Some? ==> Code(t.value) == b
  {
    if b == 1 then Some(Connection)
    else if b == 2 then Some(ConnectionAccepted)
    else if b == 3 then Some(ConnectionRejected)
    else if b == 4 then Some(PlayerUpdate)
    else if b == 5 then Some(PlayerJoined)
    else if b == 6 then Some(PlayerLeft)
    else if b == 7 then Some(Disconnect)
    else if b == 8 then Some(GameState)
    else if b == 9 then Some(ServerInfo)
    else None
  }

  /** Distinct kinds have distinct discriminators, and the discriminator decodes back. */
  lemma TypeOfCode(t: MessageType)
    ensures TypeOf(Code(t)) == Some(t)
  {
  }

  // ---------------------------------------------------------------- builders

  /** A 4-byte length followed by the bytes themselves. */
  function Prefixed(s: seq<byte>): (r: seq<byte>)
    requires |s| <= INT32_MAX
    ensures |r| == 4 + |s| && r[..4] == Int32Bytes(|s| as int32) && r[4..] == s
  {
    Int32Bytes(|s| as int32) + s
  }

  /** A discriminator followed by a 4-byte id: the layout of the five-byte frames. */
  function TypeId(code: byte, playerId: int32): (r: seq<byte>)
    ensures |r| == 5 && r[0] == code && r[1..5] == Int32Bytes(playerId) && ReadInt32(r, 1) == playerId
  {
    var r := [code] + Int32Bytes(playerId);
    ReadInt32At(r, 1, playerId);
    r
  }

  /** A discriminator, a 4-byte id and a length-prefixed string. */
  function TypeIdPrefixed(code: byte, playerId: int32, s: seq<byte>): (r: seq<byte>)
    requires |s| <= INT32_MAX
    ensures |r| == 9 + |s| && r[0] == code && r[9..] == s
    ensures ReadInt32(r, 1) == playerId && ReadInt32(r, 5) as int == |s|
  {
    var r := TypeId(code, playerId) + Prefixed(s);
    assert r[1..5] == Int32Bytes(playerId);
    ReadInt32At(r, 1, playerId);
    assert r[5..9] == Int32Bytes(|s| as int32);
    ReadInt32At(r, 5, |s| as int32);
    r
  }

  /** `CreateConnectionMessage(playerId, name)`. */
  function ConnectionMessage(playerId: int32, name: seq<byte>): (r: seq<byte>)
    requires |name| <= INT32_MAX
    ensures |r| == 9 + |name| && r[0] == Code(Connection)
    ensures ReadInt32(r, 1) == playerId && ReadInt32(r, 5) as int == |name| && r[9..] == name
  {
    TypeIdPrefixed(Code(Connection), playerId, name)
  }

  /** `CreateConnectionAcceptedMessage(id)`. */
  function AcceptedMessage(playerId: int32): (r: seq<byte>)
    ensures |r| == 5 && r[0] == Code(ConnectionAccepted) && ReadInt32(r, 1) == playerId
  {
    TypeId(Code(ConnectionAccepted), playerId)
  }

  /** `CreateConnectionRejectedMessage(reason)`. */
  function RejectedMessage(reason: seq<byte>): (r: seq<byte>)
    requires |reason| <= INT32_MAX
    ensures |r| == 5 + |reason| && r[0] == Code(ConnectionRejected)
    ensures ReadInt32(r, 1) as int == |reason| && r[5..] == reason
  {
    var r := [Code(ConnectionRejected)] + Prefixed(reason);
    ReadInt32At(r, 1, |reason| as int32);
    r
  }

  /** `CreatePlayerUpdateMessage(id, position, rotation)`. */
  function PlayerUpdateMessage(playerId: int32, position: Vec3, rotation: Vec3): (r: seq<byte>)
    ensures |r| == 29 && r[0] == Code(PlayerUpdate) && ReadInt32(r, 1) == playerId
    ensures r[5..9] == position.x && r[9..13] == position.y && r[13..17] == position.z
    ensures r[17..21] == rotation.x && r[21..25] == rotation.y && r[25..29] == rotation.z
  {
    var r := TypeId(Code(PlayerUpdate), playerId) + Vec3Bytes(position) + Vec3Bytes(rotation);
    assert r[1..5] == Int32Bytes(playerId);
    ReadInt32At(r, 1, playerId);
    r
  }

  /** `CreatePlayerJoinedMessage(id, name)`. */
  function PlayerJoinedMessage(playerId: int32, name: seq<byte>): (r: seq<byte>)
    requires |name| <= INT32_MAX
    ensures |r| == 9 + |name| && r[0] == Code(PlayerJoined)
    ensures ReadInt32(r, 1) == playerId && ReadInt32(r, 5) as int == |name| && r[9..] == name
  {
    TypeIdPrefixed(Code(PlayerJoined), playerId, name)
  }

  /** `CreatePlayerLeftMessage(id)`. */
  function PlayerLeftMessage(playerId: int32): (r: seq<byte>)
    ensures |r| == 5 && r[0] == Code(PlayerLeft) && ReadInt32(r, 1) == playerId
  {
    TypeId(Code(PlayerLeft), playerId)
  }

  /** `CreateDisconnectMessage(id)`. */
  function DisconnectMessage(playerId: int32): (r: seq<byte>)
    ensures |r| == 5 && r[0] == Code(Disconnect) && ReadInt32(r, 1) == playerId
  {
    TypeId(Code(Disconnect), playerId)
  }

  /** `CreateGameStateMessage(state)`. */
  function GameStateMessage(state: seq<byte>): (r: seq<byte>)
    requires |state| <= INT32_MAX
    ensures |r| == 5 + |state| && r[0] == Code(GameState)
    ensures ReadInt32(r, 1) as int == |state| && r[5..] == state
  {
    var r := [Code(GameState)] + Prefixed(state);
    ReadInt32At(r, 1, |state| as int32);
    r
  }

  // ---------------------------------------------------------------- parsers

  datatype ConnectionRequest = ConnectionRequest(playerId: int32, name: seq<byte>)

  /** The cap `ParseConnectionMessage` puts on a declared name length. */
  const MAX_NAME_LENGTH: int := 256

  /** `ParseConnectionMessage`: needs the 9-byte header, a declared name length in 0..256 and
      that many bytes after the header. The discriminator byte is not looked at. */
  function ParseConnection(data: seq<byte>): (r: Option<ConnectionRequest>)
    ensures r.Some? <==>
      |data| >= 9 && 0 <= ReadInt32(data, 5) as int <= MAX_NAME_LENGTH
      && 9 + ReadInt32(data, 5) as int <= |data|
    ensures r.Some? ==>
      && r.value.playerId == ReadInt32(data, 1)
      && |r.value.name| == ReadInt32(data, 5) as int
      && r.value.name == data[9..9 + |r.value.name|]
  {
    if |data| < 9 then None
    else
      var nameLength := ReadInt32(data, 5);
      if nameLength < 0 || nameLength as int > MAX_NAME_LENGTH then None
      else if |data| < 9 + nameLength as int then None
      else Some(ConnectionRequest(ReadInt32(data, 1), data[9..9 + nameLength as int]))
  }

  /** Round trip: a request whose name is at most 256 bytes parses back to itself. */
  lemma ConnectionRoundTrip(playerId: int32, name: seq<byte>)
    requires |name| <= MAX_NAME_LENGTH
    ensures ParseConnection(ConnectionMessage(playerId, name)) == Some(ConnectionRequest(playerId, name))
  {
    var m := ConnectionMessage(playerId, name);
    assert m[9..9 + |name|] == m[9..];
  }

  /** The builder does not cap the name, so a request with a longer name is refused by the parser. */
  lemma ConnectionLongNameRejected(playerId: int32, name: seq<byte>)
    requires MAX_NAME_LENGTH < |name| <= INT32_MAX
    ensures ParseConnection(ConnectionMessage(playerId, name)) == None
  {
  }

  /** Every strict prefix of a connection request is rejected. */
  lemma ConnectionTruncated(playerId: int32, name: seq<byte>, k: nat)
    requires |name| <= MAX_NAME_LENGTH && k < 9 + |name|
    ensures ParseConnection(ConnectionMessage(playerId, name)[..k]) == None
  {
    var m := ConnectionMessage(playerId, name);
    if k >= 9 {
      assert m[..k][5..9] == m[5..9];
    }
  }

  datatype PlayerState = PlayerState(playerId: int32, position: Vec3, rotation: Vec3)

  /** The fixed size of a player update frame. */
  const PLAYER_UPDATE_SIZE: int := 29

  /** `ParsePlayerUpdateMessage`: any buffer of at least 29 bytes is read at fixed offsets. */
  function ParsePlayerUpdate(data: seq<byte>): (r: Option<PlayerState>)
    ensures r.Some? <==> |data| >= PLAYER_UPDATE_SIZE
    ensures r.Some? ==>
      && r.value.playerId == ReadInt32(data, 1)
      && Vec3Bytes(r.value.position) == data[5..17] && Vec3Bytes(r.value.rotation) == data[17..29]
  {
    if |data| < PLAYER_UPDATE_SIZE then None
    else Some(PlayerState(ReadInt32(data, 1), ReadVec3(data, 5), ReadVec3(data, 17)))
  }

  /** Round trip for player updates; the discriminator and any trailing bytes are ignored. */
  lemma PlayerUpdateRoundTrip(playerId: int32, position: Vec3, rotation: Vec3, first: byte, trailing: seq<byte>)
    ensures var m := PlayerUpdateMessage(playerId, position, rotation);
      ParsePlayerUpdate([first] + m[1..] + trailing) == Some(PlayerState(playerId, position, rotation))
  {
    var m := PlayerUpdateMessage(playerId, position, rotation);
    var p := Vec3Bytes(position);
    var q := Vec3Bytes(rotation);
    assert m == TypeId(Code(PlayerUpdate), playerId) + p + q;
    var head := [first] + m[1..5];
    assert m[1..] == m[1..5] + p + q;
    var d := [first] + m[1..] + trailing;
    assert d == head + p + (q + trailing);
    ReadVec3Bytes(position, head, q + trailing);
    assert d == (head + p) + q + trailing;
    ReadVec3Bytes(rotation, head + p, trailing);
    assert d[1..5] == m[1..5];
  }

  // ---------------------------------------------------------------- game state

  /** A 4-byte declared length at `offset` and that many bytes right after it; `None` when the
      length is negative or overruns the buffer. This is the guard every length-prefixed blob
      needs, and what the corrected game-state parser uses. */
  function ReadPrefixed(data: seq<byte>, offset: nat): (r: Option<seq<byte>>)
    requires offset + 4 <= |data|
    ensures r.Some? <==> 0 <= ReadInt32(data, offset) as int <= |data| - offset - 4
    ensures r.Some? ==> |r.value| == ReadInt32(data, offset) as int && r.value == data[offset + 4..offset + 4 + |r.value|]
  {
    var n := ReadInt32(data, offset) as int;
    if n < 0 || n > |data| - offset - 4 then None else Some(data[offset + 4..offset + 4 + n])
  }

  /** What `ParseGameStateMessage` as written can do: return the blob, return false, or throw. */
  datatype ParseOutcome = Parsed(state: seq<byte>) | Rejected | Faults

  /** `ParseGameStateMessage` exactly as written: `data.Length < 5 + stateLength` is computed in
      wrapping `int` arithmetic and a negative length is not refused, so some frames pass the
      guard and then fault in `new byte[stateLength]` or `Array.Copy`. */
  function ParseGameStateAsWritten(data: seq<byte>): ParseOutcome
  {
    if |data| < 5 then Rejected
    else
      var stateLength := ReadInt32(data, 1);
      if |data| < Add32(5, stateLength) as int then Rejected
      else if stateLength < 0 then Faults
      else if 5 + stateLength as int > |data| then Faults
      else Parsed(data[5..5 + stateLength as int])
  }

  /** The corrected parser: a negative or overrunning declared length is refused. */
  function ParseGameState(data: seq<byte>): (r: Option<seq<byte>>)
    ensures r.Some? <==> |data| >= 5 && 0 <= ReadInt32(data, 1) as int <= |data| - 5
    ensures r.Some? ==> r.value == data[5..5 + ReadInt32(data, 1) as int]
  {
    if |data| < 5 then None else ReadPrefixed(data, 1)
  }

  /** A declared length of -1 passes the as-written guard and faults. */
  lemma GameStateNegativeLengthFaults()
    ensures ParseGameStateAsWritten([8, 0xFF, 0xFF, 0xFF, 0xFF]) == Faults
    ensures ParseGameState([8, 0xFF, 0xFF, 0xFF, 0xFF]) == None
  {
    var d: seq<byte> := [8, 0xFF, 0xFF, 0xFF, 0xFF];
    assert d[1..5] == [0xFF, 0xFF, 0xFF, 0xFF];
    assert ReadInt32(d, 1) == -1;
  }

  /** A declared length of `int.MaxValue` wraps `5 + stateLength` negative and faults too. */
  lemma GameStateWrappingLengthFaults()
    ensures ParseGameStateAsWritten([8, 0xFF, 0xFF, 0xFF, 0x7F]) == Faults
  {
    var d: seq<byte> := [8, 0xFF, 0xFF, 0xFF, 0x7F];
    assert d[1..5] == [0xFF, 0xFF, 0xFF, 0x7F];
    assert ReadInt32(d, 1) as int == INT32_MAX;
  }

  /** Wherever the as-written parser does not fault, the corrected one agrees with it. */
  lemma GameStateCorrectedAgrees(data: seq<byte>)
    ensures ParseGameStateAsWritten(data) == Rejected ==> ParseGameState(data) == None
    ensures ParseGameStateAsWritten(data).Parsed? ==> ParseGameState(data) == Some(ParseGameStateAsWritten(data).state)
    ensures ParseGameStateAsWritten(data) == Faults ==> ParseGameState(data) == None
  {
  }

  /** Round trip for game-state frames that fit in a .NET array. */
  lemma GameStateRoundTrip(state: seq<byte>)
    requires 5 + |state| <= INT32_MAX
    ensures ParseGameState(GameStateMessage(state)) == Some(state)
    ensures ParseGameStateAsWritten(GameStateMessage(state)) == Parsed(state)
  {
    var m := GameStateMessage(state);
    assert m[5..5 + |state|] == m[5..];
  }

  /** Every strict prefix of a game-state frame is rejected. */
  lemma GameStateTruncated(state: seq<byte>, k: nat)
    requires 5 + |state| <= INT32_MAX && k < 5 + |state|
    ensures ParseGameState(GameStateMessage(state)[..k]) == None
  {
    var m := GameStateMessage(state);
    if k >= 5 {
      assert m[..k][1..5] == m[1..5];
    }
  }
}

=== FILE: retry.dfy ===
/** The handshake retry policy shared by the dedicated-server client
    (HPMultiplayer/Networking/ClientNetworkManager.cs) and the peer-to-peer joiner
    (HPMultiplayer/Networking/NetworkManager.cs): while unconfirmed, resend the connection
    request once per `CONNECTION_RETRY_INTERVAL`, at most `MAX_CONNECTION_RETRIES` times, then
    give up and shut down. */
module Retry {
  import opened Net

  /** `CONNECTION_RETRY_INTERVAL` (1 s), in milliseconds. */
  const RETRY_INTERVAL: int := 1000
  const MAX_RETRIES: int := 5

  datatype Decision = Wait | Resend | GiveUp

  /** One frame's decision for an unconfirmed connection. */
  function Decide(retries: int, lastAttempt: Time, now: Time): (d: Decision)
    ensures d == Wait <==> now - lastAttempt < RETRY_INTERVAL
    ensures d == Resend <==> now - lastAttempt >= RETRY_INTERVAL && retries < MAX_RETRIES
    ensures d == GiveUp <==> now - lastAttempt >= RETRY_INTERVAL && retries >= MAX_RETRIES
  {
    if now - lastAttempt < RETRY_INTERVAL then Wait
    else if retries < MAX_RETRIES then Resend
    else GiveUp
  }

  /** The retry bookkeeping of one handshake: retries so far, time of the last request,
      whether the handshake is still pending, and how many requests have been sent. */
  datatype Handshake = Handshake(retries: int, lastAttempt: Time, pending: bool, requests: nat)

  /** `ConnectToServer` / `ConnectToHost`: counters reset and the first request sent. */
  function Begin(now: Time): (h: Handshake)
    ensures h.retries == 0 && h.lastAttempt == now && h.pending && h.requests == 1
  {
    Handshake(0, now, true, 1)
  }

  /** One `Update` frame of a pending, unconfirmed handshake. */
  function Step(h: Handshake, now: Time): (r: Handshake)
    // a settled handshake is inert
    ensures !h.pending ==> r == h
    // every request sent is paid for with one retry, and at most one per frame
    ensures r.requests - r.retries == h.requests - h.retries
    ensures h.retries <= r.retries <= h.retries + 1
    // a request goes out exactly when the interval has passed and budget is left
    ensures r.requests > h.requests <==>
      h.pending && now - h.lastAttempt >= RETRY_INTERVAL && h.retries < MAX_RETRIES
    ensures r.requests > h.requests ==> r.lastAttempt == now && r.pending
    ensures r.requests == h.requests ==> r.lastAttempt == h.lastAttempt
    // the handshake is abandoned exactly when the interval has passed with the budget spent
    ensures r.pending <==>
      h.pending && !(now - h.lastAttempt >= RETRY_INTERVAL && h.retries >= MAX_RETRIES)
  {
    if !h.pending then h
    else match Decide(h.retries, h.lastAttempt, now)
      case Wait => h
      case Resend => Handshake(h.retries + 1, now, true, h.requests + 1)
      case GiveUp => h.(pending := false)
  }

  /** The handshake after an `Update` at each of `times`, with no answer arriving. */
  function Run(h: Handshake, times: seq<Time>): Handshake
    decreases |times|
  {
    if |times| == 0 then h else Run(Step(h, times[0]), times[1..])
  }

  /** Requests beyond the retries already used never exceed what is left of the budget. */
  lemma {:induction false} RunBudget(h: Handshake, times: seq<Time>)
    requires 0 <= h.retries <= MAX_RETRIES
    ensures 0 <= Run(h, times).retries <= MAX_RETRIES
    ensures Run(h, times).requests - Run(h, times).retries == h.requests - h.retries
    decreases |times|
  {
    if |times| > 0 {
      RunBudget(Step(h, times[0]), times[1..]);
    }
  }

  /** However the frames fall, an unanswered handshake sends at most 1 + `MAX_RETRIES` = 6
      connection requests. */
  lemma AtMostSixRequests(now: Time, times: seq<Time>)
    ensures Run(Begin(now), times).requests <= 1 + MAX_RETRIES
  {
    RunBudget(Begin(now), times);
  }

  /** Frames at least `RETRY_INTERVAL` apart exhaust the budget: after `MAX_RETRIES` + 1 of
      them an unanswered handshake has given up. */
  lemma {:induction false} GivesUp(h: Handshake, times: seq<Time>)
    requires h.pending && 0 <= h.retries <= MAX_RETRIES
    requires |times| >= MAX_RETRIES + 1 - h.retries
    requires |times| > 0 ==> times[0] - h.lastAttempt >= RETRY_INTERVAL
    requires forall i :: 0 < i < |times| ==> times[i] - times[i - 1] >= RETRY_INTERVAL
    ensures !Run(h, times).pending
    decreases |times|
  {
    var next := Step(h, times[0]);
    if h.retries < MAX_RETRIES {
      assert next.lastAttempt == times[0];
      assert forall i :: 0 < i < |times[1..]| ==> times[1..][i] - times[1..][i - 1] >= RETRY_INTERVAL by {
        forall i | 0 < i < |times[1..]| ensures times[1..][i] - times[1..][i - 1] >= RETRY_INTERVAL {
          assert times[1..][i] == times[i + 1] && times[1..][i - 1] == times[i];
        }
      }
      GivesUp(next, times[1..]);
    } else {
      StaysDone(next, times[1..]);
    }
  }

  /** A handshake that is no longer pending never changes again. */
  lemma {:induction false} StaysDone(h: Handshake, times: seq<Time>)
    requires !h.pending
    ensures Run(h, times) == h
    decreases |times|
  {
    if |times| > 0 {
      StaysDone(Step(h, times[0]), times[1..]);
    }
  }
}

=== FILE: server_cli.dfy ===
/** The dedicated server's entry point (HPMultiplayer/Server/Program.cs): the command-line
    options and the console command loop. */
module ServerCli {
  import opened Wrappers
  import opened Wire
  import opened Text
  import ServerSession

  datatype Options = Options(port: int32, maxPlayers: int32)

  const DEFAULT_OPTIONS: Options := Options(7777, 16)

  /** What `Main` does after reading its arguments: start a server, or print the usage. */
  datatype Launch = Start(options: Options) | Help

  // ---------------------------------------------------------------- arguments

  datatype Flag = PortFlag | MaxPlayersFlag

  /** How the argument loop groups the arguments: a value flag followed by any token takes
      that token as its value; a value flag in last position is an ordinary argument. */
  datatype Token = Valued(flag: Flag, value: string) | HelpFlag | Plain(arg: string)

  /** The token an argument starts, given the argument after it if any, and how many
      arguments that token takes. */
  function TokenOf(arg: string, next: Option<string>): (r: (Token, nat))
    ensures 1 <= r.1 <= 2 && (r.1 == 2 <==> r.0.Valued?) && (r.0.Valued? ==> next.Some?)
  {
    match arg
    case "-port" => if next.Some? then (Valued(PortFlag, next.value), 2) else (Plain(arg), 1)
    case "-maxplayers" => if next.Some? then (Valued(MaxPlayersFlag, next.value), 2) else (Plain(arg), 1)
    case "-help" => (HelpFlag, 1)
    case "-h" => (HelpFlag, 1)
    case _ => (Plain(arg), 1)
  }

  /** The argument after argument `i`, if any. */
  function Next(args: seq<string>, i: nat): Option<string>
  {
    if i + 1 < |args| then Some(args[i + 1]) else None
  }

  /** The token starting at argument `i` and how many arguments it takes. */
  function Head(args: seq<string>, i: nat): (r: (Token, nat))
    requires i < |args|
    ensures 1 <= r.1 <= |args| - i
  {
    TokenOf(args[i], Next(args, i))
  }

  /** The tokens from argument `i` on. */
  function TokensFrom(args: seq<string>, i: nat): (ts: seq<Token>)
    requires i <= |args|
    decreases |args| - i
  {
    if i == |args| then []
    else [Head(args, i).0] + TokensFrom(args, i + Head(args, i).1)
  }

  function Tokens(args: seq<string>): seq<Token>
  {
    TokensFrom(args, 0)
  }

  /** A token that sets `flag`: the flag with a value that parses as an `int`. */
  predicate Sets(t: Token, flag: Flag)
  {
    t.Valued? && t.flag == flag && ParseInt(t.value).Some?
  }

  /** The value of `flag` after these tokens, starting from `default`. */
  function Setting(ts: seq<Token>, flag: Flag, default: int32): int32
    decreases |ts|
  {
    if |ts| == 0 then default
    else if Sets(ts[|ts| - 1], flag) then ParseInt(ts[|ts| - 1].value).value
    else Setting(ts[..|ts| - 1], flag, default)
  }

  /** Later occurrences win: the setting is the value of the last token that sets the flag. */
  lemma {:induction false} SettingIsLast(ts: seq<Token>, flag: Flag, default: int32, j: nat)
    requires j < |ts| && Sets(ts[j], flag)
    requires forall k :: j < k < |ts| ==> !Sets(ts[k], flag)
    ensures Setting(ts, flag, default) == ParseInt(ts[j].value).value
    decreases |ts|
  {
    if j < |ts| - 1 {
      var init := ts[..|ts| - 1];
      assert init[j] == ts[j];
      assert forall k :: j < k < |init| ==> init[k] == ts[k];
      SettingIsLast(init, flag, default, j);
    }
  }

  /** With no token setting the flag, the default stands. */
  lemma {:induction false} SettingDefault(ts: seq<Token>, flag: Flag, default: int32)
    requires forall k :: 0 <= k < |ts| ==> !Sets(ts[k], flag)
    ensures Setting(ts, flag, default) == default
    decreases |ts|
  {
    if |ts| > 0 {
      var init := ts[..|ts| - 1];
      assert forall k :: 0 <= k < |init| ==> init[k] == ts[k];
      SettingDefault(init, flag, default);
    }
  }

  /** The outcome the arguments call for: the usage whenever a help flag is reached,
      otherwise the options as set. */
  function Outcome(ts: seq<Token>): Launch
  {
    if HelpFlag in ts then Help
    else Start(Options(Setting(ts, PortFlag, DEFAULT_OPTIONS.port), Setting(ts, MaxPlayersFlag, DEFAULT_OPTIONS.maxPlayers)))
  }

  lemma SettingSnoc(ts: seq<Token>, t: Token, flag: Flag, default: int32)
    ensures Setting(ts + [t], flag, default) == if Sets(t, flag) then ParseInt(t.value).value else Setting(ts, flag, default)
  {
    assert (ts + [t])[..|ts|] == ts;
  }

  /** One more token read: what the argument loop needs to keep its invariant. */
  lemma Advance(args: seq<string>, i: nat, done: seq<Token>)
    requires i < |args| && Tokens(args) == done + TokensFrom(args, i)
    ensures Tokens(args) == (done + [Head(args, i).0]) + TokensFrom(args, i + Head(args, i).1)
    ensures forall flag: Flag, default: int32 :: (Setting(done + [Head(args, i).0], flag, default) ==
      if Sets(Head(args, i).0, flag) then ParseInt(Head(args, i).0.value).value else Setting(done, flag, default))
  {
    forall flag: Flag, default: int32 {
      SettingSnoc(done, Head(args, i).0, flag, default);
    }
  }

  /** The argument loop of `Main`. */
  method ParseArgs(args: seq<string>) returns (r: Launch)
    ensures r == Outcome(Tokens(args))
    ensures r.Help? <==> HelpFlag in Tokens(args)
  {
    var port := DEFAULT_OPTIONS.port;
    var maxPlayers := DEFAULT_OPTIONS.maxPlayers;
    var i := 0;
    ghost var done: seq<Token> := [];
    while i < |args|
      invariant 0 <= i <= |args|
      invariant Tokens(args) == done + TokensFrom(args, i)
      invariant HelpFlag !in done
      invariant port == Setting(done, PortFlag, DEFAULT_OPTIONS.port)
      invariant maxPlayers == Setting(done, MaxPlayersFlag, DEFAULT_OPTIONS.maxPlayers)
      decreases |args| - i
    {
      var (t, width) := Head(args, i);
      if t == HelpFlag {
        return Help;
      }
      if Sets(t, PortFlag) {
        port := ParseInt(t.value).value;
      } else if Sets(t, MaxPlayersFlag) {
        maxPlayers := ParseInt(t.value).value;
      }
      Advance(args, i, done);
      done := done + [t];
      i := i + width;
    }
    assert Tokens(args) == done;
    return Start(Options(port, maxPlayers));
  }

  /** Arguments in front that form whole tokens do not change how the rest is read. */
  lemma {:induction false} TokensShift(before: seq<string>, rest: seq<string>, j: nat)
    requires j <= |rest|
    ensures TokensFrom(before + rest, |before| + j) == TokensFrom(rest, j)
    decreases |rest| - j
  {
    var a := before + rest;
    if j < |rest| {
      assert a[|before| + j] == rest[j];
      assert Next(a, |before| + j) == Next(rest, j) by {
        if j + 1 < |rest| { assert a[|before| + j + 1] == rest[j + 1]; }
      }
      var h := Head(rest, j);
      assert Head(a, |before| + j) == h;
      assert TokensFrom(a, |before| + j) == [h.0] + TokensFrom(a, |before| + (j + h.1));
      TokensShift(before, rest, j + h.1);
    }
  }

  /** No arguments: the defaults. */
  lemma NoArgumentsGiveDefaults()
    ensures Outcome(Tokens([])) == Start(DEFAULT_OPTIONS)
  {
  }

  /** The token after `-port` is its value even when it looks like a flag, so `-port -h`
      starts the server with the default port instead of showing the usage. */
  lemma {:induction false} PortValueConsumed(value: string, rest: seq<string>)
    ensures Tokens(["-port", value] + rest) == [Valued(PortFlag, value)] + Tokens(rest)
    ensures Outcome(Tokens(["-port", "-h"])) == Start(DEFAULT_OPTIONS)
  {
    var a := ["-port", value] + rest;
    assert Head(a, 0) == (Valued(PortFlag, value), 2);
    TokensShift(["-port", value], rest, 0);
    var ts := Tokens(["-port", "-h"]);
    assert ts == [Valued(PortFlag, "-h")];
    TrimUnpadded("-h");
    assert !AllDigits("h") by { assert !IsDigit("h"[0]); }
    assert !Sets(ts[0], PortFlag);
    SettingDefault(ts, PortFlag, DEFAULT_OPTIONS.port);
    SettingDefault(ts, MaxPlayersFlag, DEFAULT_OPTIONS.maxPlayers);
  }

  /** A value flag in last position has no value and is ignored. */
  lemma DanglingFlagIgnored()
    ensures Outcome(Tokens(["-maxplayers"])) == Start(DEFAULT_OPTIONS)
  {
    assert Tokens(["-maxplayers"]) == [Plain("-maxplayers")];
  }

  /** A help flag in first position shows the usage, whatever follows. */
  lemma HelpFirst(rest: seq<string>)
    ensures Outcome(Tokens(["-h"] + rest)) == Help
    ensures Outcome(Tokens(["-help"] + rest)) == Help
  {
    assert Head(["-h"] + rest, 0).0 == HelpFlag;
    assert Head(["-help"] + rest, 0).0 == HelpFlag;
  }

  /** Starting the server with the parsed options: an empty, stopped session on that port. */
  function Configure(options: Options): (s: ServerSession.Session)
    ensures ServerSession.Valid(s) && s.port == options.port && s.maxPlayers == options.maxPlayers
    ensures s.players == map[] && !s.running
  {
    ServerSession.NewSession(options.port, options.maxPlayers)
  }

  // ---------------------------------------------------------------- console

  datatype Command = Skip | Quit | ShowCommands | ShowStatus | ListPlayers | Unknown(text: string)

  /** `Console.ReadLine()?.Trim().ToLower()`; `None` is the end of input. */
  function Normalize(line: string): string
  {
    LowerString(Trim(line))
  }

  /** The command a normalized line names. */
  function CommandOf(command: string): (c: Command)
    ensures c == Skip <==> command == ""
    ensures c.Unknown? ==> c.text == command
  {
    match command
    case "" => Skip
    case "quit" => Quit
    case "exit" => Quit
    case "stop" => Quit
    case "help" => ShowCommands
    case "status" => ShowStatus
    case "info" => ShowStatus
    case "players" => ListPlayers
    case "list" => ListPlayers
    case _ => Unknown(command)
  }

  /** The command table: `quit`, `exit` and `stop` are one command, and so are `status` and
      `info`, and `players` and `list`; any other non-empty text is unknown. */
  lemma CommandTable(command: string)
    ensures CommandOf(command) == Quit <==> command in {"quit", "exit", "stop"}
    ensures CommandOf(command) == ShowCommands <==> command == "help"
    ensures CommandOf(command) == ShowStatus <==> command in {"status", "info"}
    ensures CommandOf(command) == ListPlayers <==> command in {"players", "list"}
    ensures CommandOf(command).Unknown? <==> command !in {"", "quit", "exit", "stop", "help", "status", "info", "players", "list"}
  {
  }

  /** The console dispatch for one line; `None` is the end of input. */
  function Dispatch(line: Option<string>): (c: Command)
    ensures line.None? ==> c == Skip
    ensures line.Some? ==> (c == Skip <==> Normalize(line.value) == "")
    ensures c.Unknown? ==> line.Some? && c.text == Normalize(line.value)
  {
    if line.None? then Skip else CommandOf(Normalize(line.value))
  }

  lemma LowerKeepsWhite(c: char)
    ensures IsWhite(LowerChar(c)) <==> IsWhite(c)
  {
  }

  /** Normalizing is idempotent, so a line already in normal form dispatches as itself. */
  lemma NormalizeIdempotent(line: string)
    ensures Normalize(Normalize(line)) == Normalize(line)
    ensures Dispatch(Some(Normalize(line))) == Dispatch(Some(line))
  {
    var t := Trim(line);
    var n := LowerString(t);
    if |n| > 0 {
      LowerKeepsWhite(t[0]);
      LowerKeepsWhite(t[|t| - 1]);
      TrimUnpadded(n);
    } else {
      assert Trim(n) == [];
    }
    assert LowerString(n) == n;
  }

  /** A lower-case word with no padding is dispatched as itself. */
  lemma {:induction false} PlainCommand(word: string)
    requires |word| > 0 && forall i :: 0 <= i < |word| ==> 'a' <= word[i] <= 'z'
    ensures Normalize(word) == word
    ensures Dispatch(Some(word)) == CommandOf(word)
  {
    TrimUnpadded(word);
  }

  /** Padding and letter case do not matter: `  QUIT ` is `quit`. */
  lemma CaseAndPaddingIgnored(word: string, before: string, after: string)
    requires |word| > 0 && forall i :: 0 <= i < |word| ==> 'a' <= word[i] <= 'z'
    requires AllWhite(before) && AllWhite(after)
    ensures Normalize(before + Upper(word) + after) == word
    ensures Dispatch(Some(before + Upper(word) + after)) == CommandOf(word)
  {
    TrimPadded(before, Upper(word), after);
    LowerUpper(word);
  }

  lemma LowerUpper(word: string)
    requires forall i :: 0 <= i < |word| ==> 'a' <= word[i] <= 'z'
    ensures LowerString(Upper(word)) == word
  {
    assert forall i :: 0 <= i < |word| ==> LowerString(Upper(word))[i] == word[i];
  }

  function Upper(word: string): (u: string)
    requires forall i :: 0 <= i < |word| ==> 'a' <= word[i] <= 'z'
    ensures |u| == |word| && forall i :: 0 <= i < |u| ==> 'A' <= u[i] <= 'Z' && LowerChar(u[i]) == word[i]
  {
    seq(|word|, i requires 0 <= i < |word| => (word[i] as int - 32) as char)
  }

  /** The commands up to and including the first quit. */
  function UntilQuit(cs: seq<Command>): (handled: seq<Command>)
    ensures |handled| <= |cs| && handled == cs[..|handled|]
    ensures forall i :: 0 <= i < |handled| - 1 ==> handled[i] != Quit
    ensures |handled| < |cs| ==> |handled| > 0 && handled[|handled| - 1] == Quit
    decreases |cs|
  {
    if |cs| == 0 then []
    else if cs[0] == Quit then [Quit]
    else [cs[0]] + UntilQuit(cs[1..])
  }

  /** The console loop over the lines typed: commands are handled until the first quit, and
      nothing after it is read. */
  function Session(lines: seq<Option<string>>): (handled: seq<Command>)
    ensures |handled| <= |lines|
    ensures forall i :: 0 <= i < |handled| ==> handled[i] == Dispatch(lines[i])
    ensures forall i :: 0 <= i < |handled| - 1 ==> handled[i] != Quit
    ensures |handled| < |lines| ==> |handled| > 0 && handled[|handled| - 1] == Quit
  {
    UntilQuit(seq(|lines|, i requires 0 <= i < |lines| => Dispatch(lines[i])))
  }
}

=== FILE: server_objects.dfy ===
/**
 * The dedicated server's object registry (HPMultiplayer/Server/GameStateManager.cs):
 * an upsert map from object id to last known position and rotation, serialized as a
 * concatenation of snapshot records.
 */
module ServerObjects {
  import opened Wire
  import opened Snapshot
  import opened Enumeration

  /** `SyncedObjectState`: the rotation is three Euler words; the record adds `0f` as w. */
  datatype ObjectState = ObjectState(objectId: seq<byte>, position: Vec3, rotation: Vec3)

  type Objects = map<seq<byte>, ObjectState>

  /** The `SyncedObjectState(objectId)` constructor. */
  function NewObjectState(objectId: seq<byte>): (o: ObjectState)
    ensures o.objectId == objectId && o.position == VEC3_ZERO && o.rotation == VEC3_ZERO
  {
    ObjectState(objectId, VEC3_ZERO, VEC3_ZERO)
  }

  /** Every entry is stored under its own id. */
  predicate WellKeyed(objects: Objects) {
    forall k :: k in objects ==> objects[k].objectId == k
  }

  /** `RegisterObject`: create the entry when absent, then overwrite its position and rotation. */
  function RegisterObject(objects: Objects, objectId: seq<byte>, position: Vec3, rotation: Vec3): (r: Objects)
    ensures r.Keys == objects.Keys + {objectId}
    ensures objectId !in objects ==> r[objectId] == ObjectState(objectId, position, rotation)
    ensures objectId in objects ==> r[objectId] == objects[objectId].(position := position, rotation := rotation)
    ensures forall k :: k in objects && k != objectId ==> r[k] == objects[k]
    ensures WellKeyed(objects) ==> WellKeyed(r)
  {
    var o := if objectId in objects then objects[objectId] else NewObjectState(objectId);
    objects[objectId := o.(position := position, rotation := rotation)]
  }

  /** `UnregisterObject`: `Dictionary.Remove`, a no-op for an absent id. This is the server's
      table of `SyncedObjectState`; the client's registry of `SyncedObject` is a separate map
      with its own removal in `StateSync`. */
  function UnregisterObject(objects: Objects, objectId: seq<byte>): (r: Objects)
    ensures r.Keys == objects.Keys - {objectId}
    ensures forall k :: k in r ==> r[k] == objects[k]
    ensures WellKeyed(objects) ==> WellKeyed(r)
  {
    objects - {objectId}
  }

  /** Registering the same id twice keeps only the second position and rotation. */
  lemma RegisterTwice(objects: Objects, objectId: seq<byte>, p1: Vec3, r1: Vec3, p2: Vec3, r2: Vec3)
    ensures RegisterObject(RegisterObject(objects, objectId, p1, r1), objectId, p2, r2)
         == RegisterObject(objects, objectId, p2, r2)
  {
  }

  /** Unregistering an id that was just registered leaves the other entries as they were. */
  lemma RegisterThenUnregister(objects: Objects, objectId: seq<byte>, p: Vec3, r: Vec3)
    requires objectId !in objects
    ensures UnregisterObject(RegisterObject(objects, objectId, p, r), objectId) == objects
  {
  }

  /** The record `SyncedObjectState.Serialize` writes. */
  function ObjectRecord(o: ObjectState): Record
  {
    Record(o.objectId, o.position, Quat(o.rotation.x, o.rotation.y, o.rotation.z, ZERO_WORD))
  }

  /** `SyncedObjectState.Serialize`. */
  function SerializeObject(o: ObjectState): (b: seq<byte>)
    ensures |b| == 1 + |o.objectId| + 28
    ensures b[0] as int == |o.objectId| % 256
  {
    RecordBytes(ObjectRecord(o))
  }

  /** A serialized object reads back as its id, position and rotation with `0f` as w. */
  lemma SerializeObjectRoundTrip(o: ObjectState)
    requires |o.objectId| < 256
    ensures Records(SerializeObject(o)) == [Record(o.objectId, o.position, Quat(o.rotation.x, o.rotation.y, o.rotation.z, ZERO_WORD))]
  {
    var b := SerializeObject(o);
    assert EncodeRecords([ObjectRecord(o)]) == b by { assert [ObjectRecord(o)][1..] == []; }
    RecordsOfEncoding([ObjectRecord(o)], []);
    assert b + [] == b;
  }

  /** The records of the objects listed in `order`. */
  function RecordsIn(objects: Objects, order: seq<seq<byte>>): (rs: seq<Record>)
    requires forall i :: 0 <= i < |order| ==> order[i] in objects
    ensures |rs| == |order|
    ensures forall i :: 0 <= i < |order| ==> rs[i] == ObjectRecord(objects[order[i]])
  {
    seq(|order|, i requires 0 <= i < |order| => ObjectRecord(objects[order[i]]))
  }

  /** The records of objects whose ids fit the one-byte length read back from their encoding. */
  lemma ObjectsRoundTrip(objects: Objects, order: seq<seq<byte>>)
    requires forall i :: 0 <= i < |order| ==> order[i] in objects
    requires forall k :: k in objects ==> |objects[k].objectId| < 256
    ensures Records(EncodeRecords(RecordsIn(objects, order))) == RecordsIn(objects, order)
  {
    var rs := RecordsIn(objects, order);
    forall i | 0 <= i < |rs| ensures ShortId(rs[i]) {
      assert order[i] in objects;
    }
    RecordsOfEncoding(rs, []);
    assert EncodeRecords(rs) + [] == EncodeRecords(rs);
  }

  /** `SerializeState`: every registered object's record, concatenated in the dictionary's
      enumeration order (returned as `order`); empty when nothing is registered. */
  method SerializeState(objects: Objects) returns (order: seq<seq<byte>>, data: seq<byte>)
    ensures Enumerates(order, objects.Keys)
    ensures data == EncodeRecords(RecordsIn(objects, order))
    ensures data == [] <==> |objects| == 0
    ensures (forall k :: k in objects ==> |objects[k].objectId| < 256) ==> Records(data) == RecordsIn(objects, order)
  {
    order := [];
    data := [];
    var remaining := objects.Keys;
    while remaining != {}
      invariant remaining <= objects.Keys
      invariant Enumerates(order, objects.Keys - remaining)
      invariant data == EncodeRecords(RecordsIn(objects, order))
      decreases remaining
    {
      var k :| k in remaining;
      EncodeRecordsAppend(RecordsIn(objects, order), ObjectRecord(objects[k]));
      assert RecordsIn(objects, order + [k]) == RecordsIn(objects, order) + [ObjectRecord(objects[k])];
      EnumeratesAppend(order, objects.Keys - remaining, k);
      assert objects.Keys - (remaining - {k}) == (objects.Keys - remaining) + {k};
      data := data + RecordBytes(ObjectRecord(objects[k]));
      order := order + [k];
      remaining := remaining - {k};
    }
    EncodeRecordsEmpty(RecordsIn(objects, order));
    if |objects| > 0 {
      var k :| k in objects;
      assert k in order;
    }
    if forall k :: k in objects ==> |objects[k].objectId| < 256 {
      ObjectsRoundTrip(objects, order);
    }
  }
}

=== FILE: server_player.dfy ===
/** A connected player as the dedicated server records it (HPMultiplayer/Server/ServerPlayer.cs). */
module ServerPlayers {
  import opened Wire
  import opened Net

  datatype ServerPlayer = ServerPlayer(
    playerId: int32,
    name: seq<byte>,
    endpoint: Endpoint,
    position: Vec3,
    rotation: Vec3,
    lastUpdateTime: Time,
    lastHeartbeatTime: Time,
    isConnected: bool)

  /** The `ServerPlayer(playerId, endPoint, playerName)` constructor, at time `now`. */
  function NewServerPlayer(playerId: int32, endpoint: Endpoint, name: seq<byte>, now: Time): (p: ServerPlayer)
    ensures p.playerId == playerId && p.endpoint == endpoint && p.name == name
    ensures p.position == VEC3_ZERO && p.rotation == VEC3_ZERO
    ensures p.lastUpdateTime == now && p.lastHeartbeatTime == now && p.isConnected
  {
    ServerPlayer(playerId, name, endpoint, VEC3_ZERO, VEC3_ZERO, now, now, true)
  }

  /** `UpdatePosition`: replaces position and rotation and stamps the update time; the id,
      endpoint, name, connection flag and heartbeat are left alone. */
  function UpdatePosition(p: ServerPlayer, position: Vec3, rotation: Vec3, now: Time): (q: ServerPlayer)
    ensures q.position == position && q.rotation == rotation && q.lastUpdateTime == now
    ensures q.(position := p.position, rotation := p.rotation, lastUpdateTime := p.lastUpdateTime) == p
  {
    p.(position := position, rotation := rotation, lastUpdateTime := now)
  }

  /** Only the latest position update is remembered. */
  lemma UpdatePositionOverwrites(p: ServerPlayer, p1: Vec3, r1: Vec3, t1: Time, p2: Vec3, r2: Vec3, t2: Time)
    ensures UpdatePosition(UpdatePosition(p, p1, r1, t1), p2, r2, t2) == UpdatePosition(p, p2, r2, t2)
  {
  }
}

=== FILE: server_session.dfy ===
/** The dedicated server's connection table and message handlers
    (HPMultiplayer/Server/ServerNetworkManager.cs). Each handler is a function from the session
    and one received datagram to the next session and the set of datagrams sent in reply; the
    set is unordered because the source broadcasts by enumerating a `Dictionary`. */
module ServerSession {
  import opened Wrappers
  import opened Wire
  import opened Net
  import opened Text
  import opened Protocol
  import opened ServerPlayers
  import opened Enumeration

  /** `PLAYER_TIMEOUT`, 30 seconds, in milliseconds. */
  const PLAYER_TIMEOUT: int := 30_000
  /** The default `excludePlayerId` of `BroadcastToAll`. */
  const NO_EXCLUSION: int32 := -1
  const DEFAULT_PORT: int32 := 7777
  const DEFAULT_MAX_PLAYERS: int32 := 16

  const SERVER_FULL: seq<byte> := AsciiBytes("Server is full")
  const INVALID_REQUEST: seq<byte> := AsciiBytes("Invalid connection message")

  datatype Session = Session(
    players: map<int32, ServerPlayer>,
    endpointIds: map<Endpoint, int32>,
    nextPlayerId: int32,
    maxPlayers: int32,
    port: int32,
    running: bool)

  /** The next session and what was sent on the way. */
  datatype Step = Step(session: Session, sent: set<Datagram>)

  /** What the handlers keep true: the two dictionaries are inverse to each other, every
      stored player is connected and filed under its own id, and ids already handed out
      lie below `nextPlayerId`. */
  predicate Valid(s: Session) {
    && s.nextPlayerId >= 1
    && (forall id :: id in s.players ==>
          && s.players[id].playerId == id
          && s.players[id].isConnected
          && 1 <= id < s.nextPlayerId
          && s.players[id].endpoint in s.endpointIds
          && s.endpointIds[s.players[id].endpoint] == id)
    && (forall ep :: ep in s.endpointIds ==>
          s.endpointIds[ep] in s.players && s.players[s.endpointIds[ep]].endpoint == ep)
  }

  /** The `ServerNetworkManager(port, maxPlayers)` constructor. */
  function NewSession(port: int32, maxPlayers: int32): (s: Session)
    ensures Valid(s) && |s.players| == 0 && |s.endpointIds| == 0
    ensures s.nextPlayerId == 1 && s.port == port && s.maxPlayers == maxPlayers && !s.running
  {
    Session(map[], map[], 1, maxPlayers, port, false)
  }

  // ------------------------------------------------------------------- broadcasting

  /** The endpoints `BroadcastToOthers(exclude, _)` / `BroadcastToAll(_, exclude)` send to:
      every connected player whose id is not `exclude`. */
  function Recipients(players: map<int32, ServerPlayer>, exclude: int32): set<Endpoint> {
    set id | id in players && players[id].isConnected && players[id].playerId != exclude :: players[id].endpoint
  }

  /** One copy of `msg` to each recipient. */
  function Broadcast(players: map<int32, ServerPlayer>, exclude: int32, msg: seq<byte>): (out: set<Datagram>)
    ensures forall d :: d in out <==> d.payload == msg && d.to in Recipients(players, exclude)
  {
    set ep | ep in Recipients(players, exclude) :: Datagram(ep, msg)
  }

  /** In a valid session the recipients of a broadcast are exactly the registered endpoints
      other than the excluded player's own. */
  lemma RecipientsInValid(s: Session, exclude: int32, ep: Endpoint)
    requires Valid(s)
    ensures ep in Recipients(s.players, exclude) <==> ep in s.endpointIds && s.endpointIds[ep] != exclude
  {
    if ep in Recipients(s.players, exclude) {
      var id :| id in s.players && s.players[id].isConnected && s.players[id].playerId != exclude && s.players[id].endpoint == ep;
      assert s.endpointIds[ep] == id;
    }
    if ep in s.endpointIds && s.endpointIds[ep] != exclude {
      var id := s.endpointIds[ep];
      assert s.players[id].endpoint == ep;
    }
  }

  // ------------------------------------------------------------------- handlers

  /** `HandleConnection`: a known endpoint gets its existing id again; otherwise a full server
      answers "Server is full", an unparsable request "Invalid connection message", and a good
      request is admitted under the next id, accepted, and announced to everyone else. */
  function HandleConnection(s: Session, data: seq<byte>, sender: Endpoint, now: Time): (r: Step)
    ensures sender in s.endpointIds ==> r == Step(s, {Datagram(sender, AcceptedMessage(s.endpointIds[sender]))})
    ensures sender !in s.endpointIds && |s.players| >= s.maxPlayers as int ==>
      r == Step(s, {Datagram(sender, RejectedMessage(SERVER_FULL))})
    ensures sender !in s.endpointIds && |s.players| < s.maxPlayers as int && ParseConnection(data) == None ==>
      r == Step(s, {Datagram(sender, RejectedMessage(INVALID_REQUEST))})
    ensures r.session.maxPlayers == s.maxPlayers && r.session.running == s.running
    ensures |s.players| <= s.maxPlayers as int ==> |r.session.players| <= s.maxPlayers as int
  {
    if sender in s.endpointIds then
      Step(s, {Datagram(sender, AcceptedMessage(s.endpointIds[sender]))})
    else if |s.players| >= s.maxPlayers as int then
      Step(s, {Datagram(sender, RejectedMessage(SERVER_FULL))})
    else
      match ParseConnection(data)
      case None => Step(s, {Datagram(sender, RejectedMessage(INVALID_REQUEST))})
      case Some(req) =>
        var next := Admit(s, sender, req.name, now);
        Step(next, {Datagram(sender, AcceptedMessage(s.nextPlayerId))}
                   + Broadcast(next.players, s.nextPlayerId, PlayerJoinedMessage(s.nextPlayerId, req.name)))
  }

  /** The table after `sender` is admitted as `name` under the next id. */
  function Admit(s: Session, sender: Endpoint, name: seq<byte>, now: Time): (t: Session)
    ensures t.players.Keys == s.players.Keys + {s.nextPlayerId}
    ensures t.players[s.nextPlayerId] == NewServerPlayer(s.nextPlayerId, sender, name, now)
    ensures forall k :: k in s.players && k != s.nextPlayerId ==> t.players[k] == s.players[k]
    ensures t.endpointIds == s.endpointIds[sender := s.nextPlayerId]
    ensures t.nextPlayerId == Add32(s.nextPlayerId, 1)
    ensures t.maxPlayers == s.maxPlayers && t.running == s.running
  {
    var id := s.nextPlayerId;
    s.(players := s.players[id := NewServerPlayer(id, sender, name, now)],
       endpointIds := s.endpointIds[sender := id],
       nextPlayerId := Add32(id, 1))
  }

  /** Admission hands out an id no player holds, above every id in use, and keeps the
      session valid (as long as the id counter has not reached `int.MaxValue`). */
  lemma AdmitKeepsValid(s: Session, sender: Endpoint, name: seq<byte>, now: Time)
    requires Valid(s) && s.nextPlayerId as int < INT32_MAX && sender !in s.endpointIds
    ensures s.nextPlayerId !in s.players && forall k :: k in s.players ==> k < s.nextPlayerId
    ensures Valid(Admit(s, sender, name, now))
  {
    var id := s.nextPlayerId;
    var t := Admit(s, sender, name, now);
    forall k | k in t.players
      ensures t.players[k].endpoint in t.endpointIds && t.endpointIds[t.players[k].endpoint] == k
    {
      if k != id {
        assert s.players[k].endpoint != sender;
      }
    }
    forall ep | ep in t.endpointIds
      ensures t.endpointIds[ep] in t.players && t.players[t.endpointIds[ep]].endpoint == ep
    {
      if ep != sender {
        assert s.endpointIds[ep] in s.players;
      }
    }
  }

  /** The step `HandleConnection` takes for a new endpoint with room left and a good request. */
  lemma AdmittedStep(s: Session, data: seq<byte>, sender: Endpoint, now: Time)
    requires sender !in s.endpointIds && |s.players| < s.maxPlayers as int && ParseConnection(data).Some?
    ensures var id := s.nextPlayerId;
            var name := ParseConnection(data).value.name;
            HandleConnection(s, data, sender, now) ==
              Step(Admit(s, sender, name, now),
                   {Datagram(sender, AcceptedMessage(id))}
                   + Broadcast(Admit(s, sender, name, now).players, id, PlayerJoinedMessage(id, name)))
  {
  }

  /** Admitting a new endpoint: it gets a fresh id above every id in use, the dictionaries gain
      exactly that entry, and the session stays valid. */
  lemma Admission(s: Session, data: seq<byte>, sender: Endpoint, now: Time)
    requires Valid(s) && s.nextPlayerId as int < INT32_MAX
    requires sender !in s.endpointIds && |s.players| < s.maxPlayers as int && ParseConnection(data).Some?
    ensures var r := HandleConnection(s, data, sender, now);
            var id := s.nextPlayerId;
            var name := ParseConnection(data).value.name;
            && id !in s.players
            && (forall k :: k in s.players ==> k < id)
            && r.session.nextPlayerId as int == id as int + 1
            && r.session.players.Keys == s.players.Keys + {id}
            && r.session.players[id].endpoint == sender && r.session.players[id].name == name
            && r.session.endpointIds == s.endpointIds[sender := id]
            && Valid(r.session)
  {
    AdmittedStep(s, data, sender, now);
    AdmitKeepsValid(s, sender, ParseConnection(data).value.name, now);
  }

  /** On admission the newcomer is accepted and every other player, and nobody else, is told
      about it. */
  lemma {:induction false} AdmissionAnnounced(s: Session, data: seq<byte>, sender: Endpoint, now: Time)
    requires Valid(s)
    requires sender !in s.endpointIds && |s.players| < s.maxPlayers as int && ParseConnection(data).Some?
    ensures var r := HandleConnection(s, data, sender, now);
            var id := s.nextPlayerId;
            var name := ParseConnection(data).value.name;
            && Datagram(sender, AcceptedMessage(id)) in r.sent
            && (forall ep :: ep in s.endpointIds ==> Datagram(ep, PlayerJoinedMessage(id, name)) in r.sent)
            && Datagram(sender, PlayerJoinedMessage(id, name)) !in r.sent
  {
    var id := s.nextPlayerId;
    var name := ParseConnection(data).value.name;
    var t := Admit(s, sender, name, now);
    AdmittedStep(s, data, sender, now);
    forall ep | ep in s.endpointIds
      ensures ep in Recipients(t.players, id)
    {
      var k := s.endpointIds[ep];
      assert k in s.players && k != id;
      assert t.players[k] == s.players[k];
      assert t.players[k].endpoint == ep && t.players[k].isConnected && t.players[k].playerId != id;
    }
    forall k | k in t.players && t.players[k].playerId != id
      ensures t.players[k].endpoint != sender
    {
      if k != id {
        assert t.players[k] == s.players[k];
      }
    }
  }

  /** Duplicate requests from an admitted endpoint never create a second player: they only
      repeat the acceptance under the id already assigned. */
  lemma DuplicateRequestIsIdempotent(s: Session, data: seq<byte>, again: seq<byte>, sender: Endpoint, t1: Time, t2: Time)
    requires Valid(s) && s.nextPlayerId as int < INT32_MAX
    requires sender !in s.endpointIds && |s.players| < s.maxPlayers as int && ParseConnection(data).Some?
    ensures var first := HandleConnection(s, data, sender, t1);
            var second := HandleConnection(first.session, again, sender, t2);
            second.session == first.session && second.sent == {Datagram(sender, AcceptedMessage(s.nextPlayerId))}
  {
    Admission(s, data, sender, t1);
  }

  /** `HandlePlayerUpdate`: an update from a registered endpoint moves that endpoint's player,
      refreshes its heartbeat and is relayed to everyone else under the REGISTERED id, whatever
      id the datagram claims; anything else is ignored. */
  function HandlePlayerUpdate(s: Session, data: seq<byte>, sender: Endpoint, now: Time): (r: Step)
    ensures sender !in s.endpointIds || s.endpointIds[sender] !in s.players || ParsePlayerUpdate(data) == None ==>
      r == Step(s, {})
    ensures r.session.players.Keys == s.players.Keys && r.session.endpointIds == s.endpointIds
    ensures r.session.nextPlayerId == s.nextPlayerId && r.session.maxPlayers == s.maxPlayers
    ensures sender in s.endpointIds && s.endpointIds[sender] in s.players && ParsePlayerUpdate(data).Some? ==>
      var id := s.endpointIds[sender];
      var u := ParsePlayerUpdate(data).value;
      && r.session.players[id].position == u.position
      && r.session.players[id].rotation == u.rotation
      && r.session.players[id].lastUpdateTime == now
      && r.session.players[id].lastHeartbeatTime == now
      && (forall k :: k in s.players && k != id ==> r.session.players[k] == s.players[k])
      && (forall d :: d in r.sent ==> d.payload == PlayerUpdateMessage(id, u.position, u.rotation))
    ensures Valid(s) ==> Valid(r.session)
    ensures Valid(s) ==> forall d :: d in r.sent ==> d.to != sender && d.to in s.endpointIds
    ensures Valid(s) && sender in s.endpointIds && ParsePlayerUpdate(data).Some? ==>
      var u := ParsePlayerUpdate(data).value;
      forall ep :: ep in s.endpointIds && ep != sender ==>
        Datagram(ep, PlayerUpdateMessage(s.endpointIds[sender], u.position, u.rotation)) in r.sent
  {
    if sender !in s.endpointIds || s.endpointIds[sender] !in s.players then Step(s, {})
    else match ParsePlayerUpdate(data)
      case None => Step(s, {})
      case Some(u) =>
        var id := s.endpointIds[sender];
        var p := UpdatePosition(s.players[id], u.position, u.rotation, now).(lastHeartbeatTime := now);
        var players := s.players[id := p];
        var sent := Broadcast(players, id, PlayerUpdateMessage(id, u.position, u.rotation));
        RelayExcludesSender(s, players, id, sender, sent);
        RelayReachesOthers(s, players, id, sender, sent, PlayerUpdateMessage(id, u.position, u.rotation));
        Step(s.(players := players), sent)
  }

  /** The relay of a moved player reaches every other registered endpoint. */
  lemma RelayReachesOthers(s: Session, players: map<int32, ServerPlayer>, id: int32, sender: Endpoint,
                           sent: set<Datagram>, msg: seq<byte>)
    requires sender in s.endpointIds && s.endpointIds[sender] == id && id in s.players
    requires players.Keys == s.players.Keys && players[id].playerId == s.players[id].playerId
    requires forall k :: k in players && k != id ==> players[k] == s.players[k]
    requires forall d :: d in sent <==> d.payload == msg && d.to in Recipients(players, id)
    ensures Valid(s) ==> forall ep :: ep in s.endpointIds && ep != sender ==> Datagram(ep, msg) in sent
  {
    if Valid(s) {
      forall ep | ep in s.endpointIds && ep != sender
        ensures Datagram(ep, msg) in sent
      {
        var k := s.endpointIds[ep];
        assert k != id;
        assert players[k] == s.players[k];
      }
    }
  }

  /** The relay of a moved player reaches neither the mover nor anyone unregistered. */
  lemma RelayExcludesSender(s: Session, players: map<int32, ServerPlayer>, id: int32, sender: Endpoint, sent: set<Datagram>)
    requires sender in s.endpointIds && s.endpointIds[sender] == id && id in s.players
    requires players.Keys == s.players.Keys && players[id].playerId == s.players[id].playerId
    requires forall k :: k in players ==> players[k].endpoint == s.players[k].endpoint && players[k].isConnected == s.players[k].isConnected
    requires forall k :: k in players && k != id ==> players[k].playerId == s.players[k].playerId
    requires forall d :: d in sent ==> d.to in Recipients(players, id)
    ensures Valid(s) ==> forall d :: d in sent ==> d.to != sender && d.to in s.endpointIds
  {
    if Valid(s) {
      forall d | d in sent
        ensures d.to != sender && d.to in s.endpointIds
      {
        var k :| k in players && players[k].isConnected && players[k].playerId != id && players[k].endpoint == d.to;
        assert k != id;
        assert s.endpointIds[s.players[k].endpoint] == k;
      }
    }
  }

  /** The id a player-update datagram claims for itself (bytes 1..4) makes no difference. */
  lemma UpdateIgnoresClaimedId(s: Session, data: seq<byte>, forged: seq<byte>, sender: Endpoint, now: Time)
    requires |data| >= PLAYER_UPDATE_SIZE && |forged| == |data| && forged[5..29] == data[5..29]
    ensures HandlePlayerUpdate(s, data, sender, now) == HandlePlayerUpdate(s, forged, sender, now)
  {
    assert forall i :: 5 <= i < 29 ==> forged[i] == data[i] by {
      forall i | 5 <= i < 29 ensures forged[i] == data[i] {
        assert forged[5..29][i - 5] == data[5..29][i - 5];
      }
    }
    assert ReadVec3(forged, 5) == ReadVec3(data, 5);
    assert ReadVec3(forged, 17) == ReadVec3(data, 17);
  }

  /** `RemovePlayer`: drops the player and its endpoint and tells every remaining player. */
  function RemovePlayer(s: Session, id: int32): (r: Step)
    ensures id !in s.players ==> r == Step(s, {})
    ensures r.session.players.Keys == s.players.Keys - {id}
    ensures forall k :: k in r.session.players ==> r.session.players[k] == s.players[k]
    ensures id in s.players ==> r.session.endpointIds == s.endpointIds - {s.players[id].endpoint}
    ensures r.session.nextPlayerId == s.nextPlayerId && r.session.maxPlayers == s.maxPlayers && r.session.running == s.running
    ensures forall d :: d in r.sent ==> d.payload == PlayerLeftMessage(id)
    ensures id in s.players ==> forall k :: k in r.session.players && r.session.players[k].isConnected && r.session.players[k].playerId != id ==>
      Datagram(r.session.players[k].endpoint, PlayerLeftMessage(id)) in r.sent
    ensures Valid(s) ==> Valid(r.session)
    ensures Valid(s) ==> forall d :: d in r.sent ==> d.to in r.session.endpointIds
  {
    if id !in s.players then Step(s, {})
    else
      var gone := s.players[id];
      var next := s.(players := s.players - {id}, endpointIds := s.endpointIds - {gone.endpoint});
      RemovalKeepsValid(s, id, next);
      Step(next, Broadcast(next.players, id, PlayerLeftMessage(id)))
  }

  lemma RemovalKeepsValid(s: Session, id: int32, next: Session)
    requires id in s.players
    requires next == s.(players := s.players - {id}, endpointIds := s.endpointIds - {s.players[id].endpoint})
    ensures Valid(s) ==> Valid(next)
    ensures Valid(s) ==> forall ep :: ep in Recipients(next.players, id) ==> ep in next.endpointIds
  {
    if Valid(s) {
      forall ep | ep in next.endpointIds
        ensures next.endpointIds[ep] in next.players
      {
        assert s.players[s.endpointIds[ep]].endpoint == ep;
      }
      forall ep | ep in Recipients(next.players, id)
        ensures ep in next.endpointIds
      {
        var k :| k in next.players && next.players[k].isConnected && next.players[k].playerId != id && next.players[k].endpoint == ep;
        assert s.endpointIds[ep] == k;
      }
    }
  }

  /** `HandleDisconnect`: a registered endpoint's player is removed, whatever id the datagram
      names; a disconnect from an unknown endpoint changes nothing. */
  function HandleDisconnect(s: Session, sender: Endpoint): (r: Step)
    ensures sender !in s.endpointIds ==> r == Step(s, {})
    ensures sender in s.endpointIds ==> r.session.players.Keys == s.players.Keys - {s.endpointIds[sender]}
    ensures forall k :: k in r.session.players ==> r.session.players[k] == s.players[k]
    ensures Valid(s) ==> Valid(r.session) && sender !in r.session.endpointIds
    ensures Valid(s) ==> forall d :: d in r.sent ==> d.to != sender
  {
    if sender !in s.endpointIds then Step(s, {})
    else RemovePlayer(s, s.endpointIds[sender])
  }

  /** `ProcessMessage`: dispatch on the first byte; empty datagrams and kinds the server does
      not handle are ignored. */
  function ProcessMessage(s: Session, data: seq<byte>, sender: Endpoint, now: Time): (r: Step)
    ensures |data| == 0 ==> r == Step(s, {})
    ensures |data| > 0 && TypeOf(data[0]) !in {Some(Connection), Some(PlayerUpdate), Some(Disconnect)} ==> r == Step(s, {})
    ensures Valid(s) && s.nextPlayerId as int < INT32_MAX ==> Valid(r.session)
    ensures |s.players| <= s.maxPlayers as int ==> |r.session.players| <= s.maxPlayers as int
    ensures r.session.maxPlayers == s.maxPlayers
  {
    if |data| < 1 then Step(s, {})
    else match TypeOf(data[0])
      case Some(Connection) =>
        var r := HandleConnection(s, data, sender, now);
        if Valid(s) && s.nextPlayerId as int < INT32_MAX && sender !in s.endpointIds
           && |s.players| < s.maxPlayers as int && ParseConnection(data).Some?
        then Admission(s, data, sender, now); r
        else r
      case Some(PlayerUpdate) => HandlePlayerUpdate(s, data, sender, now)
      case Some(Disconnect) => HandleDisconnect(s, sender)
      case _ => Step(s, {})
  }

  // ------------------------------------------------------------------- periodic work

  /** One server tick: the serialized world (when non-empty) to every connected player, and each
      connected player's pose to every other connected player. */
  function TickMessages(s: Session, gameState: seq<byte>): (out: set<Datagram>)
    requires |gameState| <= INT32_MAX
    // nothing but the world frame to a player, or a connected player's pose to a player other than it
    ensures forall d :: d in out ==>
      || (|gameState| > 0 && d.payload == GameStateMessage(gameState) && d.to in Recipients(s.players, NO_EXCLUSION))
      || (exists id :: id in s.players && s.players[id].isConnected && d.payload == PoseMessage(s.players[id])
                       && d.to in Recipients(s.players, s.players[id].playerId))
  {
    (if |gameState| > 0 then Broadcast(s.players, NO_EXCLUSION, GameStateMessage(gameState)) else {})
    + (set id, d | id in s.players && s.players[id].isConnected
                   && d in Broadcast(s.players, s.players[id].playerId, PoseMessage(s.players[id])) :: d)
  }

  /** The `PlayerUpdate` the tick sends on behalf of `p`. */
  function PoseMessage(p: ServerPlayer): seq<byte> {
    PlayerUpdateMessage(p.playerId, p.position, p.rotation)
  }

  /** Every connected player receives every other connected player's pose. */
  lemma TickReachesOthers(s: Session, gameState: seq<byte>, i: int32, j: int32)
    requires Valid(s) && |gameState| <= INT32_MAX
    requires i in s.players && j in s.players && i != j
    ensures Datagram(s.players[j].endpoint, PoseMessage(s.players[i])) in TickMessages(s, gameState)
  {
    assert s.players[j].playerId == j != i == s.players[i].playerId;
    assert s.players[j].endpoint in Recipients(s.players, s.players[i].playerId);
    var d := Datagram(s.players[j].endpoint, PoseMessage(s.players[i]));
    assert d in Broadcast(s.players, s.players[i].playerId, PoseMessage(s.players[i]));
  }

  /** No player is ever sent its own pose. */
  lemma TickNoEcho(s: Session, gameState: seq<byte>, i: int32)
    requires Valid(s) && |gameState| <= INT32_MAX && i in s.players
    ensures Datagram(s.players[i].endpoint, PoseMessage(s.players[i])) !in TickMessages(s, gameState)
  {
    RecipientsInValid(s, s.players[i].playerId, s.players[i].endpoint);
  }

  /** A non-empty world snapshot reaches every connected player. */
  lemma TickCarriesWorld(s: Session, gameState: seq<byte>, j: int32)
    requires Valid(s) && 0 < |gameState| <= INT32_MAX && j in s.players
    ensures Datagram(s.players[j].endpoint, GameStateMessage(gameState)) in TickMessages(s, gameState)
  {
    assert s.players[j].endpoint in Recipients(s.players, NO_EXCLUSION);
  }

  /** A tick sends nothing else: every datagram goes to a registered endpoint and is either the
      non-empty world snapshot or some player's pose sent to someone other than that player. */
  lemma TickSendsNothingElse(s: Session, gameState: seq<byte>, d: Datagram)
    requires Valid(s) && |gameState| <= INT32_MAX && d in TickMessages(s, gameState)
    ensures d.to in s.endpointIds
    ensures |gameState| == 0 ==> d.payload != GameStateMessage(gameState)
    ensures || (|gameState| > 0 && d.payload == GameStateMessage(gameState))
            || (exists id :: id in s.players && d.payload == PoseMessage(s.players[id]) && d.to != s.players[id].endpoint)
  {
    if |gameState| > 0 && d.payload == GameStateMessage(gameState) && d.to in Recipients(s.players, NO_EXCLUSION) {
      RecipientsInValid(s, NO_EXCLUSION, d.to);
    } else {
      var id :| id in s.players && s.players[id].isConnected && d.payload == PoseMessage(s.players[id])
                && d.to in Recipients(s.players, s.players[id].playerId);
      RecipientsInValid(s, s.players[id].playerId, d.to);
      assert s.players[id].endpoint in s.endpointIds && s.endpointIds[s.players[id].endpoint] == id;
      assert |d.payload| == 29;
    }
  }

  /** A player is dropped once more than `PLAYER_TIMEOUT` has passed since its heartbeat. */
  predicate TimedOut(p: ServerPlayer, now: Time) {
    now - p.lastHeartbeatTime > PLAYER_TIMEOUT
  }

  function Expired(s: Session, now: Time): set<int32> {
    set id | id in s.players && TimedOut(s.players[id], now)
  }

  /** One pass of the cleanup loop: collect the timed-out players, then `RemovePlayer` each in
      turn (the order chosen is returned). Exactly the timed-out players go; every player that
      stays hears about each one that went. */
  method Cleanup(s: Session, now: Time) returns (order: seq<int32>, r: Step)
    ensures Enumerates(order, Expired(s, now))
    ensures r.session.players.Keys == s.players.Keys - Expired(s, now)
    ensures forall k :: k in r.session.players ==> r.session.players[k] == s.players[k] && !TimedOut(s.players[k], now)
    ensures r.session.nextPlayerId == s.nextPlayerId && r.session.maxPlayers == s.maxPlayers
    ensures forall d :: d in r.sent ==> exists x :: x in Expired(s, now) && d.payload == PlayerLeftMessage(x)
    ensures forall k, x :: (k in r.session.players && r.session.players[k].isConnected && x in Expired(s, now)
                             && r.session.players[k].playerId != x) ==>
              Datagram(r.session.players[k].endpoint, PlayerLeftMessage(x)) in r.sent
    ensures Valid(s) ==> Valid(r.session)
  {
    var expired := Expired(s, now);
    var remaining := expired;
    order := [];
    var cur := s;
    var sent: set<Datagram> := {};
    while remaining != {}
      invariant remaining <= expired
      invariant Enumerates(order, expired - remaining)
      invariant cur.players.Keys == s.players.Keys - (expired - remaining)
      invariant forall k :: k in cur.players ==> cur.players[k] == s.players[k]
      invariant cur.nextPlayerId == s.nextPlayerId && cur.maxPlayers == s.maxPlayers
      invariant forall d :: d in sent ==> exists x :: x in expired - remaining && d.payload == PlayerLeftMessage(x)
      invariant forall k, x :: (k in s.players - expired && s.players[k].isConnected && x in expired - remaining
                                 && s.players[k].playerId != x) ==>
                  Datagram(s.players[k].endpoint, PlayerLeftMessage(x)) in sent
      invariant Valid(s) ==> Valid(cur)
      decreases remaining
    {
      var x :| x in remaining;
      var step := RemovePlayer(cur, x);
      EnumeratesAppend(order, expired - remaining, x);
      assert expired - (remaining - {x}) == (expired - remaining) + {x};
      order := order + [x];
      cur := step.session;
      sent := sent + step.sent;
      remaining := remaining - {x};
    }
    r := Step(cur, sent);
  }

  /** `Stop`: every connected player is sent a `Disconnect` carrying its own id, both
      dictionaries are cleared and the server stops running; ids are not reused afterwards. */
  function Stop(s: Session): (r: Step)
    ensures r.session.players == map[] && r.session.endpointIds == map[] && !r.session.running
    ensures r.session.nextPlayerId == s.nextPlayerId && Valid(r.session) == (s.nextPlayerId >= 1)
    ensures forall id :: id in s.players && s.players[id].isConnected ==>
      Datagram(s.players[id].endpoint, DisconnectMessage(s.players[id].playerId)) in r.sent
    ensures Valid(s) ==> forall d :: d in r.sent ==> d.to in s.endpointIds && d.payload == DisconnectMessage(s.endpointIds[d.to])
  {
    var sent := set id | id in s.players && s.players[id].isConnected :: Datagram(s.players[id].endpoint, DisconnectMessage(s.players[id].playerId));
    Step(s.(players := map[], endpointIds := map[], running := false), sent)
  }

  /** `ConnectedPlayerCount`: players whose connection flag is set. */
  function ConnectedPlayerCount(s: Session): (n: nat)
    ensures n <= |s.players|
    ensures Valid(s) ==> n == |s.players|
  {
    var connected := set id | id in s.players && s.players[id].isConnected;
    SubsetCardinality(connected, s.players.Keys);
    assert Valid(s) ==> connected == s.players.Keys;
    |connected|
  }

  /** Capacity: starting from an empty server, no sequence of datagrams ever puts more than
      `maxPlayers` players in the table. */
  lemma {:induction false} NeverOverCapacity(s: Session, msgs: seq<(seq<byte>, Endpoint, Time)>)
    requires |s.players| <= s.maxPlayers as int
    ensures |Run(s, msgs).players| <= s.maxPlayers as int
    decreases |msgs|
  {
    if |msgs| > 0 {
      var next := ProcessMessage(s, msgs[0].0, msgs[0].1, msgs[0].2).session;
      NeverOverCapacity(next, msgs[1..]);
    }
  }

  /** The session after processing `msgs` in order. */
  function Run(s: Session, msgs: seq<(seq<byte>, Endpoint, Time)>): (t: Session)
    ensures t.maxPlayers == s.maxPlayers
    decreases |msgs|
  {
    if |msgs| == 0 then s
    else Run(ProcessMessage(s, msgs[0].0, msgs[0].1, msgs[0].2).session, msgs[1..])
  }
}

=== FILE: snapshot.dfy ===
/**
 * The object-state record format carried inside Game-state messages, shared by the server's
 * `SyncedObjectState.Serialize` (HPMultiplayer/Server/GameStateManager.cs) and the mod's
 * `SyncedObject.Serialize` / `GameStateSync.ApplyState`
 * (HPMultiplayer/Synchronization/GameStateSync.cs):
 * a 1-byte id length, the id bytes, 3 position words and 4 rotation (quaternion) words.
 */
module Snapshot {
  import opened Wrappers
  import opened Wire

  /** A quaternion as four opaque float words. */
  datatype Quat = Quat(x: Word, y: Word, z: Word, w: Word)

  function QuatBytes(q: Quat): (r: seq<byte>)
    ensures |r| == 16
  {
    q.x + q.y + q.z + q.w
  }

  function ReadQuat(data: seq<byte>, offset: nat): Quat
    requires offset + 16 <= |data|
  {
    Quat(ReadWord(data, offset), ReadWord(data, offset + 4), ReadWord(data, offset + 8), ReadWord(data, offset + 12))
  }

  /** One object's state as it travels in a snapshot. */
  datatype Record = Record(objectId: seq<byte>, position: Vec3, rotation: Quat)

  /** Bytes after the id: 3 position words and 4 rotation words. */
  const BODY_SIZE: int := 28

  /** An id that the 1-byte length prefix can describe. */
  predicate ShortId(r: Record) {
    |r.objectId| < 256
  }

  /** A record as the serializers write it. The id length is cast to a byte, so an id of 256
      bytes or more gets a truncated length prefix. */
  function RecordBytes(r: Record): (b: seq<byte>)
    ensures |b| == 1 + |r.objectId| + BODY_SIZE
    ensures b[0] as int == |r.objectId| % 256 && b[1..1 + |r.objectId|] == r.objectId
  {
    [(|r.objectId| % 256) as byte] + r.objectId + Vec3Bytes(r.position) + QuatBytes(r.rotation)
  }

  /** Concatenated records: the payload of one Game-state message. */
  function EncodeRecords(rs: seq<Record>): seq<byte>
  {
    if |rs| == 0 then [] else RecordBytes(rs[0]) + EncodeRecords(rs[1..])
  }

  /** Encoding one more record appends its bytes. */
  lemma {:induction false} EncodeRecordsAppend(rs: seq<Record>, r: Record)
    ensures EncodeRecords(rs + [r]) == EncodeRecords(rs) + RecordBytes(r)
  {
    if |rs| == 0 {
      assert rs + [r] == [r];
      assert [r][1..] == [];
    } else {
      assert (rs + [r])[1..] == rs[1..] + [r];
      EncodeRecordsAppend(rs[1..], r);
    }
  }

  /** A snapshot is empty exactly when it holds no records. */
  lemma EncodeRecordsEmpty(rs: seq<Record>)
    ensures EncodeRecords(rs) == [] <==> rs == []
  {
    if |rs| > 0 {
      assert |EncodeRecords(rs)| >= |RecordBytes(rs[0])|;
    }
  }

  /** One step of the `ApplyState` walk at the start of `data`: the record and the number of
      bytes it occupies, or `None` when the id, position or rotation would run past the end. */
  function ReadRecord(data: seq<byte>): (r: Option<(Record, nat)>)
    requires |data| > 0
    ensures r.Some? <==> 1 + data[0] as int + BODY_SIZE <= |data|
    ensures r.Some? ==>
      && r.value.1 == 1 + data[0] as int + BODY_SIZE
      && r.value.0.objectId == data[1..1 + data[0] as int]
  {
    var idLength := data[0] as int;
    if 1 + idLength > |data| then None
    else if 1 + idLength + 12 > |data| then None
    else if 1 + idLength + BODY_SIZE > |data| then None
    else
      var id := data[1..1 + idLength];
      Some((Record(id, ReadVec3(data, 1 + idLength), ReadQuat(data, 1 + idLength + 12)), 1 + idLength + BODY_SIZE))
  }

  /** The records `ApplyState` reads from a blob, in order, stopping at the first record that
      would overrun the buffer; never fails. */
  function Records(data: seq<byte>): seq<Record>
    decreases |data|
  {
    if |data| == 0 then []
    else
      match ReadRecord(data)
      case None => []
      case Some((r, n)) => [r] + Records(data[n..])
  }

  lemma ReadQuatBytes(q: Quat, before: seq<byte>, after: seq<byte>)
    ensures ReadQuat(before + QuatBytes(q) + after, |before|) == q
  {
    var data := before + QuatBytes(q) + after;
    var o := |before|;
    assert data[o..o + 4] == q.x;
    assert data[o + 4..o + 8] == q.y;
    assert data[o + 8..o + 12] == q.z;
    assert data[o + 12..o + 16] == q.w;
  }

  /** A record with a short id is read back exactly, whatever follows it. */
  lemma ReadRecordBytes(r: Record, rest: seq<byte>)
    requires ShortId(r)
    ensures ReadRecord(RecordBytes(r) + rest) == Some((r, |RecordBytes(r)|))
  {
    var k := |r.objectId|;
    var head := [(k % 256) as byte] + r.objectId;
    var d := RecordBytes(r) + rest;
    assert |head| == 1 + k && d[0] as int == k && d[1..1 + k] == r.objectId;
    assert d == head + Vec3Bytes(r.position) + (QuatBytes(r.rotation) + rest);
    ReadVec3Bytes(r.position, head, QuatBytes(r.rotation) + rest);
    assert ReadVec3(d, 1 + k) == r.position;
    assert d == (head + Vec3Bytes(r.position)) + QuatBytes(r.rotation) + rest;
    ReadQuatBytes(r.rotation, head + Vec3Bytes(r.position), rest);
    assert ReadQuat(d, 1 + k + 12) == r.rotation;
  }

  /** `ReadRecord` looks no further than the record it reads. */
  lemma ReadRecordOfPrefix(data: seq<byte>, k: nat)
    requires 0 < k <= |data| && ReadRecord(data[..k]).Some?
    ensures ReadRecord(data) == ReadRecord(data[..k])
  {
    var p := data[..k];
    var o := 1 + data[0] as int;
    assert p[0] == data[0];
    PrefixSlice(data, k, 1, o);
    PrefixSlice(data, k, o, o + 4);
    PrefixSlice(data, k, o + 4, o + 8);
    PrefixSlice(data, k, o + 8, o + 12);
    PrefixSlice(data, k, o + 12, o + 16);
    PrefixSlice(data, k, o + 16, o + 20);
    PrefixSlice(data, k, o + 20, o + 24);
    PrefixSlice(data, k, o + 24, o + 28);
    assert ReadVec3(data, o) == ReadVec3(p, o);
    assert ReadQuat(data, o + 12) == ReadQuat(p, o + 12);
  }

  lemma PrefixSlice(data: seq<byte>, k: nat, a: nat, b: nat)
    requires a <= b <= k <= |data|
    ensures data[..k][a..b] == data[a..b]
  {
  }

  /** Fewer than 29 bytes never hold a complete record. */
  lemma ShortTailHasNoRecord(tail: seq<byte>)
    requires |tail| < 1 + BODY_SIZE
    ensures Records(tail) == []
  {
  }

  /** The walker reads an encoded record and carries on right after it. */
  lemma RecordsCons(r: Record, rest: seq<byte>)
    requires ShortId(r)
    ensures Records(RecordBytes(r) + rest) == [r] + Records(rest)
  {
    var d := RecordBytes(r) + rest;
    ReadRecordBytes(r, rest);
    assert d[|RecordBytes(r)|..] == rest;
  }

  /** Round trip: the walker recovers every encoded record, and a garbage tail shorter than a
      record is dropped. */
  lemma {:induction false} RecordsOfEncoding(rs: seq<Record>, tail: seq<byte>)
    requires forall i :: 0 <= i < |rs| ==> ShortId(rs[i])
    requires |tail| < 1 + BODY_SIZE
    ensures Records(EncodeRecords(rs) + tail) == rs
  {
    if |rs| == 0 {
      assert EncodeRecords(rs) + tail == tail;
      ShortTailHasNoRecord(tail);
    } else {
      var rest := EncodeRecords(rs[1..]) + tail;
      assert EncodeRecords(rs) + tail == RecordBytes(rs[0]) + rest;
      RecordsCons(rs[0], rest);
      RecordsOfEncoding(rs[1..], tail);
      assert rs == [rs[0]] + rs[1..];
    }
  }

  /** Truncating a blob anywhere keeps every record that was complete before the cut, in order:
      the records of a prefix are a prefix of the records. */
  lemma {:induction false} RecordsOfPrefix(data: seq<byte>, k: nat)
    requires k <= |data|
    ensures Records(data[..k]) <= Records(data)
    decreases |data|
  {
    var p := data[..k];
    if |p| > 0 {
      match ReadRecord(p)
      case None =>
      case Some((r, n)) =>
        ReadRecordOfPrefix(data, k);
        assert p[n..] == data[n..][..k - n];
        RecordsOfPrefix(data[n..], k - n);
    }
  }

  /** One 34-byte record followed by 3 garbage bytes yields exactly that record. */
  lemma OneRecordThenGarbage(r: Record, garbage: seq<byte>)
    requires |r.objectId| == 5 && |garbage| == 3
    ensures |RecordBytes(r)| == 34
    ensures Records(RecordBytes(r) + garbage) == [r]
  {
    assert [r][1..] == [];
    assert EncodeRecords([r]) == RecordBytes(r);
    RecordsOfEncoding([r], garbage);
  }

  /** A 256-byte id is written with length prefix 0, so the record does not read back. */
  lemma LongIdDoesNotRoundTrip(r: Record)
    requires |r.objectId| == 256
    ensures RecordBytes(r)[0] == 0
    ensures ReadRecord(RecordBytes(r)).Some? && ReadRecord(RecordBytes(r)).value.0 != r
  {
  }
}

=== FILE: text.dfy ===
/**
 * Text helpers with the .NET semantics the source relies on: `String.Split(char)`,
 * `String.Join`, `Contains`, ASCII `ToLower`, `Trim`, decimal formatting of an `int`
 * (string interpolation) and `int.TryParse`.
 */
module Text {
  import opened Wrappers
  import opened Wire

  // ---------------------------------------------------------------- Split / Join

  /** `String.Split(sep)`: every separator ends a part, so `k` separators give `k + 1` parts
      (empty parts included, and the empty string gives one empty part). */
  function Split<T(==)>(s: seq<T>, sep: T): (parts: seq<seq<T>>)
    ensures |parts| >= 1
    ensures forall i :: 0 <= i < |parts| ==> sep !in parts[i]
    decreases |s|
  {
    if |s| == 0 then [[]]
    else
      var rest := Split(s[1..], sep);
      if s[0] == sep then [[]] + rest
      else [[s[0]] + rest[0]] + rest[1..]
  }

  /** `String.Join(sep, parts)`. */
  function Join<T>(parts: seq<seq<T>>, sep: T): seq<T>
  {
    if |parts| == 0 then []
    else if |parts| == 1 then parts[0]
    else parts[0] + [sep] + Join(parts[1..], sep)
  }

  lemma {:induction false} SplitWithoutSeparator<T>(s: seq<T>, sep: T)
    requires sep !in s
    ensures Split(s, sep) == [s]
  {
    if |s| > 0 {
      assert s[0] != sep && sep !in s[1..];
      SplitWithoutSeparator(s[1..], sep);
      assert [s[0]] + s[1..] == s;
    }
  }

  /** Splitting around one separator splits each side independently. */
  lemma {:induction false} SplitAround<T>(a: seq<T>, sep: T, b: seq<T>)
    ensures Split(a + [sep] + b, sep) == Split(a, sep) + Split(b, sep)
  {
    if |a| == 0 {
      assert a + [sep] + b == [sep] + b;
      assert ([sep] + b)[1..] == b;
    } else {
      assert (a + [sep] + b)[1..] == a[1..] + [sep] + b;
      SplitAround(a[1..], sep, b);
    }
  }

  /** Join undoes Split. */
  lemma {:induction false} JoinSplit<T>(s: seq<T>, sep: T)
    ensures Join(Split(s, sep), sep) == s
  {
    if |s| > 0 {
      var rest := Split(s[1..], sep);
      JoinSplit(s[1..], sep);
      if s[0] == sep {
        assert Split(s, sep)[1..] == rest;
      } else {
        var parts := Split(s, sep);
        if |rest| > 1 {
          assert parts[1..] == rest[1..];
          assert Join(rest, sep) == rest[0] + [sep] + Join(rest[1..], sep);
        }
      }
    }
  }

  /** Split undoes Join when no part contains the separator. */
  lemma {:induction false} SplitJoin<T>(parts: seq<seq<T>>, sep: T)
    requires |parts| >= 1
    requires forall i :: 0 <= i < |parts| ==> sep !in parts[i]
    ensures Split(Join(parts, sep), sep) == parts
  {
    if |parts| == 1 {
      SplitWithoutSeparator(parts[0], sep);
    } else {
      SplitWithoutSeparator(parts[0], sep);
      SplitJoin(parts[1..], sep);
      SplitAround(parts[0], sep, Join(parts[1..], sep));
    }
  }

  // ---------------------------------------------------------------- substring search

  /** `s.Contains(pat)`, computed by scanning. */
  function Contains<T(==)>(s: seq<T>, pat: seq<T>): bool
    decreases |s|
  {
    if pat <= s then true
    else if |s| == 0 then false
    else Contains(s[1..], pat)
  }

  /** An occurrence of `pat` starts at index `i` of `s`. */
  predicate OccursAt<T(==)>(s: seq<T>, pat: seq<T>, i: int)
  {
    0 <= i && i + |pat| <= |s| && s[i..i + |pat|] == pat
  }

  /** The scan finds `pat` exactly when some occurrence exists. */
  lemma {:induction false} ContainsIff<T>(s: seq<T>, pat: seq<T>)
    ensures Contains(s, pat) <==> exists i :: OccursAt(s, pat, i)
  {
    if pat <= s {
      assert OccursAt(s, pat, 0);
    } else if |s| == 0 {
    } else {
      ContainsIff(s[1..], pat);
      if exists i :: OccursAt(s[1..], pat, i) {
        var i :| OccursAt(s[1..], pat, i);
        assert s[i + 1..i + 1 + |pat|] == s[1..][i..i + |pat|];
        assert OccursAt(s, pat, i + 1);
      }
      if exists i :: OccursAt(s, pat, i) {
        var i :| OccursAt(s, pat, i);
        assert i > 0;
        assert s[1..][i - 1..i - 1 + |pat|] == s[i..i + |pat|];
        assert OccursAt(s[1..], pat, i - 1);
      }
    }
  }

  // ---------------------------------------------------------------- ASCII case and bytes

  /** `ToLower` on one UTF-8 byte: only ASCII capitals change. */
  function LowerByte(b: byte): byte {
    if 65 <= b <= 90 then b + 32 else b
  }

  function LowerBytes(s: seq<byte>): (r: seq<byte>)
    ensures |r| == |s|
    ensures forall i :: 0 <= i < |s| ==> r[i] == LowerByte(s[i])
  {
    seq(|s|, i requires 0 <= i < |s| => LowerByte(s[i]))
  }

  function LowerChar(c: char): char {
    if 'A' <= c <= 'Z' then (c as int + 32) as char else c
  }

  function LowerString(s: string): (r: string)
    ensures |r| == |s|
    ensures forall i :: 0 <= i < |s| ==> r[i] == LowerChar(s[i])
  {
    seq(|s|, i requires 0 <= i < |s| => LowerChar(s[i]))
  }

  predicate IsAscii(s: string) {
    forall i :: 0 <= i < |s| ==> s[i] as int < 128
  }

  /** The UTF-8 bytes of an ASCII string: one byte per character. */
  function AsciiBytes(s: string): (r: seq<byte>)
    requires IsAscii(s)
    ensures |r| == |s|
    ensures forall i :: 0 <= i < |s| ==> r[i] as int == s[i] as int
  {
    seq(|s|, i requires 0 <= i < |s| => s[i] as int as byte)
  }

  /** The byte that encodes `_` (and nothing else) in UTF-8. */
  const UNDERSCORE: byte := 0x5F

  // ---------------------------------------------------------------- whitespace

  /** The white space `int.TryParse` skips and `String.Trim` removes (ASCII part). */
  predicate IsWhite(c: char) {
    c == ' ' || '\t' <= c <= '\r'
  }

  predicate AllWhite(s: string) {
    forall k :: 0 <= k < |s| ==> IsWhite(s[k])
  }

  /** The number of white characters at the start of `s`. */
  function LeadingWhite(s: string): (n: nat)
    ensures n <= |s| && AllWhite(s[..n])
    ensures n < |s| ==> !IsWhite(s[n])
  {
    if |s| == 0 || !IsWhite(s[0]) then 0
    else
      var n := 1 + LeadingWhite(s[1..]);
      assert s[..n] == [s[0]] + s[1..][..n - 1];
      n
  }

  /** The number of white characters just before position `j` of `s`. */
  function WhiteBefore(s: string, j: nat): (n: nat)
    requires j <= |s|
    ensures n <= j && forall k :: j - n <= k < j ==> IsWhite(s[k])
    ensures n < j ==> !IsWhite(s[j - n - 1])
  {
    if j == 0 || !IsWhite(s[j - 1]) then 0 else 1 + WhiteBefore(s, j - 1)
  }

  /** The number of white characters at the end of `s`. */
  function TrailingWhite(s: string): (n: nat)
    ensures n <= |s| && AllWhite(s[|s| - n..])
    ensures n < |s| ==> !IsWhite(s[|s| - n - 1])
  {
    WhiteBefore(s, |s|)
  }

  /** `String.Trim()`: `s` without its white prefix and white suffix. */
  function Trim(s: string): (r: string)
    ensures exists i :: 0 <= i <= |s| - |r| && r == s[i..i + |r|] && AllWhite(s[..i]) && AllWhite(s[i + |r|..])
    ensures |r| > 0 ==> !IsWhite(r[0]) && !IsWhite(r[|r| - 1])
  {
    var i := LeadingWhite(s);
    var t := s[i..];
    var r := t[..|t| - TrailingWhite(t)];
    assert r == s[i..i + |r|];
    assert s[i + |r|..] == t[|t| - TrailingWhite(t)..];
    r
  }

  lemma TrimUnpadded(s: string)
    requires |s| > 0 && !IsWhite(s[0]) && !IsWhite(s[|s| - 1])
    ensures Trim(s) == s
  {
    assert LeadingWhite(s) == 0;
    assert s[0..] == s;
    assert TrailingWhite(s) == 0;
  }

  lemma {:induction false} LeadingWhitePadded(before: string, rest: string)
    requires AllWhite(before) && |rest| > 0 && !IsWhite(rest[0])
    ensures LeadingWhite(before + rest) == |before|
    decreases |before|
  {
    if |before| > 0 {
      assert (before + rest)[1..] == before[1..] + rest;
      LeadingWhitePadded(before[1..], rest);
    } else {
      assert before + rest == rest;
    }
  }

  lemma {:induction false} WhiteBeforePadded(rest: string, after: string, j: nat)
    requires AllWhite(after) && |rest| > 0 && !IsWhite(rest[|rest| - 1]) && j <= |after|
    ensures WhiteBefore(rest + after, |rest| + j) == j
  {
    var s := rest + after;
    if j > 0 {
      assert s[|rest| + j - 1] == after[j - 1];
      WhiteBeforePadded(rest, after, j - 1);
    } else {
      assert s[|rest| - 1] == rest[|rest| - 1];
    }
  }

  lemma TrailingWhitePadded(rest: string, after: string)
    requires AllWhite(after) && |rest| > 0 && !IsWhite(rest[|rest| - 1])
    ensures TrailingWhite(rest + after) == |after|
  {
    WhiteBeforePadded(rest, after, |after|);
  }

  /** Trimming removes exactly the white padding around a core that starts and ends with a
      non-white character. */
  lemma TrimPadded(before: string, core: string, after: string)
    requires AllWhite(before) && AllWhite(after)
    requires |core| > 0 && !IsWhite(core[0]) && !IsWhite(core[|core| - 1])
    ensures Trim(before + core + after) == core
  {
    var s := before + core + after;
    assert s == before + (core + after);
    LeadingWhitePadded(before, core + after);
    var t := s[|before|..];
    assert t == core + after;
    TrailingWhitePadded(core, after);
    assert t[..|t| - |after|] == core;
  }

  // ---------------------------------------------------------------- decimal integers

  predicate IsDigit(c: char) {
    '0' <= c <= '9'
  }

  predicate AllDigits(s: string) {
    forall i :: 0 <= i < |s| ==> IsDigit(s[i])
  }

  function DigitChar(d: nat): (c: char)
    requires d < 10
    ensures IsDigit(c)
  {
    ('0' as int + d) as char
  }

  function DigitValue(c: char): (d: nat)
    requires IsDigit(c)
    ensures d < 10
  {
    c as int - '0' as int
  }

  /** Decimal digits of a natural number, most significant first, no leading zeros. */
  function Digits(n: nat): (s: string)
    ensures |s| >= 1 && AllDigits(s)
  {
    if n < 10 then [DigitChar(n)] else Digits(n / 10) + [DigitChar(n % 10)]
  }

  /** `$"{n}"` for an `int`. */
  function Decimal(n: int): (s: string)
    ensures |s| >= 1 && IsAscii(s)
    ensures '_' !in s && '|' !in s && ':' !in s
  {
    if n < 0 then "-" + Digits(-n) else Digits(n)
  }

  /** The value of a string of decimal digits. */
  function DigitsValue(s: string): nat
    requires AllDigits(s)
  {
    if |s| == 0 then 0
    else DigitsValue(s[..|s| - 1]) * 10 + DigitValue(s[|s| - 1])
  }

  lemma {:induction false} DigitsValueOfDigits(n: nat)
    ensures DigitsValue(Digits(n)) == n
  {
    if n >= 10 {
      var s := Digits(n);
      assert s[..|s| - 1] == Digits(n / 10);
      DigitsValueOfDigits(n / 10);
    }
  }

  /** An optional sign followed by at least one ASCII digit, with no white space. */
  function ParseSigned(t: string): Option<int>
  {
    var negative := |t| > 0 && t[0] == '-';
    var body := if |t| > 0 && (t[0] == '-' || t[0] == '+') then t[1..] else t;
    if |body| == 0 || !AllDigits(body) then None
    else
      var magnitude: int := DigitsValue(body);
      Some(if negative then -magnitude else magnitude)
  }

  /** `int.TryParse(s, out v)` with the default `NumberStyles.Integer`: optional surrounding
      white space, an optional sign, at least one ASCII digit, and a value in `int` range. */
  function ParseInt(s: string): Option<int32>
  {
    match ParseSigned(Trim(s))
    case Some(v) => if INT32_MIN <= v <= INT32_MAX then Some(v as int32) else None
    case None => None
  }

  lemma ParseSignedDecimal(n: int)
    ensures ParseSigned(Decimal(n)) == Some(n)
  {
    var s := Decimal(n);
    if n < 0 {
      assert s[1..] == Digits(-n);
      DigitsValueOfDigits(-n);
    } else {
      DigitsValueOfDigits(n);
    }
  }

  /** Formatting an `int` and parsing it back gives the same value. */
  lemma ParseDecimal(n: int32)
    ensures ParseInt(Decimal(n as int)) == Some(n)
  {
    var s := Decimal(n as int);
    assert !IsWhite(s[0]) && !IsWhite(s[|s| - 1]);
    TrimUnpadded(s);
    ParseSignedDecimal(n as int);
  }

  /** Blank text is not a number; callers turn the rejection into a fallback value. */
  lemma ParseIntRejectsBlank(s: string)
    requires AllWhite(s)
    ensures ParseInt(s) == None
  {
  }

  /** Text that starts with anything but white space, a sign or a digit is not a number. */
  lemma ParseIntRejectsNonNumbers(s: string)
    requires |s| > 0 && !IsWhite(s[0]) && !IsDigit(s[0]) && s[0] != '-' && s[0] != '+'
    ensures ParseInt(s) == None
  {
    // the first character is kept by `Trim`, so the trimmed text starts with it
    assert LeadingWhite(s) == 0 && s[0..] == s;
    assert s[|s| - |s|..][0] == s[0];
    assert Trim(s)[0] == s[0];
    assert !AllDigits(Trim(s));
  }
}

=== FILE: wire.dfy ===
/**
 * Primitive wire encodings shared by both protocols: bytes, 32-bit signed integers in
 * little-endian two's complement (what `BitConverter.GetBytes(int)` / `BitConverter.ToInt32`
 * produce and read on a little-endian machine), C# `int` addition with wrap-around, and
 * floats as opaque 4-byte words.
 */
module Wire {

  newtype byte = x: int | 0 <= x < 256

  const INT32_MIN: int := -0x8000_0000
  const INT32_MAX: int := 0x7FFF_FFFF
  const TWO_32: int := 0x1_0000_0000

  newtype int32 = x: int | -0x8000_0000 <= x < 0x8000_0000

  /** A 4-byte IEEE-754 float, kept opaque: the model never does float arithmetic. */
  type Word = s: seq<byte> | |s| == 4 witness [0, 0, 0, 0]

  /** The encoding of `0f`. */
  const ZERO_WORD: Word := [0, 0, 0, 0]

  /** Vector3F: three opaque float words. */
  datatype Vec3 = Vec3(x: Word, y: Word, z: Word)

  const VEC3_ZERO: Vec3 := Vec3(ZERO_WORD, ZERO_WORD, ZERO_WORD)

  /** C# `a + b` on `int`: unchecked, so it wraps modulo 2^32. */
  function Add32(a: int32, b: int32): (r: int32)
    ensures INT32_MIN <= a as int + b as int <= INT32_MAX ==> r as int == a as int + b as int
    ensures a as int + b as int > INT32_MAX ==> r as int == a as int + b as int - TWO_32
    ensures a as int + b as int < INT32_MIN ==> r as int == a as int + b as int + TWO_32
  {
    var s := a as int + b as int;
    if s > INT32_MAX then (s - TWO_32) as int32
    else if s < INT32_MIN then (s + TWO_32) as int32
    else s as int32
  }

  function Pow256(n: nat): (p: nat)
    ensures p >= 1
  {
    if n == 0 then 1 else 256 * Pow256(n - 1)
  }

  /** The low `n` bytes of `u`, least significant first. */
  function LeBytes(u: nat, n: nat): (r: seq<byte>)
    ensures |r| == n
  {
    if n == 0 then [] else [(u % 256) as byte] + LeBytes(u / 256, n - 1)
  }

  /** The unsigned value of a little-endian byte string. */
  function LeValue(s: seq<byte>): (v: nat)
    ensures v < Pow256(|s|)
  {
    if |s| == 0 then 0 else s[0] as nat + 256 * LeValue(s[1..])
  }

  lemma {:induction false} LeValueOfLeBytes(u: nat, n: nat)
    requires u < Pow256(n)
    ensures LeValue(LeBytes(u, n)) == u
  {
    if n > 0 {
      var q := u / 256;
      assert q < Pow256(n - 1);
      LeValueOfLeBytes(q, n - 1);
      assert LeBytes(u, n)[1..] == LeBytes(q, n - 1);
    }
  }

  lemma {:induction false} LeBytesOfLeValue(s: seq<byte>)
    ensures LeBytes(LeValue(s), |s|) == s
  {
    if |s| > 0 {
      var v := LeValue(s);
      var t := LeValue(s[1..]);
      assert v == s[0] as nat + 256 * t;
      assert v % 256 == s[0] as nat;
      assert v / 256 == t;
      LeBytesOfLeValue(s[1..]);
    }
  }

  /** `BitConverter.GetBytes(int)`: two's complement, little-endian. */
  function Int32Bytes(x: int32): (r: Word)
  {
    LeBytes(if x < 0 then x as int + TWO_32 else x as int, 4)
  }

  /** Reinterprets an unsigned 32-bit value as signed. */
  function FromUnsigned(u: nat): int32
    requires u < TWO_32
  {
    if u > INT32_MAX then (u - TWO_32) as int32 else u as int32
  }

  /** `BitConverter.ToInt32(data, offset)`; the source guards every call with a length check. */
  function ReadInt32(data: seq<byte>, offset: nat): int32
    requires offset + 4 <= |data|
  {
    assert Pow256(4) == TWO_32;
    FromUnsigned(LeValue(data[offset..offset + 4]))
  }

  /** The four bytes of a float at `offset` (`BitConverter.ToSingle`, kept opaque). */
  function ReadWord(data: seq<byte>, offset: nat): (w: Word)
    requires offset + 4 <= |data|
    ensures w == data[offset..offset + 4]
  {
    data[offset..offset + 4]
  }

  function Vec3Bytes(v: Vec3): (r: seq<byte>)
    ensures |r| == 12
  {
    v.x + v.y + v.z
  }

  function ReadVec3(data: seq<byte>, offset: nat): Vec3
    requires offset + 12 <= |data|
  {
    Vec3(ReadWord(data, offset), ReadWord(data, offset + 4), ReadWord(data, offset + 8))
  }

  /** Reading an int32 back from its encoding, wherever it sits in a buffer, gives the same value. */
  lemma ReadInt32Bytes(x: int32, before: seq<byte>, after: seq<byte>)
    ensures ReadInt32(before + Int32Bytes(x) + after, |before|) == x
  {
    var data := before + Int32Bytes(x) + after;
    assert data[|before|..|before| + 4] == Int32Bytes(x);
    var u := if x < 0 then x as int + TWO_32 else x as int;
    assert Pow256(4) == TWO_32;
    LeValueOfLeBytes(u, 4);
  }

  /** The int32 at `offset` is determined by the four bytes there. */
  lemma ReadInt32At(data: seq<byte>, offset: nat, x: int32)
    requires offset + 4 <= |data| && data[offset..offset + 4] == Int32Bytes(x)
    ensures ReadInt32(data, offset) == x
  {
    ReadInt32Bytes(x, [], []);
    assert [] + Int32Bytes(x) + [] == Int32Bytes(x);
    assert Int32Bytes(x)[0..4] == Int32Bytes(x);
  }

  /** Conversely, re-encoding the int32 read at `offset` reproduces the four bytes there. */
  lemma Int32BytesOfRead(data: seq<byte>, offset: nat)
    requires offset + 4 <= |data|
    ensures Int32Bytes(ReadInt32(data, offset)) == data[offset..offset + 4]
  {
    var w := data[offset..offset + 4];
    assert Pow256(4) == TWO_32;
    LeBytesOfLeValue(w);
  }

  lemma ReadVec3Bytes(v: Vec3, before: seq<byte>, after: seq<byte>)
    ensures ReadVec3(before + Vec3Bytes(v) + after, |before|) == v
  {
    var data := before + Vec3Bytes(v) + after;
    var o := |before|;
    assert data[o..o + 4] == v.x;
    assert data[o + 4..o + 8] == v.y;
    assert data[o + 8..o + 12] == v.z;
  }
}

=== FILE: wrappers.dfy ===
/** Optional values, used wherever the source returns `false` (or drops a datagram) instead of a value. */
module Wrappers {

  datatype Option<+T> = None | Some(value: T) {

    /** The value inside `Some`, or `default` for `None`. */
    function GetOr(default: T): T {
      match this
      case Some(v) => v
      case None => default
    }
  }
}
